=== FILE: README.md ===
# famplan in Dafny

famplan is a family planner built on Flask. It has a social feed with follows, posts and messages. It has family groups with memberships. It signs users in through an OpenID identity provider. It also has a calendar page that reads and writes events in the user's Google calendar.

This project models the parts of famplan whose behaviour can be stated exactly. The database is an in-memory store: each table is a sequence of rows in id order, and the follow table is a set of pairs. Time is an integer number of seconds. The identity provider, the calendar provider, the random token source and the clock are all inputs to the model.

Modules, one per source file plus shared helpers:

- `Common`, `Text`, `Json`, `PyInt`: the shared vocabulary.
  - Option and Result types.
  - First-match lookup, as in `db.session.scalar(select ... where ...)`.
  - Filtering, string trimming and splitting.
  - JSON values with Python and JavaScript truthiness.
  - Python's `int()` on text.
- `Models` (`app/models.py`):
  - the follow relation and the home timeline;
  - the API-token lifecycle;
  - notifications and the unread-message count;
  - family memberships and their two derived views;
  - the declared columns of family invites.
- `Identity` (`app/routes.py`):
  - `get_current_user`;
  - the sign-in `callback`, which finds or creates the user keyed by the provider's `sub` claim;
  - `POST /api/users`;
  - the guards of `/follow` and `/unfollow`;
  - the bookkeeping of `/messages`;
  - `/edit_profile`, which is modelled in `Forms`.
- `Forms` (`app/forms.py`): the required and length rules, and the username check of the profile form.
- `Config` (`config.py`): the mail flags, the mail port and the page size `PostsPerPage = 25`.
- `CalendarService` (`app/calendar_service.py`): the bodies and arguments sent to the calendar provider.
- `CalendarRoutes` (`app/calendar.py`):
  - the blueprint's own current-user lookup;
  - the connection gate;
  - the credential upsert;
  - the events window and feed;
  - the create and update request handling.
- `CalendarClient` (`app/static/fullcalendar/calendar.js`):
  - the colour hash;
  - the two title-prefix rules;
  - the event form;
  - the drag/resize update payload;
  - the family-member edit guard.

Every operation is a pure function from the old state to the new state and an outcome. An error path is a `Result` or `Option` value: a redirect, a 400/500 status, or an exception the handler would raise.

Two notes on how the page script reads events:

- The accent colour (`eventDidMount`) reads the extended property `familyMemberName`.
- The edit guards (`eventClick`, `eventDrop`, `eventResize`) read `family_member_name`.

The events feed sends neither property. Every event the feed delivers is therefore editable and gets the default accent (`CalendarClient.FeedEventsAreEditable`).

Family invites are described as expiring or being accepted (app/models.py:124-154), but no code issues or redeems one. The model follows the code: `Models.FamilyInvite` holds only the declared columns, with token uniqueness as a predicate.

## Model

| member | source | states |
|---|---|---|
| Models.Follow | app/models.py:245-247 | After a follow, the pair is in the relation. An existing pair leaves the relation as it was. Every other pair keeps its status. The relation grows by one exactly when the pair was new. |
| Models.Unfollow | app/models.py:249-251 | After an unfollow, the pair is gone. A missing pair leaves the relation as it was. Every other pair keeps its status. The relation shrinks by one exactly when the pair was there. |
| Models.IsFollowing | app/models.py:253-255 | `is_following` holds iff the (follower, followed) pair is a row of the association table. |
| Models.FollowIdempotent | app/models.py:245-247 | Following twice is the same as following once. |
| Models.UnfollowUndoesFollow | app/models.py:245-251 | Unfollowing a pair that was just followed, and was not followed before, restores the original relation. |
| Models.FollowUndoesUnfollow | app/models.py:245-251 | Re-following a pair that was just unfollowed restores the original relation. |
| Models.InsertByTime | app/models.py:274 | Inserting a post into a newest-first list keeps it newest first. The result is the old posts plus the new one, as a multiset. |
| Models.SortNewestFirst | app/models.py:274 | The result is ordered newest first and is a permutation of the input. |
| Models.FollowingPosts | app/models.py:265-275 | A post is on the timeline iff it is stored and written by the viewer or by someone the viewer follows. The timeline is newest first. It holds no post twice when the store holds none twice. |
| Models.GetToken | app/models.py:295-303 | A token valid for more than 60 more seconds is returned unchanged, with the user untouched. Otherwise the fresh token is stored with expiry now + `expires_in`. Only the token columns change. |
| Models.RevokeToken | app/models.py:305-306 | The expiry moves before the revocation time. The token and every other column stay. |
| Models.CheckToken | app/models.py:308-314 | A returned user holds the token and has an expiry no earlier than now. With unique tokens, a user is returned iff some user holds the token with such an expiry. |
| Models.IssuedTokenChecks | app/models.py:295-314 | A token handed out by get_token passes check_token at that moment and keeps tokens unique, provided the random value is not already another user's. |
| Models.RevokedTokenFails | app/models.py:305-314 | After revoke_token at time t, every check of that token at t or later fails. |
| Models.AddNotification | app/models.py:287-293 | Afterwards the user has exactly one notification of that name, carrying the new payload. All notifications of other users or other names are unchanged, in order. |
| Models.UnreadMessageCount | app/models.py:277-285 | The loop counts exactly the messages to the user that are newer than the read watermark. The watermark defaults to 1900-01-01. |
| Models.AddMembership | app/models.py:88-92 | An insert is refused iff the (user, family) pair already has a row. Otherwise exactly one row is appended. One row per pair is preserved. |
| Models.Members | app/models.py:76-79 | u is a member of f iff a membership row (u, f) exists. Under the unique constraint, no member is listed twice. |
| Models.Families | app/models.py:217-220 | f is among u's families iff a membership row (u, f) exists. |
| Models.MembershipViewsAgree | app/models.py:217-220 | u is in f's members iff f is in u's families iff the row (u, f) exists. |
| Identity.CurrentUserIndex | app/routes.py:33 | The index found is the first row carrying the session's sub. No index is found iff no row carries that sub. |
| Identity.GetCurrentUser | app/routes.py:19-39 | There is no user without a session user or a truthy sub. A found user is stored and carries the session's sub. A user is found whenever some row carries the sub. Under unique keys, it is the only such row. |
| Identity.SyntheticEmail | app/routes.py:86-88 | The fallback address is the sub with every vertical bar replaced by `_`, followed by `@noemail.example.com`. It contains no vertical bar. |
| Identity.ResolvedEmail | app/routes.py:86-88 | A truthy email claim is used as it is. Otherwise the synthetic address is used. The result is never empty. |
| Identity.NextUserId | app/models.py:167 | A new row's id exceeds every stored id. |
| Identity.Callback | app/routes.py:65-156 | State mismatch, failed exchange and missing sub occur exactly in their cases. The insert is rejected exactly when the sub is unknown, the resolved email is free, and the nickname is a JSON null or already a username (the NOT NULL and UNIQUE username column of app/models.py:168). Each failure clears the session and leaves the users alone. A sign-in keeps the token in the session and names a stored row with the claimed sub and the resolved email. |
| Identity.FirstSignIn | app/routes.py:91-116 | The first sign-in into an empty store files the identity as user 1, with its nickname, resolved email and sub. |
| Identity.CallbackRejectsTakenEmail | app/routes.py:91-106 | An unknown sub whose resolved email a stored user owns is refused. No user is created and the session is cleared. |
| Identity.CallbackCreatesUser | app/routes.py:109-116 | An unknown sub with a free email and a free username adds exactly one row. The row holds that sub, the email, and the nickname, or `default_user` when the nickname is absent. |
| Identity.CallbackRejectsTakenUsername | app/routes.py:109-115 | A new identity with a free email whose nickname is taken, or null, is refused with a cleared session and nothing stored, as the handler at lines 149-156 does. It cannot sign in while that name is taken. |
| Identity.CallbackKeepsEmailOnConflict | app/routes.py:117-133 | A known sub reporting an email that a different user owns is refused, and the stored email stays. |
| Identity.CallbackKnownIdentity | app/routes.py:117-136 | A known sub signs in as its own row or is refused. On sign-in only that row's email changes, to the resolved email. An unchanged email changes nothing. |
| Identity.AppendKeepsKeysUnique | app/models.py:167-170 | A row that clashes with no stored row on id, username, email or sub keeps those columns unique. |
| Identity.SetEmailKeepsKeysUnique | app/models.py:169 | Giving a row an email that no other row holds keeps the keys unique. |
| Identity.NewIdentityKeepsKeysUnique | app/routes.py:109-115 | Inserting an identity whose sub, email and username no stored row holds, under the next id, keeps every key unique. |
| Identity.CallbackKeepsKeysUnique | app/routes.py:91-136 | The callback never breaks the uniqueness of id, username, email and sub. |
| Identity.CurrentUserAt | app/routes.py:33-39 | The session resolves to row k when row k is the first with the session's sub. |
| Identity.CallbackSignsIn | app/routes.py:77-138 | After a successful callback, get_current_user resolves the new session to the signed-in user. |
| Identity.LocalPart | app/routes.py:175 | The default username is the part of the address before its first `@`, or the whole address when there is none. |
| Identity.RequestedUsername | app/routes.py:175 | Without a `username` key the username is the local part of the email. With one, a string value is taken as it is and any other value is refused. |
| Identity.CreateUser | app/routes.py:166-181 | Status 400 occurs iff there is no object body or it has no `email` key. Otherwise the answer is 201 or 500. A 500 leaves the users alone. A 201 means the email is a string and some user holds it. Unique keys are preserved. |
| Identity.CreateUserOutcome | app/routes.py:171-181 | An email that is not a string answers 500. A known email creates nothing and answers 201. A new email whose username and `manual` + vertical bar + email sub are free appends exactly one row with those values and answers 201. A new email whose username is not a string, or whose username or sub is taken, answers 500 and leaves the users alone. |
| Identity.FollowGuard | app/routes.py:258-271 | No session user leads to login. An invalid form leads to the index. An unknown target is refused. A known target with an unstored session user crashes. The guard refuses iff the first user with that name is the session user. It passes iff the session user is stored and that first user is someone else, and then yields the two ids. |
| Identity.FollowRoute | app/routes.py:258-276 | The relation changes only when the guard passes. Then the current user follows the target and nothing else changes. Nobody ever comes to follow themselves. |
| Identity.UnfollowRoute | app/routes.py:278-296 | The relation changes only when the guard passes. Then the current user no longer follows the target and nothing else changes. |
| Identity.ReadMessages | app/routes.py:298-305 | Without a session user the route redirects. An unstored user makes the handler raise. Otherwise only that user's watermark moves to now, and its unread-count notification becomes 0. |
| Identity.ReadMessagesClearsUnread | app/routes.py:298-305 | After viewing the messages page at time now, no message sent at or before now counts as unread. |
| Forms.DataRequiredIff | app/forms.py:11 | A required field passes iff it holds a character that is not white space. |
| Forms.ValidateBody | app/forms.py:33-42 | A post or message body passes iff it has a character that is not white space and at most 140 characters. |
| Forms.ValidateUsername | app/forms.py:21-26 | An unchanged name passes. A changed name passes iff no stored user holds it. |
| Forms.ValidateProfile | app/forms.py:9-26 | The form passes iff the username is required-valid, the about-me text has at most 140 characters, and the username is unchanged or held by no user. |
| Forms.EditProfile | app/routes.py:241-252 | The form is stored iff it validates. Then only the user's username and about-me change. |
| Forms.EditProfileRoute | app/routes.py:241-256 | With no session user the route redirects to login. With a session user that is not stored it crashes on `user.username`. Otherwise it stores the edit iff the request is a POST with a valid CSRF token and the form validates against the user's current username, and shows the form with nothing changed in every other case. |
| Forms.EditProfileRouteKeepsSession | app/routes.py:241-251 | After a saved edit the same session still resolves to the same row, which now holds the new username. |
| Forms.EditProfileKeepsKeysUnique | app/forms.py:21-26 | Profile edits keep usernames, and every other key, unique. |
| Config.EnvFlag | config.py:18-19 | An unset flag is off. |
| Config.EnvFlagIff | config.py:18-19 | A flag is on iff it is set to `true` or `t` in any letter case, or to `1`. |
| Config.MailPort | config.py:17 | An unset port is 25. Otherwise the port is `int()` of the value, and there is no port when that raises. |
| PyInt.PyParseInt | config.py:17 | `int()` on a text succeeds only when the text holds something besides white space. |
| PyInt.PyParseIntDigits | config.py:17 | `int()` of a plain run of decimal digits is their decimal value. |
| PyInt.PyParseIntNegatedDigits | config.py:17 | `int()` of a minus sign followed by decimal digits is minus their value. |
| Config.MailPortRoundTrip | config.py:17 | A port written in decimal is the port configured. |
| CalendarService.EventsListRequest | app/calendar_service.py:48-64 | A missing lower bound is the naive time now. A missing upper bound lies 30 days after the lower one and keeps its awareness. Both bounds are sent as `isoformat()` with a `Z` appended, whatever their awareness. The listing expands recurring events and orders by start time. |
| CalendarService.ZuluText | app/calendar_service.py:59-60 | The text is the datetime's `isoformat()` with one `Z` appended. |
| CalendarService.ZuluTextUtcIff | app/calendar_service.py:59-60 | When `isoformat()` writes an offset exactly for aware datetimes, the sent text is a well-formed UTC stamp iff the datetime is naive. An aware one goes out as `…+00:00Z`. |
| CalendarService.DefaultListingIsUtc | app/calendar_service.py:49-60 | With neither bound given, both texts are well-formed UTC stamps: now and now + 30 days, naive. |
| CalendarService.EventItems | app/calendar_service.py:67 | An answer without `items` yields the empty list. Otherwise its items are returned. |
| CalendarService.TimeObject | app/calendar_service.py:84-91 | A time is an object with exactly `dateTime` and `timeZone: UTC`. |
| CalendarService.AttendeeObjects | app/calendar_service.py:95 | There is one `{email: e}` object per address, in order. |
| CalendarService.AttendeeObjectsRoundTrip | app/calendar_service.py:94-95 | The attendee objects carry exactly the given addresses, in order. |
| CalendarService.EventBody | app/calendar_service.py:71-95 | Summary, location and description are copied. A missing start is now. A missing end is one hour after the start. `attendees` is present iff the list is truthy. |
| CalendarService.EventBodyAttendees | app/calendar_service.py:94-95 | An address list reaches the provider as one attendee per address, in order, and as no key when empty. |
| CalendarService.FreeBusyBody | app/calendar_service.py:120-125 | The body has exactly timeMin, timeMax and one item per calendar. Each bound is its datetime's `isoformat()` with a `Z` appended, aware or not. |
| CalendarService.FreeBusyItemsRoundTrip | app/calendar_service.py:121-125 | The items name every calendar once, in the given order. |
| CalendarRoutes.SessionEmail | app/calendar.py:43-44 | The lookup's key exists iff the session token has userinfo with an email claim. |
| CalendarRoutes.CalendarUserAsWritten | app/calendar.py:41-45 | The blueprint's lookup raises exactly when the email claim is missing. It finds a stored user with that email when one exists, and none otherwise. |
| CalendarRoutes.EmaillessSignInBreaksCalendarLookup | app/calendar.py:41-45 | Every successful sign-in without an email claim makes the blueprint's lookup raise. The lookup by sub finds the signed-in user. |
| CalendarRoutes.EmaillessSignInExample | app/calendar.py:43-44 | Concrete case: a sub with a vertical bar and no email signs in as user 1, and the blueprint's lookup raises. |
| CalendarRoutes.CredentialsOf | app/calendar.py:30-31 | A user has credentials iff it has a credential row. They come from one of its rows. |
| CalendarRoutes.AuthGate | app/calendar.py:23-38 | No user leads to login. A user without credentials goes to authorization. Otherwise the route proceeds with that user's credentials. |
| CalendarRoutes.CalendarGateAsWritten | app/calendar.py:23-38 | The gate raises exactly when the blueprint's lookup raises. Otherwise it decides as above. |
| CalendarRoutes.CalendarGate | app/calendar.py:23-38 | The corrected gate sends to login iff the lookup by sub finds nobody. A proceeding user is stored and carries the session's sub. |
| CalendarRoutes.SignInPassesCalendarGate | app/calendar.py:23-38 | Every successful sign-in, with or without an email claim, passes the corrected gate as the signed-in user. |
| CalendarRoutes.NextRowId | app/models.py:377 | A new credential row's id exceeds every stored id. |
| CalendarRoutes.OAuthCallback | app/calendar.py:73-108 | No state sends back to the calendar, and no user to login, with nothing stored. Credentials without a refresh token or an expiry fail the commit against the NOT NULL columns of app/models.py:380-385, and the rows stay as they were. Otherwise the user ends with the fetched credentials. A new row appears only when the user had none. Other users' rows are untouched. One row per user, and storable rows, are preserved. |
| CalendarRoutes.OAuthCallbackIdempotent | app/calendar.py:96-106 | Connecting twice with the same credentials stores the same rows as connecting once. |
| CalendarRoutes.OAuthCallbackOpensGate | app/calendar.py:96-106 | After connecting with storable credentials, the gate lets the user through with them. After a failed commit the gate answers as before. |
| CalendarRoutes.IsoArgument | app/calendar.py:133 | Every `Z` becomes `+00:00`, so none is left, and a text without `Z` is unchanged. The same rewrite is at lines 138, 188-189, 240 and 246. |
| CalendarRoutes.EventsWindow | app/calendar.py:129-140 | A truthy `start` or `end` is parsed after `Z` becomes `+00:00`, and a parse failure is an error. A missing start is the naive time now. A missing end is 30 days after the start, with the start's awareness. |
| CalendarRoutes.EventsRequest | app/calendar.py:142-147 | The listing asks for the primary calendar, 100 results, and that window, each bound written as `isoformat()` plus `Z`. With no arguments the window is [now, now + 30 days]. |
| CalendarRoutes.AwareStartBreaksStamp | app/calendar.py:132-138 | A `start` argument that parses to an aware datetime is sent as a text that is not a UTC stamp, and so is the default end derived from it. |
| CalendarRoutes.PickTime | app/calendar.py:151-152 | `dateTime` is preferred, then `date`, else null. |
| CalendarRoutes.FormatEvent | app/calendar.py:150-161 | An event formats iff it has an id, a summary, a start and an end. The row has exactly id, title, start, end, description and location. The title is the summary, and description and location default to `''`. |
| CalendarRoutes.FormatEvents | app/calendar.py:149-161 | The feed succeeds iff every event formats. Then it has one row per event, in order. |
| CalendarRoutes.EventsFeed | app/calendar.py:142-163 | The feed formats the answer's items. An answer without items gives the empty feed, and every row has the feed's keys. |
| CalendarRoutes.ParseBodyTime | app/calendar.py:188-189 | A body time parses iff it is a string that the ISO parser accepts once `Z` is rewritten. |
| CalendarRoutes.CreateEventRequest | app/calendar.py:166-199 | The request fails iff start, end or title is missing, a time does not parse, or the attendees are truthy but not iterable. On success the provider gets the title as summary and the parsed times as UTC time objects. Description and location default to `''`. Attendees are present iff the list is truthy, and then there is one `{email}` object per entry. |
| CalendarRoutes.TimeUpdate | app/calendar.py:239-250 | An absent key leaves the time alone. A present key must parse. A null fails unless null is read as absent. |
| CalendarRoutes.TouchedKeys | app/calendar.py:233-252 | The update rewrites summary iff the body has a title, start or end iff they are applied, and attendees iff the body has them. |
| CalendarRoutes.CopyFields | app/calendar.py:233-238 | Title, description and location are copied from the body where present, and every other key is kept. |
| CalendarRoutes.ApplyTime | app/calendar.py:239-250 | A time update fails iff the time fails to parse. Otherwise it writes the parsed time as a UTC object and keeps every other key. |
| CalendarRoutes.ApplyAttendees | app/calendar.py:251-252 | Body attendees replace the event's with one `{email: e}` per entry, in order. A non-iterable value fails. |
| CalendarRoutes.MergeWith | app/calendar.py:233-252 | The merge fails exactly when a time or the attendees fail. |
| CalendarRoutes.MergeKeys | app/calendar.py:233-252 | The merged event's keys are the stored event's keys plus exactly those the body rewrites. |
| CalendarRoutes.MergeKeepsUntouched | app/calendar.py:233-252 | Every stored key the body does not rewrite keeps its value. |
| CalendarRoutes.MergeWrites | app/calendar.py:233-252 | The body's title becomes the summary. Description, location, times and attendees take the body's values. |
| CalendarRoutes.MergeUpdateAsWritten | app/calendar.py:233-252 | The update as written fails iff a present start or end does not parse or the attendees are not iterable. A null start or end always fails. |
| CalendarRoutes.MergeUpdate | app/calendar.py:239-250 | The corrected update reads a null start or end as unchanged. It fails only on a real parse or attendee error. |
| CalendarRoutes.MergeUpdateAgrees | app/calendar.py:239-250 | On bodies without null times, the corrected update equals the one as written. |
| CalendarRoutes.NullEndFailsUpdate | app/calendar.py:245-246 | A body with a null end fails as written. The corrected update moves the start and keeps the stored end. |
| CalendarRoutes.MergeMovesTimes | app/calendar.py:239-250 | A body that only moves the times writes them and keeps every other key of the stored event. |
| CalendarClient.ToInt32 | app/static/fullcalendar/calendar.js:325 | The result is a signed 32-bit value congruent to the argument modulo 2^32. |
| CalendarClient.ToInt32Unique | app/static/fullcalendar/calendar.js:325 | ToInt32 is the only signed 32-bit value congruent to its argument. |
| CalendarClient.SignedShiftRight | app/static/fullcalendar/calendar.js:329 | `x >> n` is the 32-bit value of x divided by 2^n, rounded towards minus infinity. It stays a signed 32-bit value. |
| CalendarClient.ShiftLeftWraps | app/static/fullcalendar/calendar.js:325 | `hash << 5` equals hash times 32 wrapped to 32 bits. It does not matter whether hash is wrapped first. |
| CalendarClient.HashStep | app/static/fullcalendar/calendar.js:325 | One round adds the code unit to the 32-bit wrap of hash times 32, minus the unwrapped hash. |
| CalendarClient.LowByte | app/static/fullcalendar/calendar.js:329 | `& 0xFF` yields a byte. |
| CalendarClient.Utf16Units | app/static/fullcalendar/calendar.js:324-325 | The hash visits UTF-16 code units, at least one per character, each below 2^16. |
| CalendarClient.Hash | app/static/fullcalendar/calendar.js:323-326 | The hash starts at 0 and takes one round per code unit, in order. StringToColor's loop is proved to compute it. |
| CalendarClient.HashBound | app/static/fullcalendar/calendar.js:323-326 | After n code units, the hash's magnitude is at most n·(2^31 + 2^16). |
| CalendarClient.ToHex | app/static/fullcalendar/calendar.js:330 | `toString(16)` gives lower-case hex digits without a leading zero. |
| CalendarClient.ToHexRoundTrip | app/static/fullcalendar/calendar.js:330 | Reading the hex digits back gives the number. |
| CalendarClient.Hex2 | app/static/fullcalendar/calendar.js:330 | A byte is written as two hex digits that read back as that byte. |
| CalendarClient.PaddedHex | app/static/fullcalendar/calendar.js:330 | `('00' + v.toString(16)).substr(-2)` is exactly the byte's two-digit form. |
| CalendarClient.ByteOf | app/static/fullcalendar/calendar.js:329 | Byte i of the hash is a byte. |
| CalendarClient.ColorDigits | app/static/fullcalendar/calendar.js:327-331 | n bytes give 2n lower-case hex digits. |
| CalendarClient.ColorOf | app/static/fullcalendar/calendar.js:322-333 | The colour is `#` followed by the hex digits of the hash's three low bytes, lowest first. StringToColor and ColorShape are stated against it. |
| CalendarClient.StringToColor | app/static/fullcalendar/calendar.js:322-333 | The two loops compute the colour: `#` followed by the three low bytes of the hash, lowest first. |
| CalendarClient.ColorShape | app/static/fullcalendar/calendar.js:322-333 | Every colour is `#` followed by six lower-case hex digits. |
| CalendarClient.EmptyIsBlack | app/static/fullcalendar/calendar.js:323-332 | The empty text is `#000000`. |
| CalendarClient.AccentColor | app/static/fullcalendar/calendar.js:89-94 | A falsy name gets `#3788d8`, and a non-empty string its hash colour. Only a non-empty list fails. |
| CalendarClient.StripTitlePrefix | app/static/fullcalendar/calendar.js:60 | A title without `:`, or with a line break before its first `:`, is unchanged. Otherwise the result is the suffix after the first `:` with the white space that follows it removed. |
| CalendarClient.StripTitlePrefixOf | app/static/fullcalendar/calendar.js:60 | `p: q`, where p is colon-free and single-line, becomes q. |
| CalendarClient.StripTitlePrefixAt | app/static/fullcalendar/calendar.js:60 | With the first colon at k, the result is the rest after k with its leading white space trimmed. |
| CalendarClient.StripColonSpace | app/static/fullcalendar/calendar.js:283 | A title without `: ` is unchanged. The result is always a suffix of the title. |
| CalendarClient.StripColonSpaceOf | app/static/fullcalendar/calendar.js:283 | `p: q`, where p is single-line and holds no `: `, becomes q. |
| CalendarClient.ClientEventOf | app/static/fullcalendar/calendar.js:58-63 | Row keys beyond id, title, start and end become extended properties, and the title is kept. |
| CalendarClient.StripRowTitle | app/static/fullcalendar/calendar.js:58-62 | A truthy string title is stripped and every other key is kept. A truthy title that is not a string fails. |
| CalendarClient.StripTitles | app/static/fullcalendar/calendar.js:58-63 | The feed callback strips every row, in order, and fails iff some row fails. |
| CalendarClient.DragPayload | app/static/fullcalendar/calendar.js:284-285 | The corrected drag body carries only the new start, plus the new end when there is one. |
| CalendarClient.EventDrop | app/static/fullcalendar/calendar.js:149-164 | A drag or resize is reverted iff the event has a truthy `family_member_name`. Otherwise the page sends the whole body of `updateEvent`: all six keys, with the title stripped of `p: `. |
| CalendarClient.EventDropCorrected | app/static/fullcalendar/calendar.js:149-164 | The corrected drag keeps the same guard. The update it sends carries only start and end. |
| CalendarClient.EventClick | app/static/fullcalendar/calendar.js:139-145 | A click is refused iff the event has a truthy `family_member_name`. |
| CalendarClient.FeedEventsAreEditable | app/static/fullcalendar/calendar.js:139-164 | Every event the feed delivers can be dragged and edited, and gets the default accent. |
| CalendarClient.JsOr | app/static/fullcalendar/calendar.js:286-288 | JavaScript's logical or of v and d is v when v is truthy and d otherwise. |
| CalendarClient.UpdatePayloadAsWritten | app/static/fullcalendar/calendar.js:281-289 | The drag body resends the title stripped of `p: ` and the start. It sends the end when there is one, and null otherwise. Description, location and attendees default to `''`, `''` and `[]`. |
| CalendarClient.OpenEndedDragFails | app/static/fullcalendar/calendar.js:285 | Dragging an event without an end makes the update as written fail. |
| CalendarClient.MeetingTitleStripped | app/static/fullcalendar/calendar.js:60 | `Meeting: budget` is shown as `budget`. |
| CalendarClient.MeetingShownAsBudget | app/static/fullcalendar/calendar.js:58-62 | The feed row of the example event carries only the feed's keys, so no attendees, and is titled `budget`. |
| CalendarClient.BudgetDragBody | app/static/fullcalendar/calendar.js:283 | Dragging that row sends the title `budget` and an empty attendee list. |
| CalendarClient.DragRenamesAndDropsAttendees | app/static/fullcalendar/calendar.js:281-289 | As written, dragging `Meeting: budget` makes the page send the stripped body. The stored event is renamed to `budget` and loses its attendees. |
| CalendarClient.DragKeepsEvent | app/static/fullcalendar/calendar.js:149-164 | The corrected drag moves start and end and keeps every other key of the stored event. The corrected guard sends that body for every event that is not a family member's. |
| CalendarClient.CleanEntries | app/static/fullcalendar/calendar.js:247 | Pieces are trimmed and empty ones dropped. What is left is non-empty and trimmed, and there are no more entries than pieces. |
| CalendarClient.TrimAll | app/static/fullcalendar/calendar.js:247 | `.map(e => e.trim())` keeps the length and trims each piece in place. |
| CalendarClient.CleanEntriesIsFilter | app/static/fullcalendar/calendar.js:247 | For every list of pieces, the entries are exactly the non-empty trimmed pieces, in their original order. |
| CalendarClient.ExtraAttendees | app/static/fullcalendar/calendar.js:247 | Extra attendees are non-empty, trimmed and comma-free. |
| CalendarClient.ExtraAttendeesIsFilter | app/static/fullcalendar/calendar.js:247 | For every text, the extra attendees are the comma-split pieces, trimmed, with the empty ones dropped, in order. |
| CalendarClient.SaveEvent | app/static/fullcalendar/calendar.js:239-261 | Nothing is sent iff title, start or end is empty or a date is invalid. A form with an event id sends PUT, otherwise POST. The body carries the fields, and its attendees are the selected members followed by the extra addresses. |
| CalendarClient.ExtraAttendeesRoundTrip | app/static/fullcalendar/calendar.js:247 | The attendee text the edit form shows, joined with `, ` (line 215), reads back as the same list. |
| CalendarClient.SavedEventReachesProvider | app/static/fullcalendar/calendar.js:254-261 | A saved form reaches the provider with its title as summary and its parsed times. The attendees are exactly the form's addresses, in order, or absent when there are none. |

## Left out

- Persistence: the ORM, SQL, commits, Flask sessions as storage, redirects, flashes, templates and JSON replies. Outcomes are tagged values.
- The identity provider's code exchange and the Google OAuth flow and API calls. Their answers are inputs, and what is sent to them is the result.
- `secrets.token_hex` is the parameter `newToken`; its uniqueness is a precondition where it matters.
- The clock is the parameter `now`. The ISO parser and formatter (`datetime.fromisoformat`, `isoformat`, `toISOString`) are oracle parameters. Where a lemma needs it, `isoformat` is required to end in a `±hh:mm` offset exactly for aware datetimes.
- Pagination (`db.paginate`, `to_collection_dict`). Only the page size is modelled.
- Gravatar avatars, language detection, `last_seen`, follower counts, and the JSON encoding of notification payloads and scopes.
- Routes that only render or redirect: index, explore, user pages, login, logout, calendar index and authorize, delete_event, send_message and notifications.
- The `family_id` query filter of the events feed, because no route reads it.
- The prefill of the edit form (`openEventModal`), apart from the attendee text it shows, and the GET prefill of `/edit_profile`.
- Invite issuance and redemption, because no code implements them.
- Tasks, `update_subs.py`, `app/__init__.py` and `famplan.py`.
- Json.PyIterate: a JSON object is treated as not iterable, whereas Python iterates over its keys. No client sends an object as the attendees.
- Identity.CreateUser: a JSON body that is not an object (a list, a string or a number) is not modelled. Python would test `in` on it and then fail or answer 400. An email that is not a string is answered 500. SQLite could still match a number against a stored address with the same text and answer 201. A username that is a number is refused, although SQLite would store its text.
- PyInt.PyParseInt: accepts only ASCII digits and Python white space. It does not handle digits of other scripts, which `int()` also reads.
- CalendarClient.HashBound: bounds the hash but does not model double rounding for texts longer than about four million code units. Beyond that the exact-integer model no longer matches.

## Findings

| source | as written | input that shows it | evidently intended | confidence | as-written member | corrected member |
|---|---|---|---|---|---|---|
| app/static/fullcalendar/calendar.js:281-289 | The feed strips the title up to the first colon (line 60). The drag body resends that stripped title and sends `attendees: []`, because the feed never delivers attendees. | Drag an event titled `Meeting: budget` that has one attendee. | A drag or resize moves only start and end and keeps the stored title and attendees. | not executed | CalendarClient.DragRenamesAndDropsAttendees | CalendarClient.DragKeepsEvent |
| app/calendar.py:41-45 | The calendar blueprint finds the current user through the session's `userinfo['email']`. An identity without an email claim, filed under a synthetic address at sign-in, makes the lookup raise KeyError. | Sign in with an identity whose claims carry a sub but no email, then open `/calendar/events`. | Find the current user by sub, as the application's own `get_current_user` does. | not executed | CalendarRoutes.EmaillessSignInExample | CalendarRoutes.SignInPassesCalendarGate |
| app/calendar.py:245-246 | The page sends `end: null` when it drags an event without an end (calendar.js line 285). The update then calls `.replace` on None. | Drag an all-day event that has no end. | A null end leaves the stored end unchanged. | not executed | CalendarRoutes.NullEndFailsUpdate | CalendarRoutes.MergeUpdate |

=== FILE: calendar_client.dfy ===
/** The pure helpers of the calendar page script
    (`app/static/fullcalendar/calendar.js`): the string-to-colour hash, the
    two title-prefix rules, the attendee list and the request of the event
    form, the drag/resize update payload, and the guard that keeps family
    members' events read-only.  The calendar widget, the DOM and `Date` are
    outside the model: the widget's parsed start and end are inputs, and
    `toISOString` is a parameter. */
module CalendarClient {
  import opened Common
  import opened Text
  import opened Json
  import opened CalendarService
  import opened CalendarRoutes

  // ---------------------------------------------------------------------------
  // 32-bit integers as JavaScript's bit operators see them

  const TwoTo31: int := 0x8000_0000
  const TwoTo32: int := 0x1_0000_0000

  /** ECMAScript ToInt32 of an integral number: the value modulo 2^32, read
      as a signed 32-bit integer. */
  function ToInt32(x: int): (r: int)
    ensures -TwoTo31 <= r < TwoTo31
    ensures (x - r) % TwoTo32 == 0
  {
    var m := x % TwoTo32;
    if m >= TwoTo31 then m - TwoTo32 else m
  }

  /** ToInt32 is the only signed 32-bit value congruent to its argument. */
  lemma ToInt32Unique(x: int, r: int)
    requires -TwoTo31 <= r < TwoTo31 && (x - r) % TwoTo32 == 0
    ensures ToInt32(x) == r
  {
    var t := ToInt32(x);
    assert (t - r) % TwoTo32 == 0 by {
      assert t - r == (x - r) - (x - t);
    }
    assert -TwoTo32 < t - r < TwoTo32;
  }

  function Pow2(n: nat): (p: nat)
    ensures p >= 1
  {
    if n == 0 then 1 else 2 * Pow2(n - 1)
  }

  /** `x >> n` for n < 32: ToInt32 of x, shifted right with its sign, which
      rounds towards minus infinity and stays a signed 32-bit value. */
  function SignedShiftRight(x: int, n: nat): (r: int)
    requires n < 32
    ensures Pow2(n) * r <= ToInt32(x) < Pow2(n) * (r + 1)
    ensures -TwoTo31 <= r < TwoTo31
  {
    FloorDivision(ToInt32(x), Pow2(n));
    ToInt32(x) / Pow2(n)
  }

  /** Division by a positive p rounds down and never grows the magnitude of
      a signed 32-bit value. */
  lemma FloorDivision(t: int, p: int)
    requires p >= 1 && -TwoTo31 <= t < TwoTo31
    ensures p * (t / p) <= t < p * (t / p + 1)
    ensures -TwoTo31 <= t / p < TwoTo31
  {
    var q := t / p;
    assert p * q <= t < p * q + p;
    assert p * (q + 1) == p * q + p;
    if q >= TwoTo31 {
      ScaleAway(p, q);
    } else if q < -TwoTo31 {
      ScaleAway(p, q + 1);
    }
  }

  /** Multiplying by a positive integer moves a value away from zero. */
  lemma {:induction false} ScaleAway(p: int, q: int)
    requires p >= 1
    ensures q >= 0 ==> p * q >= q
    ensures q < 0 ==> p * q <= q
    decreases p
  {
    if p > 1 {
      ScaleAway(p - 1, q);
      assert p * q == (p - 1) * q + q;
    }
  }

  /** `x & 0xFF` for a signed 32-bit x: the low eight bits of its two's
      complement. */
  function LowByte(x: int): (b: nat)
    ensures b < 256
  {
    x % 256
  }

  // ---------------------------------------------------------------------------
  // The string hash of stringToColor

  /** The UTF-16 code units `charCodeAt` visits: a character beyond the basic
      plane is a surrogate pair. */
  function Utf16Units(s: string): (us: seq<int>)
    ensures |us| >= |s|
    ensures forall i :: 0 <= i < |us| ==> 0 <= us[i] < 0x1_0000
  {
    if s == [] then []
    else
      var c := s[0] as int;
      var head := if c < 0x1_0000 then [c] else [0xD800 + (c - 0x1_0000) / 0x400, 0xDC00 + (c - 0x1_0000) % 0x400];
      head + Utf16Units(s[1..])
  }

  /** One round of the hash: `unit + ((hash << 5) - hash)`.  The shift is a
      32-bit operation; the subtraction and addition are not. */
  function HashStep(hash: int, unit: int): (r: int)
    ensures r == unit + ToInt32(hash * 32) - hash
  {
    ShiftLeftWraps(hash);
    unit + (ToInt32(ToInt32(hash) * 32) - hash)
  }

  /** `hash << 5` is hash times 32 wrapped to 32 bits, whether or not hash
      itself is wrapped first. */
  lemma ShiftLeftWraps(hash: int)
    ensures ToInt32(ToInt32(hash) * 32) == ToInt32(hash * 32)
  {
    var w := ToInt32(hash * 32);
    var t := ToInt32(hash);
    assert (t * 32 - w) % TwoTo32 == 0 by {
      assert t * 32 - w == (hash * 32 - w) - (hash - t) * 32;
      assert (hash - t) % TwoTo32 == 0;
      var q := (hash - t) / TwoTo32;
      assert (hash - t) * 32 == q * 32 * TwoTo32;
    }
    ToInt32Unique(t * 32, w);
  }

  /** The hash after the given code units, starting from 0. */
  function Hash(units: seq<int>): int
    decreases |units|
  {
    if units == [] then 0 else HashStep(Hash(units[..|units| - 1]), units[|units| - 1])
  }

  /** The most one round can move the hash away from minus itself. */
  const StepBound: int := TwoTo31 + 0x1_0000

  /** The hash grows at most linearly: after n code units its magnitude is
      at most n * (2^31 + 2^16), so it stays an exact double (below 2^53)
      for every text shorter than four million code units. */
  lemma {:induction false} HashBound(units: seq<int>)
    requires forall i :: 0 <= i < |units| ==> 0 <= units[i] < 0x1_0000
    ensures -(|units| * StepBound) <= Hash(units) <= |units| * StepBound
    decreases |units|
  {
    if units != [] {
      var prefix := units[..|units| - 1];
      HashBound(prefix);
      var h := Hash(prefix);
      var shifted := ToInt32(ToInt32(h) * 32);
      assert Hash(units) == units[|units| - 1] + shifted - h;
      assert |units| * StepBound == |prefix| * StepBound + StepBound;
    }
  }

  // ---------------------------------------------------------------------------
  // Hexadecimal

  predicate IsLowerHex(c: char) {
    '0' <= c <= '9' || 'a' <= c <= 'f'
  }

  function HexDigit(d: nat): (c: char)
    requires d < 16
    ensures IsLowerHex(c) && HexDigitValue(c) == d
  {
    if d < 10 then ('0' as int + d) as char else ('a' as int + d - 10) as char
  }

  function HexDigitValue(c: char): (d: nat)
    requires IsLowerHex(c)
    ensures d < 16
  {
    if c <= '9' then c as int - '0' as int else c as int - 'a' as int + 10
  }

  /** `v.toString(16)` for a non-negative integer: lower-case digits without
      leading zeros. */
  function ToHex(v: nat): (s: string)
    ensures |s| >= 1 && forall i :: 0 <= i < |s| ==> IsLowerHex(s[i])
    ensures |s| > 1 ==> s[0] != '0'
    decreases v
  {
    if v < 16 then [HexDigit(v)] else ToHex(v / 16) + [HexDigit(v % 16)]
  }

  /** The number a string of hexadecimal digits denotes. */
  function HexValue(s: string): nat
    requires forall i :: 0 <= i < |s| ==> IsLowerHex(s[i])
    decreases |s|
  {
    if s == [] then 0 else HexValue(s[..|s| - 1]) * 16 + HexDigitValue(s[|s| - 1])
  }

  /** Reading the digits back gives the number. */
  lemma {:induction false} ToHexRoundTrip(v: nat)
    ensures HexValue(ToHex(v)) == v
    decreases v
  {
    if v >= 16 {
      ToHexRoundTrip(v / 16);
      var s := ToHex(v);
      assert s[..|s| - 1] == ToHex(v / 16);
    }
  }

  /** `s.substr(-2)`: the last two characters, or all of a shorter s. */
  function LastTwo(s: string): (r: string)
    ensures |s| >= 2 ==> |r| == 2 && r == s[|s| - 2..]
  {
    if |s| <= 2 then s else s[|s| - 2..]
  }

  /** A byte as two lower-case hexadecimal digits. */
  function Hex2(v: nat): (s: string)
    requires v < 256
    ensures |s| == 2 && IsLowerHex(s[0]) && IsLowerHex(s[1])
    ensures HexValue(s) == v
  {
    var s := [HexDigit(v / 16), HexDigit(v % 16)];
    assert s[..1] == [s[0]] && s[..1][..0] == [];
    assert HexValue(s[..1]) == v / 16;
    assert HexValue(s) == (v / 16) * 16 + v % 16;
    s
  }

  /** `('00' + v.toString(16)).substr(-2)` is the byte in two digits. */
  lemma PaddedHex(v: nat)
    requires v < 256
    ensures LastTwo("00" + ToHex(v)) == Hex2(v)
  {
    if v >= 16 {
      assert ToHex(v) == ToHex(v / 16) + [HexDigit(v % 16)];
      assert ToHex(v / 16) == [HexDigit(v / 16)];
    }
  }

  // ---------------------------------------------------------------------------
  // stringToColor

  /** Byte i (0 = lowest) of the hash: `(hash >> (i * 8)) & 0xFF`. */
  function ByteOf(hash: int, i: nat): (b: nat)
    requires i < 3
    ensures b < 256
  {
    LowByte(SignedShiftRight(hash, i * 8))
  }

  /** The hex digits of the first n bytes of the hash, lowest byte first. */
  function ColorDigits(hash: int, n: nat): (s: string)
    requires n <= 3
    ensures |s| == 2 * n && forall i :: 0 <= i < |s| ==> IsLowerHex(s[i])
  {
    if n == 0 then "" else ColorDigits(hash, n - 1) + Hex2(ByteOf(hash, n - 1))
  }

  /** The colour a text is given: `#` and the three low bytes of its hash. */
  function ColorOf(s: string): string {
    "#" + ColorDigits(Hash(Utf16Units(s)), 3)
  }

  /** `stringToColor(str)`, loop by loop. */
  method StringToColor(s: string) returns (color: string)
    ensures color == ColorOf(s)
  {
    var units := Utf16Units(s);
    var hash := 0;
    for i := 0 to |units|
      invariant hash == Hash(units[..i])
    {
      assert units[..i + 1][..i] == units[..i];
      assert Hash(units[..i + 1]) == HashStep(hash, units[i]);
      hash := units[i] + (ToInt32(ToInt32(hash) * 32) - hash);
    }
    assert units[..|units|] == units;
    color := "#";
    for i := 0 to 3
      invariant color == "#" + ColorDigits(hash, i)
    {
      var value := LowByte(SignedShiftRight(hash, i * 8));
      PaddedHex(value);
      assert value == ByteOf(hash, i);
      assert "#" + ColorDigits(hash, i + 1) == ("#" + ColorDigits(hash, i)) + Hex2(value);
      color := color + LastTwo("00" + ToHex(value));
    }
  }

  /** Every colour is `#` followed by six lower-case hexadecimal digits. */
  lemma ColorShape(s: string)
    ensures |ColorOf(s)| == 7 && ColorOf(s)[0] == '#'
    ensures forall i :: 1 <= i < 7 ==> IsLowerHex(ColorOf(s)[i])
  {
    var digits := ColorDigits(Hash(Utf16Units(s)), 3);
    assert forall i :: 1 <= i < 7 ==> ColorOf(s)[i] == digits[i - 1];
  }

  /** The empty text is black. */
  lemma EmptyIsBlack()
    ensures ColorOf("") == "#000000"
  {
    assert Utf16Units("") == [];
    assert ByteOf(0, 0) == 0 && ByteOf(0, 1) == 0 && ByteOf(0, 2) == 0;
    assert Hex2(0) == "00";
  }

  const DefaultAccent: string := "#3788d8"

  /** The accent `eventDidMount` gives an event from its `familyMemberName`:
      the default blue when the value is falsy, the hash colour of a string,
      black for a value without a length (the hash loop never runs), and an
      error (None) for a non-empty list, which has no `charCodeAt`. */
  function AccentColor(name: Value): (r: Option<string>)
    ensures !JsTruthy(name) ==> r == Some(DefaultAccent)
    ensures name.JStr? && name.s != "" ==> r == Some(ColorOf(name.s))
    ensures r.None? <==> name.JArr? && name.items != []
  {
    if !JsTruthy(name) then Some(DefaultAccent)
    else
      match name
      case JStr(s) => Some(ColorOf(s))
      case JArr(a) => if a == [] then Some(ColorOf("")) else None
      case _ => Some(ColorOf(""))
  }

  // ---------------------------------------------------------------------------
  // Title prefixes

  predicate HasLineBreak(s: string) {
    exists j :: 0 <= j < |s| && IsLineTerminator(s[j])
  }

  /** The feed's title `replace` with the pattern `^(.*?):\s*`: when the first colon has no line
      terminator before it, everything up to that colon and the white space
      after it is removed; otherwise the title is unchanged. */
  function StripTitlePrefix(t: string): (r: string)
    ensures ':' !in t ==> r == t
    ensures |r| <= |t| && r == t[|t| - |r|..]
    ensures ':' in t && HasLineBreak(t[..IndexOf(t, ':')]) ==> r == t
    ensures ':' in t && !HasLineBreak(t[..IndexOf(t, ':')]) ==>
      var k := IndexOf(t, ':');
      && |r| < |t| - k
      && (forall j :: k < j < |t| - |r| ==> IsJsSpace(t[j]))
      && (r == [] || !IsJsSpace(r[0]))
  {
    if ':' !in t then t
    else
      var k := IndexOf(t, ':');
      if HasLineBreak(t[..k]) then t
      else
        TrimStartAfter(t, k, IsJsSpace);
        TrimStartAfterSpaces(t, k, IsJsSpace);
        TrimStart(t[k + 1..], IsJsSpace)
  }

  /** A title "p: q" with a colon-free, single-line p loses p, the colon and
      the white space w after it. */
  lemma StripTitlePrefixOf(p: string, w: string, q: string)
    requires ':' !in p && !HasLineBreak(p)
    requires forall j :: 0 <= j < |w| ==> IsJsSpace(w[j])
    requires q == [] || !IsJsSpace(q[0])
    ensures StripTitlePrefix(p + ":" + w + q) == q
  {
    var t := p + ":" + w + q;
    assert t[..|p|] == p && t[|p|] == ':' && t[|p| + 1..] == w + q;
    StripTitlePrefixAt(t, |p|);
    TrimStartSpaces(w, q);
  }

  /** When the first colon of t sits at k with a single line before it, the
      prefix goes up to k. */
  lemma StripTitlePrefixAt(t: string, k: nat)
    requires k < |t| && t[k] == ':' && ':' !in t[..k] && !HasLineBreak(t[..k])
    ensures StripTitlePrefix(t) == TrimStart(t[k + 1..], IsJsSpace)
  {
    IndexOfIs(t, ':', k);
  }

  /** Trimming leading white space from w + q, with w all white space and q
      not starting with it, leaves q. */
  lemma {:induction false} TrimStartSpaces(w: string, q: string)
    requires forall j :: 0 <= j < |w| ==> IsJsSpace(w[j])
    requires q == [] || !IsJsSpace(q[0])
    ensures TrimStart(w + q, IsJsSpace) == q
    decreases |w|
  {
    if w != [] {
      assert (w + q)[1..] == w[1..] + q;
      TrimStartSpaces(w[1..], q);
    } else {
      assert w + q == q;
    }
  }

  /** Whether ": " begins at position j of t. */
  predicate ColonSpaceAt(t: string, j: int) {
    0 <= j && j + 1 < |t| && t[j] == ':' && t[j + 1] == ' '
  }

  /** The first position at or after `from` where ": " begins. */
  function FindColonSpace(t: string, from: nat): (r: Option<nat>)
    ensures r.Some? ==> from <= r.value && ColonSpaceAt(t, r.value)
    ensures r.Some? ==> forall j :: from <= j < r.value ==> !ColonSpaceAt(t, j)
    ensures r.None? ==> forall j :: from <= j ==> !ColonSpaceAt(t, j)
    decreases |t| - from
  {
    if from + 1 >= |t| then None
    else if ColonSpaceAt(t, from) then Some(from)
    else FindColonSpace(t, from + 1)
  }

  /** The `replace` with the pattern `^(.*?): ` of the edit form and the
      update payload: when the first ": " has no line
      terminator before it, everything up to and including it is removed. */
  function StripColonSpace(t: string): (r: string)
    ensures (forall j :: 0 <= j < |t| ==> !ColonSpaceAt(t, j)) ==> r == t
    ensures ':' !in t ==> r == t
    ensures |r| <= |t| && r == t[|t| - |r|..]
  {
    match FindColonSpace(t, 0)
    case None => t
    case Some(k) => if HasLineBreak(t[..k]) then t else t[k + 2..]
  }

  /** A title "p: q" with a single-line p holding no ": " loses "p: ". */
  lemma StripColonSpaceOf(p: string, q: string)
    requires !HasLineBreak(p)
    requires forall j :: 0 <= j < |p| ==> !ColonSpaceAt(p, j)
    ensures StripColonSpace(p + ": " + q) == q
  {
    var t := p + ": " + q;
    assert ColonSpaceAt(t, |p|);
    forall j | 0 <= j < |p|
      ensures !ColonSpaceAt(t, j)
    {
      if j + 1 < |p| {
        assert !ColonSpaceAt(p, j);
        assert t[j] == p[j] && t[j + 1] == p[j + 1];
      } else {
        assert t[j + 1] == ':';
      }
    }
    var k := FindColonSpace(t, 0).value;
    assert !(k < |p|) && !(|p| < k);
    assert k == |p|;
    assert t[..k] == p;
    assert t[k + 2..] == q;
  }

  // ---------------------------------------------------------------------------
  // Events on the page

  /** An event as the calendar widget holds it: the feed row's id and title,
      the widget's parse of its start and end, and every other key of the row
      as an extended property. */
  datatype ClientEvent = ClientEvent(id: string, title: string, start: Instant, end: Option<Instant>, extended: map<string, Value>)

  const StandardKeys: set<string> := {"id", "title", "start", "end"}

  function StringOf(v: Value): string {
    if v.JStr? then v.s else ""
  }

  /** The widget's event for a feed row whose start and end it parsed. */
  function ClientEventOf(row: map<string, Value>, start: Instant, end: Option<Instant>): (e: ClientEvent)
    ensures e.extended.Keys == row.Keys - StandardKeys
    ensures forall k :: k in e.extended ==> e.extended[k] == row[k]
    ensures "title" in row && row["title"].JStr? ==> e.title == row["title"].s
  {
    ClientEvent(StringOf(Get(row, "id", JNull)), StringOf(Get(row, "title", JNull)), start, end, row - StandardKeys)
  }

  /** An extended property; a missing one reads as null. */
  function Prop(e: ClientEvent, key: string): Value {
    Get(e.extended, key, JNull)
  }

  /** The feed callback's title rule for one row: a truthy string title is
      stripped of its prefix, a falsy one is left, and any other truthy title
      has no `replace` and fails the whole batch. */
  function StripRowTitle(row: map<string, Value>): (r: Result<map<string, Value>, string>)
    ensures r.Err? <==> "title" in row && JsTruthy(row["title"]) && !row["title"].JStr?
    ensures r.Ok? ==> r.value.Keys == row.Keys
    ensures r.Ok? ==> forall k :: k in row && k != "title" ==> r.value[k] == row[k]
    ensures r.Ok? && "title" in row && row["title"].JStr? ==> r.value["title"] == JStr(StripTitlePrefix(row["title"].s))
  {
    if "title" !in row || !JsTruthy(row["title"]) then Ok(row)
    else
      match row["title"]
      case JStr(s) => Ok(row["title" := JStr(StripTitlePrefix(s))])
      case _ => Err("TypeError")
  }

  /** The feed callback over the whole response. */
  function StripTitles(rows: seq<map<string, Value>>): (r: Result<seq<map<string, Value>>, string>)
    ensures r.Ok? <==> forall i :: 0 <= i < |rows| ==> StripRowTitle(rows[i]).Ok?
    ensures r.Ok? ==> |r.value| == |rows| && forall i :: 0 <= i < |rows| ==> StripRowTitle(rows[i]) == Ok(r.value[i])
  {
    if rows == [] then Ok([])
    else
      match StripRowTitle(rows[0])
      case Err(e) => Err(e)
      case Ok(row) =>
        match StripTitles(rows[1..])
        case Err(e) => Err(e)
        case Ok(rest) =>
          assert forall i :: 1 <= i < |rows| ==> rows[i] == rows[1..][i - 1];
          Ok([row] + rest)
  }

  // ---------------------------------------------------------------------------
  // The family-member guard

  const FamilyMarker: string := "family_member_name"

  /** A drag or resize: reverted when the event carries a truthy
      `family_member_name`, otherwise sent for update with the given body. */
  datatype DragOutcome = Revert | SendUpdate(body: map<string, Value>)

  datatype ClickOutcome = Refuse | OpenEditor

  /** The body a drag or resize sends: the new start, and the new end when
      the event has one.  Nothing else of the event is resent. */
  function DragPayload(e: ClientEvent, iso: Instant -> string): (body: map<string, Value>)
    ensures body.Keys == if e.end.Some? then {"start", "end"} else {"start"}
    ensures body["start"] == JStr(iso(e.start))
    ensures e.end.Some? ==> body["end"] == JStr(iso(e.end.value))
  {
    var body := map["start" := JStr(iso(e.start))];
    if e.end.Some? then body["end" := JStr(iso(e.end.value))] else body
  }

  /** `eventDrop` and `eventResize`: an event of a family member is
      reverted, any other is sent to `updateEvent`, whose body resends the
      whole event as the page holds it. */
  function EventDrop(e: ClientEvent, iso: Instant -> string): (r: DragOutcome)
    ensures r.Revert? <==> JsTruthy(Prop(e, FamilyMarker))
    ensures r.SendUpdate? ==> r.body == UpdatePayloadAsWritten(e, iso)
    ensures r.SendUpdate? ==> r.body.Keys == PayloadKeys && r.body["title"] == JStr(StripColonSpace(e.title))
  {
    if JsTruthy(Prop(e, FamilyMarker)) then Revert else SendUpdate(UpdatePayloadAsWritten(e, iso))
  }

  /** The corrected `eventDrop` and `eventResize`: the same guard, but the
      update carries only the moved times. */
  function EventDropCorrected(e: ClientEvent, iso: Instant -> string): (r: DragOutcome)
    ensures r.Revert? <==> JsTruthy(Prop(e, FamilyMarker))
    ensures r.SendUpdate? ==> r.body == DragPayload(e, iso)
    ensures r.SendUpdate? ==> r.body.Keys <= {"start", "end"}
  {
    if JsTruthy(Prop(e, FamilyMarker)) then Revert else SendUpdate(DragPayload(e, iso))
  }

  /** `eventClick`. */
  function EventClick(e: ClientEvent): (r: ClickOutcome)
    ensures r == Refuse <==> JsTruthy(Prop(e, FamilyMarker))
  {
    if JsTruthy(Prop(e, FamilyMarker)) then Refuse else OpenEditor
  }

  /** The feed's rows carry neither `family_member_name` nor
      `familyMemberName`: every event it delivers is editable and drawn in
      the default accent. */
  lemma FeedEventsAreEditable(row: map<string, Value>, start: Instant, end: Option<Instant>, iso: Instant -> string)
    requires row.Keys == FeedKeys
    ensures var e := ClientEventOf(row, start, end);
      EventDrop(e, iso).SendUpdate? && EventClick(e) == OpenEditor &&
      AccentColor(Prop(e, "familyMemberName")) == Some(DefaultAccent)
  {
    var e := ClientEventOf(row, start, end);
    assert FamilyMarker !in e.extended;
    assert "familyMemberName" !in e.extended;
  }

  // ---------------------------------------------------------------------------
  // The update payload as written

  /** JavaScript `v || d`. */
  function JsOr(v: Value, d: Value): (r: Value)
    ensures JsTruthy(v) ==> r == v
    ensures !JsTruthy(v) ==> r == d
  {
    if JsTruthy(v) then v else d
  }

  const PayloadKeys: set<string> := {"title", "start", "end", "description", "location", "attendees"}

  /** The JSON body the page sends to create or update an event. */
  function Payload(title: Value, start: Value, end: Value, description: Value, location: Value, attendees: Value): (body: map<string, Value>)
    ensures body.Keys == PayloadKeys
    ensures body["title"] == title && body["start"] == start && body["end"] == end
    ensures body["description"] == description && body["location"] == location && body["attendees"] == attendees
  {
    map["title" := title, "start" := start, "end" := end,
        "description" := description, "location" := location, "attendees" := attendees]
  }

  /** `updateEvent(event, url)` as written: the body resends the title
      (stripped of a "p: " prefix), the description, location and attendees
      the page holds (empty when it holds none), and an end of null for an
      event without one. */
  function UpdatePayloadAsWritten(e: ClientEvent, iso: Instant -> string): (body: map<string, Value>)
    ensures body.Keys == PayloadKeys
    ensures body["title"] == JStr(StripColonSpace(e.title))
    ensures body["start"] == JStr(iso(e.start))
    ensures body["end"] == JNull <==> e.end.None?
    ensures e.end.Some? ==> body["end"] == JStr(iso(e.end.value))
    ensures body["description"] == JsOr(Prop(e, "description"), JStr(""))
    ensures body["location"] == JsOr(Prop(e, "location"), JStr(""))
    ensures body["attendees"] == JsOr(Prop(e, "attendees"), JArr([]))
  {
    Payload(JStr(StripColonSpace(e.title)), JStr(iso(e.start)), if e.end.Some? then JStr(iso(e.end.value)) else JNull,
      JsOr(Prop(e, "description"), JStr("")), JsOr(Prop(e, "location"), JStr("")), JsOr(Prop(e, "attendees"), JArr([])))
  }

  /** Dragging an event that has no end sends `end: null`, and the update
      route as written then fails. */
  lemma OpenEndedDragFails(event: map<string, Value>, e: ClientEvent, iso: Instant -> string, parse: string -> Option<Instant>)
    requires e.end.None?
    ensures MergeUpdateAsWritten(event, UpdatePayloadAsWritten(e, iso), parse).Err?
  {
  }

  /** The event a provider holds for the example below. */
  function MeetingEvent(start: Instant, end: Instant): map<string, Value> {
    map[
      "id" := JStr("e1"),
      "summary" := JStr("Meeting: budget"),
      "start" := TimeObject(start),
      "end" := TimeObject(end),
      "attendees" := JArr([JObj(map["email" := JStr("ann@example.org")])])]
  }

  /** The example's title loses its "Meeting: " prefix. */
  lemma MeetingTitleStripped()
    ensures StripTitlePrefix("Meeting: budget") == "budget"
  {
    assert "Meeting: budget" == "Meeting" + ":" + " " + "budget";
    assert !HasLineBreak("Meeting") by {
      assert forall j :: 0 <= j < 7 ==> !IsLineTerminator("Meeting"[j]);
    }
    StripTitlePrefixOf("Meeting", " ", "budget");
  }

  /** The feed shows the example event as "budget". */
  lemma MeetingShownAsBudget(start: Instant, end: Instant)
    ensures var row := FormatEvent(JObj(MeetingEvent(start, end)));
      && row.Ok? && row.value.fields.Keys == FeedKeys
      && StripRowTitle(row.value.fields).Ok?
      && StripRowTitle(row.value.fields).value.Keys == FeedKeys
      && StripRowTitle(row.value.fields).value["title"] == JStr("budget")
  {
    var event := MeetingEvent(start, end);
    assert Formattable(JObj(event));
    var row := FormatEvent(JObj(event)).value.fields;
    assert row["title"] == JStr("Meeting: budget");
    MeetingTitleStripped();
  }

  /** The drag body of a feed event titled "budget": that title, the dropped
      times, and no attendees. */
  lemma BudgetDragBody(shown: map<string, Value>, start: Instant, end: Instant, iso: Instant -> string)
    requires shown.Keys == FeedKeys && shown["title"] == JStr("budget")
    ensures var body := UpdatePayloadAsWritten(ClientEventOf(shown, start, Some(end)), iso);
      && body["title"] == JStr("budget")
      && body["start"] == JStr(iso(start)) && body["end"] == JStr(iso(end))
      && body["attendees"] == JArr([])
  {
    var e := ClientEventOf(shown, start, Some(end));
    assert e.title == "budget";
    assert "attendees" !in e.extended;
    assert StripColonSpace("budget") == "budget";
  }

  /** Dragging the event "Meeting: budget" with one attendee, as written: the
      feed shows it as "budget", the drag sends that title and, since the
      feed never delivers attendees, an empty attendee list; the stored event
      is renamed and loses its attendee. */
  lemma DragRenamesAndDropsAttendees(start: Instant, end: Instant, iso: Instant -> string, parse: string -> Option<Instant>)
    requires parse(IsoArgument(iso(start))) == Some(start)
    requires parse(IsoArgument(iso(end))) == Some(end)
    ensures var event := MeetingEvent(start, end);
      var shown := StripRowTitle(FormatEvent(JObj(event)).value.fields).value;
      var body := UpdatePayloadAsWritten(ClientEventOf(shown, start, Some(end)), iso);
      var merged := MergeUpdateAsWritten(event, body, parse);
      && EventDrop(ClientEventOf(shown, start, Some(end)), iso) == SendUpdate(body)
      && merged.Ok?
      && merged.value["summary"] == JStr("budget")
      && merged.value["attendees"] == JArr([])
  {
    var event := MeetingEvent(start, end);
    MeetingShownAsBudget(start, end);
    var shown := StripRowTitle(FormatEvent(JObj(event)).value.fields).value;
    FeedEventsAreEditable(shown, start, Some(end), iso);
    BudgetDragBody(shown, start, end, iso);
    var body := UpdatePayloadAsWritten(ClientEventOf(shown, start, Some(end)), iso);
    assert TimeUpdate(body, "start", parse, false) == Ok(Some(start));
    assert TimeUpdate(body, "end", parse, false) == Ok(Some(end));
    assert PyIterate(body["attendees"]) == Some([]);
    MergeWrites(event, body, parse, false);
  }

  /** The corrected drag leaves every key of the stored event but start and
      end as it was, and moves those two to the dropped times; an event the
      corrected guard lets through is updated that way. */
  lemma DragKeepsEvent(event: map<string, Value>, e: ClientEvent, iso: Instant -> string, parse: string -> Option<Instant>)
    requires parse(IsoArgument(iso(e.start))) == Some(e.start)
    requires e.end.Some? ==> parse(IsoArgument(iso(e.end.value))) == Some(e.end.value)
    ensures var merged := MergeUpdate(event, DragPayload(e, iso), parse);
      && merged.Ok?
      && merged.value["start"] == TimeObject(e.start)
      && (e.end.Some? ==> merged.value["end"] == TimeObject(e.end.value))
      && forall k :: k in event && k != "start" && k != "end" ==> k in merged.value && merged.value[k] == event[k]
    ensures !JsTruthy(Prop(e, FamilyMarker)) ==> EventDropCorrected(e, iso) == SendUpdate(DragPayload(e, iso))
  {
    var body := DragPayload(e, iso);
    assert TimeUpdate(body, "start", parse, true) == Ok(Some(e.start));
    assert TimeUpdate(body, "end", parse, true) == Ok(e.end);
    MergeMovesTimes(event, body, parse, e.start, e.end);
  }

  // ---------------------------------------------------------------------------
  // The event form

  /** The fields of the event form when it is saved. */
  datatype EventForm = EventForm(
    eventId: string,
    title: string,
    start: string,
    end: string,
    description: string,
    location: string,
    selected: seq<string>,    // the chosen family members' emails
    attendeesText: string)

  datatype HttpMethod = Post | Put

  datatype SaveRequest = SaveRequest(verb: HttpMethod, body: map<string, Value>)

  /** A text without white space at either end. */
  predicate IsTrimmed(s: string) {
    s == [] || (!IsJsSpace(s[0]) && !IsJsSpace(s[|s| - 1]))
  }

  /** The pieces trimmed, the empty ones dropped. */
  function CleanEntries(parts: seq<string>): (r: seq<string>)
    ensures |r| <= |parts|
    ensures forall i :: 0 <= i < |r| ==> r[i] != "" && IsTrimmed(r[i])
  {
    if parts == [] then []
    else
      var t := Trim(parts[0], IsJsSpace);
      if t == "" then CleanEntries(parts[1..]) else [t] + CleanEntries(parts[1..])
  }

  /** Trimming adds no character, so pieces without commas give entries
      without commas. */
  lemma {:induction false} CleanEntriesNoComma(parts: seq<string>)
    requires forall i :: 0 <= i < |parts| ==> ',' !in parts[i]
    ensures forall i :: 0 <= i < |CleanEntries(parts)| ==> ',' !in CleanEntries(parts)[i]
    decreases |parts|
  {
    if parts != [] {
      TrimInside(parts[0], IsJsSpace, ',');
      assert forall i :: 0 <= i < |parts[1..]| ==> ',' !in parts[1..][i] by {
        forall i | 0 <= i < |parts[1..]| ensures ',' !in parts[1..][i] {
          assert parts[1..][i] == parts[i + 1];
        }
      }
      CleanEntriesNoComma(parts[1..]);
    }
  }

  /** `.map(e => e.trim())`: every piece trimmed, in order. */
  function TrimAll(parts: seq<string>): (ts: seq<string>)
    ensures |ts| == |parts| && forall i :: 0 <= i < |parts| ==> ts[i] == Trim(parts[i], IsJsSpace)
  {
    seq(|parts|, i requires 0 <= i < |parts| => Trim(parts[i], IsJsSpace))
  }

  /** `.filter(e => e)` on strings: JavaScript keeps the non-empty ones. */
  predicate NonEmpty(s: string) {
    s != ""
  }

  /** Dropping the blank pieces one by one is `filter` after `map`: exactly
      the trimmed pieces that are not empty, in their original order. */
  lemma {:induction false} CleanEntriesIsFilter(parts: seq<string>)
    ensures CleanEntries(parts) == Filter(TrimAll(parts), NonEmpty)
    decreases |parts|
  {
    if parts != [] {
      CleanEntriesIsFilter(parts[1..]);
      assert TrimAll(parts)[1..] == TrimAll(parts[1..]);
    }
  }

  /** `value.split(',').map(e => e.trim()).filter(e => e)`. */
  function ExtraAttendees(text: string): (r: seq<string>)
    ensures forall i :: 0 <= i < |r| ==> r[i] != "" && IsTrimmed(r[i]) && ',' !in r[i]
  {
    CleanEntriesNoComma(Split(text, ','));
    CleanEntries(Split(text, ','))
  }

  /** The extra attendees of any text are its comma-separated pieces,
      trimmed, with the empty ones dropped, in their original order. */
  lemma ExtraAttendeesIsFilter(text: string)
    ensures ExtraAttendees(text) == Filter(TrimAll(Split(text, ',')), NonEmpty)
  {
    CleanEntriesIsFilter(Split(text, ','));
  }

  function Strings(ss: seq<string>): (vs: seq<Value>)
    ensures |vs| == |ss| && forall i :: 0 <= i < |ss| ==> vs[i] == JStr(ss[i])
  {
    seq(|ss|, i requires 0 <= i < |ss| => JStr(ss[i]))
  }

  /** `saveEvent(...)` with `toIso` for `new Date(s).toISOString()` (None
      when the date is invalid and the call throws): nothing is sent when the
      title, start or end is empty or a date is invalid; otherwise a PUT when
      the form holds an event id and a POST when not, whose attendees are the
      selected members followed by the extra addresses. */
  function SaveEvent(f: EventForm, toIso: string -> Option<string>): (r: Option<SaveRequest>)
    ensures f.title == "" || f.start == "" || f.end == "" ==> r.None?
    ensures r.Some? <==> f.title != "" && f.start != "" && f.end != "" && toIso(f.start).Some? && toIso(f.end).Some?
    ensures r.Some? ==> (r.value.verb == Put <==> f.eventId != "")
    ensures r.Some? ==> r.value.body.Keys == PayloadKeys
    ensures r.Some? ==> && r.value.body["title"] == JStr(f.title)
                        && r.value.body["start"] == JStr(toIso(f.start).value)
                        && r.value.body["end"] == JStr(toIso(f.end).value)
                        && r.value.body["description"] == JStr(f.description)
                        && r.value.body["location"] == JStr(f.location)
    ensures r.Some? ==> r.value.body["attendees"] == JArr(Strings(f.selected + ExtraAttendees(f.attendeesText)))
  {
    var extra := ExtraAttendees(f.attendeesText);
    if f.title == "" || f.start == "" || f.end == "" then None
    else if toIso(f.start).None? || toIso(f.end).None? then None
    else
      Some(SaveRequest(
        if f.eventId != "" then Put else Post,
        Payload(JStr(f.title), JStr(toIso(f.start).value), JStr(toIso(f.end).value),
          JStr(f.description), JStr(f.location), JArr(Strings(f.selected + extra)))))
  }

  /** The text the edit form shows for attendees, `attendees.join(', ')`,
      reads back as the same list when every address is non-empty, trimmed
      and free of commas. */
  lemma ExtraAttendeesRoundTrip(es: seq<string>)
    requires forall i :: 0 <= i < |es| ==> es[i] != "" && IsTrimmed(es[i]) && ',' !in es[i]
    ensures ExtraAttendees(Join(es, ", ")) == es
  {
    if es == [] {
      assert Split("", ',') == [""];
    } else {
      var parts := Spaced(es);
      forall i | 0 <= i < |parts|
        ensures ',' !in parts[i]
      {
        if i > 0 {
          assert parts[i] == " " + es[i];
        }
      }
      JoinSpaced(es);
      SplitJoin(parts, ',');
      assert Split(Join(es, ", "), ',') == parts;
      CleanSpaced(es);
    }
  }

  /** The pieces `split(',')` finds in a ", "-joined list. */
  function Spaced(es: seq<string>): (parts: seq<string>)
    requires |es| >= 1
    ensures |parts| == |es| && parts[0] == es[0]
    ensures forall i :: 1 <= i < |es| ==> parts[i] == " " + es[i]
  {
    [es[0]] + seq(|es| - 1, i requires 0 <= i < |es| - 1 => " " + es[i + 1])
  }

  lemma {:induction false} JoinSpaced(es: seq<string>)
    requires |es| >= 1
    ensures Join(es, ", ") == Join(Spaced(es), [','])
    decreases |es|
  {
    if |es| > 1 {
      var rest := es[1..];
      JoinSpaced(rest);
      var p := Spaced(es);
      assert p[1..] == [" " + rest[0]] + Spaced(rest)[1..];
      JoinHead(rest);
      assert Join(p[1..], [',']) == " " + Join(Spaced(rest), [',']);
    }
  }

  /** Putting a space before the first piece puts it before the join. */
  lemma JoinHead(es: seq<string>)
    requires |es| >= 1
    ensures Join([" " + es[0]] + Spaced(es)[1..], [',']) == " " + Join(Spaced(es), [','])
  {
    var p := Spaced(es);
    var q := [" " + es[0]] + p[1..];
    if |es| > 1 {
      assert q[1..] == p[1..];
    }
  }

  lemma CleanSpaced(es: seq<string>)
    requires |es| >= 1
    requires forall i :: 0 <= i < |es| ==> es[i] != "" && IsTrimmed(es[i])
    ensures CleanEntries(Spaced(es)) == es
  {
    var parts := Spaced(es);
    forall i | 0 <= i < |es|
      ensures Trim(parts[i], IsJsSpace) == es[i]
    {
      TrimClean(es[i], IsJsSpace);
      if i > 0 {
        assert parts[i][1..] == es[i];
      }
    }
    CleanEntriesOf(parts, es);
  }

  lemma {:induction false} CleanEntriesOf(parts: seq<string>, es: seq<string>)
    requires |parts| == |es|
    requires forall i :: 0 <= i < |es| ==> es[i] != "" && Trim(parts[i], IsJsSpace) == es[i]
    ensures CleanEntries(parts) == es
    decreases |parts|
  {
    if parts != [] {
      CleanEntriesOf(parts[1..], es[1..]);
      assert es == [es[0]] + es[1..];
    }
  }

  /** A created event reaches the provider with the form's title, the parsed
      times and one attendee object per address, in order. */
  lemma SavedEventReachesProvider(f: EventForm, toIso: string -> Option<string>, parse: string -> Option<Instant>, now: Instant)
    requires SaveEvent(f, toIso).Some?
    requires parse(IsoArgument(toIso(f.start).value)).Some? && parse(IsoArgument(toIso(f.end).value)).Some?
    ensures var body := SaveEvent(f, toIso).value.body;
      var r := CreateEventRequest(body, parse, now);
      var emails := Strings(f.selected + ExtraAttendees(f.attendeesText));
      && r.Ok?
      && r.value["summary"] == JStr(f.title)
      && r.value["start"] == TimeObject(parse(IsoArgument(toIso(f.start).value)).value)
      && r.value["end"] == TimeObject(parse(IsoArgument(toIso(f.end).value)).value)
      && (emails == [] <==> "attendees" !in r.value)
      && (emails != [] ==> EmailsOf(r.value["attendees"].items) == emails)
  {
    var body := SaveEvent(f, toIso).value.body;
    var emails := Strings(f.selected + ExtraAttendees(f.attendeesText));
    var start := parse(IsoArgument(toIso(f.start).value)).value;
    var end := parse(IsoArgument(toIso(f.end).value)).value;
    assert ParseBodyTime(body["start"], parse) == Ok(start);
    assert ParseBodyTime(body["end"], parse) == Ok(end);
    assert CreateEventRequest(body, parse, now) ==
      EventBody(JStr(f.title), Some(start), Some(end), JStr(f.description), JStr(f.location), JArr(emails), now);
    EventBodyAttendees(JStr(f.title), Some(start), Some(end), JStr(f.description), JStr(f.location), emails, now);
  }
}

=== FILE: calendar_routes.dfy ===
/** The calendar blueprint of `app/calendar.py`: its own current-user lookup,
    the connection gate in front of the calendar routes, the stored provider
    credentials, the events feed, and the request bodies of event creation and
    event update.  The provider itself is a parameter: what it answers is an
    input, what is sent to it is the result. */
module CalendarRoutes {
  import opened Common
  import opened Text
  import opened Json
  import opened Models
  import opened Identity
  import opened CalendarService

  // ---------------------------------------------------------------------------
  // The current user

  /** The email claim the blueprint's lookup reads: an error (KeyError) when
      the signed-in token has no userinfo or the userinfo no email. */
  function SessionEmail(s: Session): (r: Result<string, string>)
    requires s.user.Some?
    ensures r.Ok? <==> s.user.value.userinfo.Some? && s.user.value.userinfo.value.email.Some?
    ensures r.Ok? ==> r.value == s.user.value.userinfo.value.email.value
  {
    var token := s.user.value;
    if token.userinfo.None? || token.userinfo.value.email.None? then Err("KeyError")
    else Ok(token.userinfo.value.email.value)
  }

  /** The blueprint's own `get_current_user()`, as written: nothing without a
      session user, otherwise the first user whose email equals the session's
      email claim, and a KeyError when that claim is missing. */
  function CalendarUserAsWritten(s: Session, users: seq<User>): (r: Result<Option<User>, string>)
    ensures s.user.None? ==> r == Ok(None)
    ensures s.user.Some? ==> (r.Err? <==> SessionEmail(s).Err?)
    ensures r.Ok? && r.value.Some? ==> r.value.value in users && SessionEmail(s) == Ok(r.value.value.email)
    ensures s.user.Some? && SessionEmail(s).Ok? ==>
      (r == Ok(None) <==> forall i :: 0 <= i < |users| ==> users[i].email != SessionEmail(s).value)
  {
    if s.user.None? then Ok(None)
    else
      match SessionEmail(s)
      case Err(e) => Err(e)
      case Ok(email) =>
        match FirstIndex(users, HasEmail(email))
        case None => Ok(None)
        case Some(k) => Ok(Some(users[k]))
  }

  /** An identity whose provider gives no email claim signs in (it is filed
      under a synthetic address), yet the blueprint's lookup raises for it;
      the application's own lookup by sub finds the signed-in user. */
  lemma EmaillessSignInBreaksCalendarLookup(received: Option<string>, session: Session, exchange: Option<AuthToken>, users: seq<User>)
    requires Callback(received, session, exchange, users).outcome.SignedIn?
    requires Claims(exchange).value.email.None?
    ensures var r := Callback(received, session, exchange, users);
      CalendarUserAsWritten(r.session, r.users).Err? &&
      GetCurrentUser(r.session, r.users).Some? &&
      GetCurrentUser(r.session, r.users).value.id == r.outcome.userId
  {
    CallbackSignsIn(received, session, exchange, users);
  }

  /** A concrete instance: a first sign-in with sub "auth0|42" and no email. */
  lemma EmaillessSignInExample()
    ensures var r := Callback(Some("s1"), Session(None, Some("s1")), Some(AuthToken(Some(UserInfo(Some("auth0|42"), None, None)))), []);
      r.outcome == SignedIn(1, true) &&
      CalendarUserAsWritten(r.session, r.users).Err? &&
      GetCurrentUser(r.session, r.users).Some?
  {
    var info := UserInfo(Some("auth0|42"), None, None);
    FirstSignIn(Some("s1"), info);
    var r := Callback(Some("s1"), Session(None, Some("s1")), Some(AuthToken(Some(info))), []);
    assert SessionEmail(r.session).Err?;
    CurrentUserAt(r.session, r.users, 0);
  }

  // ---------------------------------------------------------------------------
  // Stored provider credentials

  /** The token set the provider grants. The provider may leave the refresh
      token or the expiry unset (None); the credentials table declares both
      columns NOT NULL, so such a set cannot be committed. */
  datatype Credentials = Credentials(
    token: string,
    refreshToken: Option<string>,
    tokenUri: string,
    clientId: string,
    clientSecret: string,
    scopes: string,
    expiry: Option<Instant>)

  /** A row of the calendar credentials table. */
  datatype CredentialRow = CredentialRow(id: nat, userId: UserId, creds: Credentials)

  /** Credentials the NOT NULL columns accept. */
  predicate Storable(c: Credentials) {
    c.refreshToken.Some? && c.expiry.Some?
  }

  /** Every stored row satisfies the table's NOT NULL constraints. */
  predicate AllStorable(rows: seq<CredentialRow>) {
    forall i :: 0 <= i < |rows| ==> Storable(rows[i].creds)
  }

  function ForUser(uid: UserId): CredentialRow -> bool {
    (c: CredentialRow) => c.userId == uid
  }

  function NotForUser(uid: UserId): CredentialRow -> bool {
    (c: CredentialRow) => c.userId != uid
  }

  /** How many credential rows the user has. */
  function RowCount(rows: seq<CredentialRow>, uid: UserId): nat {
    |Filter(rows, ForUser(uid))|
  }

  /** Each user has at most one credential row. */
  predicate OneRowPerUser(rows: seq<CredentialRow>) {
    forall i, j :: 0 <= i < j < |rows| ==> rows[i].userId != rows[j].userId
  }

  /** The credentials the routes use: those of the user's first row. */
  function CredentialsOf(rows: seq<CredentialRow>, uid: UserId): (r: Option<Credentials>)
    ensures r.None? <==> RowCount(rows, uid) == 0
    ensures r.Some? ==> exists i :: 0 <= i < |rows| && rows[i].userId == uid && rows[i].creds == r.value
  {
    match FirstIndex(rows, ForUser(uid))
    case None =>
      assert Filter(rows, ForUser(uid)) == [] by {
        FilterNone(rows, ForUser(uid));
      }
      None
    case Some(k) =>
      FilterMembers(rows, ForUser(uid));
      Some(rows[k].creds)
  }

  // ---------------------------------------------------------------------------
  // The connection gate

  datatype Gate =
    | GateLogin                  // redirect to the login page
    | GateAuthorize              // redirect to the provider's consent screen
    | GateProceed(user: User, creds: Credentials)

  /** `calendar_auth_required` once the current user is known: no user goes to
      the login page, a user without credentials to the consent screen, and
      otherwise the route runs with the user's credentials. */
  function AuthGate(current: Option<User>, rows: seq<CredentialRow>): (g: Gate)
    ensures g.GateLogin? <==> current.None?
    ensures g.GateAuthorize? <==> current.Some? && RowCount(rows, current.value.id) == 0
    ensures g.GateProceed? ==> g.user == current.value && CredentialsOf(rows, current.value.id) == Some(g.creds)
  {
    match current
    case None => GateLogin
    case Some(u) =>
      match CredentialsOf(rows, u.id)
      case None => GateAuthorize
      case Some(c) => GateProceed(u, c)
  }

  /** The gate as written, in front of the blueprint's own lookup: a missing
      email claim turns every calendar route into an error. */
  function CalendarGateAsWritten(s: Session, users: seq<User>, rows: seq<CredentialRow>): (r: Result<Gate, string>)
    ensures r.Err? <==> CalendarUserAsWritten(s, users).Err?
    ensures r.Ok? ==> r.value == AuthGate(CalendarUserAsWritten(s, users).value, rows)
  {
    match CalendarUserAsWritten(s, users)
    case Err(e) => Err(e)
    case Ok(u) => Ok(AuthGate(u, rows))
  }

  /** The gate in front of the application's lookup by sub. */
  function CalendarGate(s: Session, users: seq<User>, rows: seq<CredentialRow>): (g: Gate)
    ensures g.GateLogin? <==> GetCurrentUser(s, users).None?
    ensures g.GateProceed? ==> g.user in users && SessionSub(s) == Some(g.user.sub)
  {
    AuthGate(GetCurrentUser(s, users), rows)
  }

  /** Every successful sign-in, with or without an email claim, passes the
      gate in front of the lookup by sub as the signed-in user. */
  lemma SignInPassesCalendarGate(received: Option<string>, session: Session, exchange: Option<AuthToken>, users: seq<User>, rows: seq<CredentialRow>)
    requires Callback(received, session, exchange, users).outcome.SignedIn?
    ensures var r := Callback(received, session, exchange, users);
      var g := CalendarGate(r.session, r.users, rows);
      !g.GateLogin? && (g.GateProceed? ==> g.user.id == r.outcome.userId)
  {
    CallbackSignsIn(received, session, exchange, users);
  }

  // ---------------------------------------------------------------------------
  // The provider's OAuth callback

  datatype OAuthOutcome =
    | BackToCalendar  // no pending authorisation state
    | BackToLogin     // no signed-in user
    | CommitFailed    // the commit breaks a NOT NULL column: a server error, the rows roll back
    | Connected

  /** The id the next inserted credential row receives. */
  function NextRowId(rows: seq<CredentialRow>): (id: nat)
    ensures forall i :: 0 <= i < |rows| ==> rows[i].id < id
  {
    var ids := seq(|rows|, i requires 0 <= i < |rows| => rows[i].id);
    assert forall i :: 0 <= i < |rows| ==> rows[i].id == ids[i];
    MaxOf(ids) + 1
  }

  /** `/oauth2callback` with the credentials `fetched` from the provider:
      without a pending state it goes back to the calendar, without a user to
      the login page; otherwise the user's first credential row takes the new
      credentials, or a row is added when there is none, and the commit fails
      when the credentials lack a refresh token or an expiry. */
  function OAuthCallback(hasState: bool, current: Option<User>, fetched: Credentials, rows: seq<CredentialRow>): (r: (OAuthOutcome, seq<CredentialRow>))
    ensures !hasState ==> r == (BackToCalendar, rows)
    ensures hasState && current.None? ==> r == (BackToLogin, rows)
    ensures r.0 == CommitFailed <==> hasState && current.Some? && !Storable(fetched)
    ensures r.0 == CommitFailed ==> r.1 == rows
    ensures r.0 == Connected <==> hasState && current.Some? && Storable(fetched)
    ensures r.0 == Connected ==>
      var uid := current.value.id;
      && RowCount(r.1, uid) == (if RowCount(rows, uid) == 0 then 1 else RowCount(rows, uid))
      && Filter(r.1, NotForUser(uid)) == Filter(rows, NotForUser(uid))
      && CredentialsOf(r.1, uid) == Some(fetched)
    ensures OneRowPerUser(rows) ==> OneRowPerUser(r.1)
    ensures AllStorable(rows) ==> AllStorable(r.1)
  {
    if !hasState then (BackToCalendar, rows)
    else if current.None? then (BackToLogin, rows)
    else if !Storable(fetched) then (CommitFailed, rows)
    else
      var uid := current.value.id;
      match FirstIndex(rows, ForUser(uid))
      case Some(k) =>
        var rows' := rows[k := rows[k].(creds := fetched)];
        FilterUpdate(rows, k, rows'[k], ForUser(uid));
        FilterUpdate(rows, k, rows'[k], NotForUser(uid));
        FilterMembers(rows, ForUser(uid));
        FirstIndexIs(rows', ForUser(uid), k);
        (Connected, rows')
      case None =>
        var row := CredentialRow(NextRowId(rows), uid, fetched);
        var rows' := rows + [row];
        FilterAppend(rows, [row], ForUser(uid));
        FilterAppend(rows, [row], NotForUser(uid));
        FilterNone(rows, ForUser(uid));
        FirstIndexIs(rows', ForUser(uid), |rows|);
        (Connected, rows')
  }

  /** Connecting twice with the same credentials is the same as connecting once. */
  lemma OAuthCallbackIdempotent(current: Option<User>, fetched: Credentials, rows: seq<CredentialRow>)
    ensures var once := OAuthCallback(true, current, fetched, rows).1;
      OAuthCallback(true, current, fetched, once).1 == once
  {
    var once := OAuthCallback(true, current, fetched, rows).1;
    if current.Some? && Storable(fetched) {
      var uid := current.value.id;
      var k := FirstIndex(once, ForUser(uid)).value;
      assert once[k].creds == fetched;
      assert once[k := once[k].(creds := fetched)] == once;
    }
  }

  /** After connecting, the gate lets the user through with the new
      credentials; after a failed commit it answers as before. */
  lemma OAuthCallbackOpensGate(user: User, fetched: Credentials, rows: seq<CredentialRow>)
    ensures Storable(fetched) ==>
      AuthGate(Some(user), OAuthCallback(true, Some(user), fetched, rows).1) == GateProceed(user, fetched)
    ensures !Storable(fetched) ==>
      AuthGate(Some(user), OAuthCallback(true, Some(user), fetched, rows).1) == AuthGate(Some(user), rows)
  {
  }

  // ---------------------------------------------------------------------------
  // The events feed

  /** What the route hands to `datetime.fromisoformat`: every `Z` written as
      `+00:00`. */
  function IsoArgument(arg: string): (r: string)
    ensures 'Z' !in r
    ensures 'Z' !in arg ==> r == arg
  {
    assert 'Z' !in "+00:00";
    ReplaceChar(arg, 'Z', "+00:00")
  }

  /** The window of `/calendar/events`: a truthy `start` argument is parsed
      (every `Z` read as `+00:00`), otherwise it is the naive now; a truthy
      `end` is parsed, otherwise it lies thirty days after the start and is
      aware when the start is.  A value the parser rejects is an error. */
  function EventsWindow(startArg: Option<string>, endArg: Option<string>,
                        parse: string -> Option<DateTime>, now: Instant): (r: Result<(DateTime, DateTime), string>)
    ensures r.Err? <==>
      (Present(startArg) && parse(IsoArgument(startArg.value)).None?) ||
      (Present(endArg) && parse(IsoArgument(endArg.value)).None?)
    ensures r.Ok? && Present(startArg) ==> parse(IsoArgument(startArg.value)) == Some(r.value.0)
    ensures r.Ok? && !Present(startArg) ==> r.value.0 == DateTime(now, false)
    ensures r.Ok? && Present(endArg) ==> parse(IsoArgument(endArg.value)) == Some(r.value.1)
    ensures r.Ok? && !Present(endArg) ==> r.value.1 == DateTime(r.value.0.t + ThirtyDays, r.value.0.aware)
  {
    var lo := if Present(startArg) then parse(IsoArgument(startArg.value)) else Some(DateTime(now, false));
    if lo.None? then Err("ValueError")
    else
      var hi := if Present(endArg) then parse(IsoArgument(endArg.value)) else Some(DateTime(lo.value.t + ThirtyDays, lo.value.aware));
      if hi.None? then Err("ValueError")
      else Ok((lo.value, hi.value))
  }

  /** The listing the route asks the provider for: the primary calendar, the
      window above written as `isoformat() + 'Z'`, at most one hundred
      events. */
  function EventsRequest(startArg: Option<string>, endArg: Option<string>,
                         parse: string -> Option<DateTime>, now: Instant, iso: DateTime -> string): (r: Result<ListRequest, string>)
    ensures r.Err? <==> EventsWindow(startArg, endArg, parse, now).Err?
    ensures r.Ok? ==> r.value.calendarId == PrimaryCalendar && r.value.maxResults == 100
    ensures r.Ok? ==>
      var (lo, hi) := EventsWindow(startArg, endArg, parse, now).value;
      r.value.timeMin == ZuluText(lo, iso) && r.value.timeMax == ZuluText(hi, iso)
    ensures r.Ok? && !Present(startArg) && !Present(endArg) ==>
      r.value.timeMin == ZuluText(DateTime(now, false), iso) && r.value.timeMax == ZuluText(DateTime(now + ThirtyDays, false), iso)
  {
    match EventsWindow(startArg, endArg, parse, now)
    case Err(e) => Err(e)
    case Ok((lo, hi)) => Ok(EventsListRequest(PrimaryCalendar, Some(lo), Some(hi), 100, now, iso))
  }

  /** A start argument that parses to an aware datetime, as every argument
      carrying `Z` or an offset does, makes the listing's lower bound a text
      with both an offset and `Z`; without an end argument the upper bound
      is likewise. */
  lemma AwareStartBreaksStamp(startArg: string, endArg: Option<string>, parse: string -> Option<DateTime>,
                              now: Instant, iso: DateTime -> string)
    requires WritesOffsetIffAware(iso)
    requires startArg != "" && parse(IsoArgument(startArg)).Some? && parse(IsoArgument(startArg)).value.aware
    requires EventsRequest(Some(startArg), endArg, parse, now, iso).Ok?
    ensures var r := EventsRequest(Some(startArg), endArg, parse, now, iso).value;
      !UtcStamp(r.timeMin) && (!Present(endArg) ==> !UtcStamp(r.timeMax))
  {
    var (lo, hi) := EventsWindow(Some(startArg), endArg, parse, now).value;
    ZuluTextUtcIff(lo, iso);
    ZuluTextUtcIff(hi, iso);
  }

  /** `t.get('dateTime', t.get('date'))`. */
  function PickTime(t: map<string, Value>): (v: Value)
    ensures "dateTime" in t ==> v == t["dateTime"]
    ensures "dateTime" !in t && "date" in t ==> v == t["date"]
    ensures "dateTime" !in t && "date" !in t ==> v == JNull
  {
    Get(t, "dateTime", Get(t, "date", JNull))
  }

  const FeedKeys: set<string> := {"id", "title", "start", "end", "description", "location"}

  /** Whether the feed can format the event: an object with an id, a summary,
      and start and end objects. */
  predicate Formattable(e: Value) {
    && e.JObj?
    && {"id", "summary", "start", "end"} <= e.fields.Keys
    && e.fields["start"].JObj? && e.fields["end"].JObj?
  }

  /** One row of the feed: the provider's summary becomes the title, the start
      and end are the timed or all-day value, and a missing description or
      location is "".  Anything else about the event is dropped. */
  function FormatEvent(e: Value): (r: Result<Value, string>)
    ensures r.Ok? <==> Formattable(e)
    ensures r.Ok? ==> r.value.JObj? && r.value.fields.Keys == FeedKeys
    ensures r.Ok? ==>
      && r.value.fields["id"] == e.fields["id"]
      && r.value.fields["title"] == e.fields["summary"]
      && r.value.fields["start"] == PickTime(e.fields["start"].fields)
      && r.value.fields["end"] == PickTime(e.fields["end"].fields)
      && r.value.fields["description"] == Get(e.fields, "description", JStr(""))
      && r.value.fields["location"] == Get(e.fields, "location", JStr(""))
  {
    if !Formattable(e) then Err("KeyError")
    else
      var f := e.fields;
      Ok(JObj(map[
        "id" := f["id"],
        "title" := f["summary"],
        "start" := PickTime(f["start"].fields),
        "end" := PickTime(f["end"].fields),
        "description" := Get(f, "description", JStr("")),
        "location" := Get(f, "location", JStr(""))]))
  }

  /** The feed of a list of events: one row per event, in order; one event
      that cannot be formatted makes the whole route fail. */
  function FormatEvents(events: seq<Value>): (r: Result<seq<Value>, string>)
    ensures r.Ok? <==> forall i :: 0 <= i < |events| ==> Formattable(events[i])
    ensures r.Ok? ==> |r.value| == |events| && forall i :: 0 <= i < |events| ==> FormatEvent(events[i]) == Ok(r.value[i])
  {
    var r := MapResults(events, FormatEvent);
    assert forall i :: 0 <= i < |events| ==> (FormatEvent(events[i]).Ok? <==> Formattable(events[i]));
    r
  }

  /** `/calendar/events` given the provider's answer: the `items` of the
      answer formatted one by one.  A list is formatted; an empty string or
      object yields no events, and any other value fails. */
  function EventsFeed(answer: map<string, Value>): (r: Result<seq<Value>, string>)
    ensures EventItems(answer).JArr? ==> r == FormatEvents(EventItems(answer).items)
    ensures r.Ok? ==> forall i :: 0 <= i < |r.value| ==> r.value[i].JObj? && r.value[i].fields.Keys == FeedKeys
    ensures "items" !in answer ==> r == Ok([])
  {
    var items := EventItems(answer);
    match items
    case JArr(a) =>
      var r := FormatEvents(a);
      assert r.Ok? ==> forall i :: 0 <= i < |r.value| ==> FormatEvent(a[i]) == Ok(r.value[i]);
      r
    case JStr(s) => if s == "" then Ok([]) else Err("TypeError")
    case JObj(m) => if m == map[] then Ok([]) else Err("TypeError")
    case _ => Err("TypeError")
  }

  // ---------------------------------------------------------------------------
  // Creating and updating events

  /** A request-body time string through `fromisoformat`; anything but a
      string has no `replace` and fails. */
  function ParseBodyTime(v: Value, parse: string -> Option<Instant>): (r: Result<Instant, string>)
    ensures r.Ok? <==> v.JStr? && parse(IsoArgument(v.s)).Some?
    ensures r.Ok? ==> parse(IsoArgument(v.s)) == Some(r.value)
  {
    match v
    case JStr(s) =>
      (match parse(IsoArgument(s))
       case None => Err("ValueError")
       case Some(t) => Ok(t))
    case _ => Err("AttributeError")
  }

  /** `create_event()` on a request body: the start, end and title are
      required; description and location default to "" and attendees to none.
      The provider receives the body `EventBody` builds. */
  function CreateEventRequest(data: map<string, Value>, parse: string -> Option<Instant>, now: Instant): (r: Result<map<string, Value>, string>)
    ensures r.Ok? ==> "start" in data && "end" in data && "title" in data
    ensures r.Ok? ==> r.value.Keys - {"attendees"} == {"summary", "location", "description", "start", "end"}
    ensures r.Ok? ==> r.value["summary"] == data["title"]
    ensures r.Ok? ==> ParseBodyTime(data["start"], parse).Ok? && r.value["start"] == TimeObject(ParseBodyTime(data["start"], parse).value)
    ensures r.Ok? ==> ParseBodyTime(data["end"], parse).Ok? && r.value["end"] == TimeObject(ParseBodyTime(data["end"], parse).value)
    ensures r.Ok? ==> r.value["description"] == Get(data, "description", JStr(""))
    ensures r.Ok? ==> r.value["location"] == Get(data, "location", JStr(""))
    ensures r.Ok? ==> ("attendees" in r.value <==> PyTruthy(Get(data, "attendees", JArr([]))))
    ensures r.Err? <==>
      || "start" !in data || "end" !in data || "title" !in data
      || ParseBodyTime(data["start"], parse).Err? || ParseBodyTime(data["end"], parse).Err?
      || (PyTruthy(Get(data, "attendees", JArr([]))) && PyIterate(Get(data, "attendees", JArr([]))).None?)
    ensures r.Ok? && PyTruthy(Get(data, "attendees", JArr([]))) ==>
      r.value["attendees"] == JArr(AttendeeObjects(PyIterate(Get(data, "attendees", JArr([]))).value))
  {
    if "start" !in data || "end" !in data then Err("KeyError")
    else
      match ParseBodyTime(data["start"], parse)
      case Err(e) => Err(e)
      case Ok(s) =>
        match ParseBodyTime(data["end"], parse)
        case Err(e) => Err(e)
        case Ok(t) =>
          if "title" !in data then Err("KeyError")
          else EventBody(data["title"], Some(s), Some(t),
                         Get(data, "description", JStr("")), Get(data, "location", JStr("")),
                         Get(data, "attendees", JArr([])), now)
  }

  /** What the update does with the `start` or `end` of the body: None leaves
      the event's value alone, Some(t) replaces it.  As written, a key that is
      present is parsed whatever its value; the corrected reading also leaves
      the event alone when the value is null. */
  function TimeUpdate(data: map<string, Value>, key: string, parse: string -> Option<Instant>, nullIsAbsent: bool): (r: Result<Option<Instant>, string>)
    ensures key !in data ==> r == Ok(None)
    ensures key in data && data[key] == JNull ==> (r.Err? <==> !nullIsAbsent)
    ensures key in data && data[key] != JNull ==>
      (r.Err? <==> ParseBodyTime(data[key], parse).Err?) &&
      (r.Ok? ==> r.value == Some(ParseBodyTime(data[key], parse).value))
    ensures r.Ok? && r.value.None? ==> key !in data || (nullIsAbsent && data[key] == JNull)
  {
    if key !in data || (nullIsAbsent && data[key] == JNull) then Ok(None)
    else
      match ParseBodyTime(data[key], parse)
      case Err(e) => Err(e)
      case Ok(t) => Ok(Some(t))
  }

  /** The event keys an update copies from the body: summary (from the
      title), description and location. */
  function CopiedKeys(data: map<string, Value>): (ks: set<string>)
    ensures ks <= {"summary", "description", "location"}
  {
    (if "title" in data then {"summary"} else {}) +
    (if "description" in data then {"description"} else {}) +
    (if "location" in data then {"location"} else {})
  }

  /** Whether the update rewrites the event's start or end. */
  predicate TimeTouched(data: map<string, Value>, key: string, nullIsAbsent: bool) {
    key in data && !(nullIsAbsent && data[key] == JNull)
  }

  /** The start or end key, when the update rewrites it. */
  function TimeKey(data: map<string, Value>, key: string, nullIsAbsent: bool): set<string> {
    if TimeTouched(data, key, nullIsAbsent) then {key} else {}
  }

  /** The attendees key, when the update rewrites it. */
  function AttendeesKey(data: map<string, Value>): set<string> {
    if "attendees" in data then {"attendees"} else {}
  }

  /** The event keys an update body rewrites. */
  function TouchedKeys(data: map<string, Value>, nullIsAbsent: bool): (ks: set<string>)
    ensures "summary" in ks <==> "title" in data
    ensures "start" in ks <==> TimeTouched(data, "start", nullIsAbsent)
    ensures "end" in ks <==> TimeTouched(data, "end", nullIsAbsent)
    ensures "attendees" in ks <==> "attendees" in data
  {
    CopiedKeys(data) + TimeKey(data, "start", nullIsAbsent) + TimeKey(data, "end", nullIsAbsent) + AttendeesKey(data)
  }

  /** The body's value under key, if it has one. */
  function Lookup(data: map<string, Value>, key: string): (v: Option<Value>)
    ensures v.Some? <==> key in data
    ensures v.Some? ==> v.value == data[key]
  {
    if key in data then Some(data[key]) else None
  }

  /** The event with key set to v when there is a v, and untouched otherwise. */
  function SetIf(e: map<string, Value>, key: string, v: Option<Value>): (r: map<string, Value>)
    ensures r.Keys == if v.Some? then e.Keys + {key} else e.Keys
    ensures forall k :: k in e && k != key ==> r[k] == e[k]
    ensures v.Some? ==> r[key] == v.value
    ensures v.None? ==> r == e
  {
    if v.Some? then e[key := v.value] else e
  }

  /** The time object a time update writes, if any. */
  function TimeValue(t: Option<Instant>): (v: Option<Value>)
    ensures v.Some? <==> t.Some?
    ensures t.Some? ==> v.value == TimeObject(t.value)
  {
    if t.Some? then Some(TimeObject(t.value)) else None
  }

  /** Title, description and location copied from the body. */
  function CopyFields(event: map<string, Value>, data: map<string, Value>): (r: map<string, Value>)
    ensures r.Keys == event.Keys + CopiedKeys(data)
    ensures forall k :: k in event && k !in CopiedKeys(data) ==> r[k] == event[k]
    ensures "title" in data ==> r["summary"] == data["title"]
    ensures "description" in data ==> r["description"] == data["description"]
    ensures "location" in data ==> r["location"] == data["location"]
  {
    var a := if "title" in data then {"summary"} else {};
    var b := if "description" in data then {"description"} else {};
    var c := if "location" in data then {"location"} else {};
    assert "summary" != "description" && "summary" != "location" && "description" != "location";
    var e1 := SetIf(event, "summary", Lookup(data, "title"));
    var e2 := SetIf(e1, "description", Lookup(data, "description"));
    var e3 := SetIf(e2, "location", Lookup(data, "location"));
    assert e3.Keys == ((event.Keys + a) + b) + c;
    assert CopiedKeys(data) == (a + b) + c;
    UnionRegroup3(event.Keys, a, b, c);
    e3
  }

  /** The event after the body's start or end has been applied. */
  function ApplyTime(e: map<string, Value>, data: map<string, Value>, key: string, parse: string -> Option<Instant>, nullIsAbsent: bool): (r: Result<map<string, Value>, string>)
    ensures r.Err? <==> TimeUpdate(data, key, parse, nullIsAbsent).Err?
    ensures r.Ok? ==> r.value.Keys == e.Keys + TimeKey(data, key, nullIsAbsent)
    ensures r.Ok? ==> forall k :: k in e && (k != key || !TimeTouched(data, key, nullIsAbsent)) ==> r.value[k] == e[k]
    ensures r.Ok? && TimeUpdate(data, key, parse, nullIsAbsent).value.Some? ==>
      r.value[key] == TimeObject(TimeUpdate(data, key, parse, nullIsAbsent).value.value)
    ensures r.Ok? && !TimeTouched(data, key, nullIsAbsent) ==> r.value == e
  {
    match TimeUpdate(data, key, parse, nullIsAbsent)
    case Err(m) => Err(m)
    case Ok(t) => Ok(SetIf(e, key, TimeValue(t)))
  }

  /** The event after the body's attendees have been applied. */
  function ApplyAttendees(e: map<string, Value>, data: map<string, Value>): (r: Result<map<string, Value>, string>)
    ensures r.Err? <==> "attendees" in data && PyIterate(data["attendees"]).None?
    ensures r.Ok? ==> r.value.Keys == e.Keys + AttendeesKey(data)
    ensures r.Ok? ==> forall k :: k in e && (k != "attendees" || "attendees" !in data) ==> r.value[k] == e[k]
    ensures r.Ok? && "attendees" in data ==>
      r.value["attendees"] == JArr(AttendeeObjects(PyIterate(data["attendees"]).value))
  {
    if "attendees" !in data then Ok(e)
    else
      match PyIterate(data["attendees"])
      case None => Err("TypeError")
      case Some(items) => Ok(SetIf(e, "attendees", Some(JArr(AttendeeObjects(items)))))
  }

  /** `update_event()` on the stored event and the request body: title,
      description and location are copied over, start and end are parsed into
      UTC time objects, attendees become one object per address.  Every other
      key of the event is kept. */
  function MergeWith(event: map<string, Value>, data: map<string, Value>, parse: string -> Option<Instant>, nullIsAbsent: bool): (r: Result<map<string, Value>, string>)
    ensures r.Err? <==>
      TimeUpdate(data, "start", parse, nullIsAbsent).Err? ||
      TimeUpdate(data, "end", parse, nullIsAbsent).Err? ||
      ("attendees" in data && PyIterate(data["attendees"]).None?)
  {
    var e3 := CopyFields(event, data);
    match ApplyTime(e3, data, "start", parse, nullIsAbsent)
    case Err(m) => Err(m)
    case Ok(e4) =>
      match ApplyTime(e4, data, "end", parse, nullIsAbsent)
      case Err(m) => Err(m)
      case Ok(e5) => ApplyAttendees(e5, data)
  }

  /** The update adds exactly the keys it rewrites. */
  lemma MergeKeys(event: map<string, Value>, data: map<string, Value>, parse: string -> Option<Instant>, nullIsAbsent: bool)
    requires MergeWith(event, data, parse, nullIsAbsent).Ok?
    ensures MergeWith(event, data, parse, nullIsAbsent).value.Keys == event.Keys + TouchedKeys(data, nullIsAbsent)
  {
    var a, c, s, e, t := event.Keys, CopiedKeys(data), TimeKey(data, "start", nullIsAbsent),
      TimeKey(data, "end", nullIsAbsent), AttendeesKey(data);
    assert TouchedKeys(data, nullIsAbsent) == ((c + s) + e) + t;
    UnionRegroup(a, c, s, e, t);
    var e3 := CopyFields(event, data);
    var s4 := ApplyTime(e3, data, "start", parse, nullIsAbsent);
    var s5 := ApplyTime(s4.value, data, "end", parse, nullIsAbsent);
    var s6 := ApplyAttendees(s5.value, data);
    assert s4.Ok? && s5.Ok? && MergeWith(event, data, parse, nullIsAbsent) == s6;
    assert s6.value.Keys == (((a + c) + s) + e) + t;
  }

  /** The update keeps every key of the event it does not rewrite. */
  lemma MergeKeepsUntouched(event: map<string, Value>, data: map<string, Value>, parse: string -> Option<Instant>, nullIsAbsent: bool)
    requires MergeWith(event, data, parse, nullIsAbsent).Ok?
    ensures var r := MergeWith(event, data, parse, nullIsAbsent).value;
      forall k :: k in event && k !in TouchedKeys(data, nullIsAbsent) ==> k in r && r[k] == event[k]
  {
    var e3 := CopyFields(event, data);
    var e4 := ApplyTime(e3, data, "start", parse, nullIsAbsent).value;
    var e5 := ApplyTime(e4, data, "end", parse, nullIsAbsent).value;
    var r := ApplyAttendees(e5, data).value;
    forall k | k in event && k !in TouchedKeys(data, nullIsAbsent)
      ensures k in r && r[k] == event[k]
    {
      assert k !in CopiedKeys(data);
      assert e3[k] == event[k];
      assert e4[k] == e3[k];
      assert e5[k] == e4[k];
    }
  }

  /** What the update writes: the title as summary, the description and the
      location as given, the parsed times, and one attendee object per
      address. */
  lemma MergeWrites(event: map<string, Value>, data: map<string, Value>, parse: string -> Option<Instant>, nullIsAbsent: bool)
    requires MergeWith(event, data, parse, nullIsAbsent).Ok?
    ensures var r := MergeWith(event, data, parse, nullIsAbsent).value;
      && ("title" in data ==> r["summary"] == data["title"])
      && ("description" in data ==> r["description"] == data["description"])
      && ("location" in data ==> r["location"] == data["location"])
      && (TimeUpdate(data, "start", parse, nullIsAbsent).value.Some? ==>
            r["start"] == TimeObject(TimeUpdate(data, "start", parse, nullIsAbsent).value.value))
      && (TimeUpdate(data, "end", parse, nullIsAbsent).value.Some? ==>
            r["end"] == TimeObject(TimeUpdate(data, "end", parse, nullIsAbsent).value.value))
      && ("attendees" in data ==> r["attendees"] == JArr(AttendeeObjects(PyIterate(data["attendees"]).value)))
  {
    var e3 := CopyFields(event, data);
    var e4 := ApplyTime(e3, data, "start", parse, nullIsAbsent).value;
    var e5 := ApplyTime(e4, data, "end", parse, nullIsAbsent).value;
    var r := ApplyAttendees(e5, data).value;
    assert "summary" != "start" && "summary" != "end" && "summary" != "attendees";
    assert "description" != "start" && "description" != "end" && "description" != "attendees";
    assert "location" != "start" && "location" != "end" && "location" != "attendees";
    assert "start" != "end" && "start" != "attendees" && "end" != "attendees";
  }

  /** `update_event()` as written: a `start` or `end` key is parsed whatever
      its value, so a null one fails. */
  function MergeUpdateAsWritten(event: map<string, Value>, data: map<string, Value>, parse: string -> Option<Instant>): (r: Result<map<string, Value>, string>)
    ensures r.Err? <==>
      ("start" in data && ParseBodyTime(data["start"], parse).Err?) ||
      ("end" in data && ParseBodyTime(data["end"], parse).Err?) ||
      ("attendees" in data && PyIterate(data["attendees"]).None?)
    ensures ("start" in data && data["start"] == JNull) || ("end" in data && data["end"] == JNull) ==> r.Err?
  {
    MergeWith(event, data, parse, false)
  }

  /** `update_event()` reading a null `start` or `end` as "unchanged": only a
      time string the parser rejects, or attendees that cannot be iterated,
      make it fail. */
  function MergeUpdate(event: map<string, Value>, data: map<string, Value>, parse: string -> Option<Instant>): (r: Result<map<string, Value>, string>)
    ensures r.Err? <==>
      (TimeTouched(data, "start", true) && ParseBodyTime(data["start"], parse).Err?) ||
      (TimeTouched(data, "end", true) && ParseBodyTime(data["end"], parse).Err?) ||
      ("attendees" in data && PyIterate(data["attendees"]).None?)
    ensures ("start" in data ==> data["start"] == JNull) && ("end" in data ==> data["end"] == JNull) && "attendees" !in data ==> r.Ok?
  {
    MergeWith(event, data, parse, true)
  }

  /** On bodies without null times the corrected update is the written one. */
  lemma MergeUpdateAgrees(event: map<string, Value>, data: map<string, Value>, parse: string -> Option<Instant>)
    requires "start" in data ==> data["start"] != JNull
    requires "end" in data ==> data["end"] != JNull
    ensures MergeUpdate(event, data, parse) == MergeUpdateAsWritten(event, data, parse)
  {
    assert TimeUpdate(data, "start", parse, true) == TimeUpdate(data, "start", parse, false);
    assert TimeUpdate(data, "end", parse, true) == TimeUpdate(data, "end", parse, false);
  }

  /** A body whose end is null, as the calendar page sends for an event
      without an end: the written update fails, the corrected one moves the
      start and keeps the end. */
  lemma NullEndFailsUpdate(event: map<string, Value>, start: string, parse: string -> Option<Instant>)
    requires parse(IsoArgument(start)).Some?
    ensures var data := map["start" := JStr(start), "end" := JNull];
      && MergeUpdateAsWritten(event, data, parse).Err?
      && MergeUpdate(event, data, parse).Ok?
      && MergeUpdate(event, data, parse).value["start"] == TimeObject(parse(IsoArgument(start)).value)
      && ("end" in event ==> MergeUpdate(event, data, parse).value["end"] == event["end"])
  {
    var data := map["start" := JStr(start), "end" := JNull];
    assert TimeUpdate(data, "start", parse, true).value.Some?;
    assert "end" !in TouchedKeys(data, true);
    MergeWrites(event, data, parse, true);
    MergeKeepsUntouched(event, data, parse, true);
  }

  /** A body that only moves the times, to instants the parser reads back,
      rewrites start and end and leaves every other key of the event alone. */
  lemma MergeMovesTimes(event: map<string, Value>, data: map<string, Value>, parse: string -> Option<Instant>, start: Instant, end: Option<Instant>)
    requires data.Keys <= {"start", "end"}
    requires TimeUpdate(data, "start", parse, true) == Ok(Some(start))
    requires TimeUpdate(data, "end", parse, true) == Ok(end)
    ensures var merged := MergeUpdate(event, data, parse);
      && merged.Ok?
      && merged.value["start"] == TimeObject(start)
      && (end.Some? ==> merged.value["end"] == TimeObject(end.value))
      && forall k :: k in event && k != "start" && k != "end" ==> k in merged.value && merged.value[k] == event[k]
  {
    assert "attendees" !in data && "title" !in data;
    assert MergeWith(event, data, parse, true).Ok?;
    assert TouchedKeys(data, true) <= {"start", "end"} by {
      assert CopiedKeys(data) == {} && AttendeesKey(data) == {};
    }
    MergeWrites(event, data, parse, true);
    MergeKeepsUntouched(event, data, parse, true);
  }
}

=== FILE: calendar_service.dfy ===
/** The request bodies `app/calendar_service.py` hands to the calendar
    provider.  The provider calls themselves are outside the model; what is
    modelled is what each helper puts into its request. */
module CalendarService {
  import opened Common
  import opened Json

  /** The default length of an events window. */
  const ThirtyDays: int := 30 * DaySeconds

  /** The default length of a new event. */
  const OneHour: int := HourSeconds

  const PrimaryCalendar: string := "primary"

  /** A Python datetime: the instant it stands for and whether it is aware
      (carries a UTC offset) or naive.  `utcnow()` is naive; `fromisoformat`
      is aware exactly when its text carries an offset. */
  datatype DateTime = DateTime(t: Instant, aware: bool)

  /** A text ending in a UTC offset such as `+00:00` or `-05:30`. */
  predicate EndsWithOffset(s: string) {
    |s| >= 6 && (s[|s| - 6] == '+' || s[|s| - 6] == '-') && s[|s| - 3] == ':'
  }

  /** `isoformat()` writes an offset exactly for an aware datetime. */
  ghost predicate WritesOffsetIffAware(iso: DateTime -> string) {
    forall d: DateTime :: EndsWithOffset(iso(d)) <==> d.aware
  }

  /** An RFC 3339 time in UTC: it ends in the `Z` designator and carries no
      offset before it. */
  predicate UtcStamp(s: string) {
    |s| >= 1 && s[|s| - 1] == 'Z' && !EndsWithOffset(s[..|s| - 1])
  }

  /** `dt.isoformat() + 'Z'`, with `iso` standing for `isoformat()`. */
  function ZuluText(d: DateTime, iso: DateTime -> string): (s: string)
    ensures |s| == |iso(d)| + 1 && s[..|s| - 1] == iso(d) && s[|s| - 1] == 'Z'
  {
    iso(d) + "Z"
  }

  /** `isoformat() + 'Z'` is a UTC time exactly for a naive datetime: an
      aware one already ends in its offset, so the text reads `+00:00Z`. */
  lemma ZuluTextUtcIff(d: DateTime, iso: DateTime -> string)
    requires WritesOffsetIffAware(iso)
    ensures UtcStamp(ZuluText(d, iso)) <==> !d.aware
  {
    var s := ZuluText(d, iso);
    assert s[..|s| - 1] == iso(d);
    assert EndsWithOffset(iso(d)) <==> d.aware;
  }

  /** The arguments of the provider's events listing; the bounds are the
      texts sent. */
  datatype ListRequest = ListRequest(
    calendarId: string,
    timeMin: string,
    timeMax: string,
    maxResults: int,
    singleEvents: bool,
    orderBy: string)

  /** `get_events(...)` at time now: a missing lower bound is the naive now
      and a missing upper bound lies thirty days after the lower one, aware
      exactly when the lower one is; both go out as `isoformat() + 'Z'`;
      recurring events are expanded and ordered by start time. */
  function EventsListRequest(calendarId: string, timeMin: Option<DateTime>, timeMax: Option<DateTime>, maxResults: int,
                             now: Instant, iso: DateTime -> string): (r: ListRequest)
    ensures timeMin.None? ==> r.timeMin == ZuluText(DateTime(now, false), iso)
    ensures timeMin.Some? ==> r.timeMin == ZuluText(timeMin.value, iso)
    ensures timeMax.None? && timeMin.None? ==> r.timeMax == ZuluText(DateTime(now + ThirtyDays, false), iso)
    ensures timeMax.None? && timeMin.Some? ==>
      r.timeMax == ZuluText(DateTime(timeMin.value.t + ThirtyDays, timeMin.value.aware), iso)
    ensures timeMax.Some? ==> r.timeMax == ZuluText(timeMax.value, iso)
    ensures r.calendarId == calendarId && r.maxResults == maxResults
    ensures r.singleEvents && r.orderBy == "startTime"
  {
    var lo := timeMin.GetOr(DateTime(now, false));
    var hi := timeMax.GetOr(DateTime(lo.t + ThirtyDays, lo.aware));
    ListRequest(calendarId, ZuluText(lo, iso), ZuluText(hi, iso), maxResults, true, "startTime")
  }

  /** A listing without bounds sends two UTC times thirty days apart. */
  lemma DefaultListingIsUtc(calendarId: string, maxResults: int, now: Instant, iso: DateTime -> string)
    requires WritesOffsetIffAware(iso)
    ensures var r := EventsListRequest(calendarId, None, None, maxResults, now, iso);
      UtcStamp(r.timeMin) && UtcStamp(r.timeMax) &&
      r.timeMin == ZuluText(DateTime(now, false), iso) && r.timeMax == ZuluText(DateTime(now + ThirtyDays, false), iso)
  {
    ZuluTextUtcIff(DateTime(now, false), iso);
    ZuluTextUtcIff(DateTime(now + ThirtyDays, false), iso);
  }

  /** `events_result.get('items', [])`: the listed events, none when the
      answer carries no `items` key. */
  function EventItems(answer: map<string, Value>): (items: Value)
    ensures "items" !in answer ==> items == JArr([])
    ensures "items" in answer ==> items == answer["items"]
  {
    Get(answer, "items", JArr([]))
  }

  /** A point in time as the provider expects it, in UTC. */
  function TimeObject(t: Instant): (v: Value)
    ensures v.JObj? && v.fields.Keys == {"dateTime", "timeZone"}
    ensures v.fields["dateTime"] == JTime(t) && v.fields["timeZone"] == JStr("UTC")
  {
    JObj(map["dateTime" := JTime(t), "timeZone" := JStr("UTC")])
  }

  /** `[{'email': e} for e in emails]`. */
  function AttendeeObjects(emails: seq<Value>): (r: seq<Value>)
    ensures |r| == |emails|
    ensures forall i :: 0 <= i < |r| ==> r[i] == JObj(map["email" := emails[i]])
  {
    seq(|emails|, i requires 0 <= i < |emails| => JObj(map["email" := emails[i]]))
  }

  /** The `email` of each attendee object, JNull where there is none. */
  function EmailsOf(attendees: seq<Value>): (r: seq<Value>)
    ensures |r| == |attendees|
  {
    seq(|attendees|, i requires 0 <= i < |attendees| =>
      if attendees[i].JObj? && "email" in attendees[i].fields then attendees[i].fields["email"] else JNull)
  }

  /** The attendee objects carry exactly the given addresses, in order. */
  lemma AttendeeObjectsRoundTrip(emails: seq<Value>)
    ensures EmailsOf(AttendeeObjects(emails)) == emails
  {
  }

  /** `create_event(...)` at time now: the event body, with a missing start
      defaulting to now and a missing end to one hour after the start.  The
      attendee list is iterated only when truthy; a truthy value that cannot
      be iterated as a list or string is an error. */
  function EventBody(summary: Value, start: Option<Instant>, end: Option<Instant>,
                     description: Value, location: Value, attendees: Value, now: Instant): (r: Result<map<string, Value>, string>)
    ensures r.Err? <==> PyTruthy(attendees) && PyIterate(attendees).None?
    ensures r.Ok? ==> r.value.Keys - {"attendees"} == {"summary", "location", "description", "start", "end"}
    ensures r.Ok? ==> && r.value["summary"] == summary
                      && r.value["description"] == description
                      && r.value["location"] == location
    ensures r.Ok? ==> r.value["start"] == TimeObject(start.GetOr(now))
    ensures r.Ok? ==> r.value["end"] == TimeObject(if end.Some? then end.value else start.GetOr(now) + OneHour)
    ensures r.Ok? ==> ("attendees" in r.value <==> PyTruthy(attendees))
    ensures r.Ok? && PyTruthy(attendees) ==>
      r.value["attendees"] == JArr(AttendeeObjects(PyIterate(attendees).value))
  {
    var s := start.GetOr(now);
    var e := end.GetOr(s + OneHour);
    var event := map[
      "summary" := summary,
      "location" := location,
      "description" := description,
      "start" := TimeObject(s),
      "end" := TimeObject(e)];
    if !PyTruthy(attendees) then Ok(event)
    else
      match PyIterate(attendees)
      case None => Err("TypeError: attendees is not iterable")
      case Some(items) => Ok(event["attendees" := JArr(AttendeeObjects(items))])
  }

  /** An attendee list of addresses reaches the provider as one attendee
      object per address, in the given order; an empty list adds none. */
  lemma EventBodyAttendees(summary: Value, start: Option<Instant>, end: Option<Instant>,
                           description: Value, location: Value, emails: seq<Value>, now: Instant)
    ensures var r := EventBody(summary, start, end, description, location, JArr(emails), now);
      r.Ok? && (emails == [] ==> "attendees" !in r.value) &&
      (emails != [] ==> EmailsOf(r.value["attendees"].items) == emails)
  {
    AttendeeObjectsRoundTrip(emails);
  }

  /** The body of the free/busy query: both bounds go out as
      `isoformat() + 'Z'`. */
  function FreeBusyBody(timeMin: DateTime, timeMax: DateTime, calendars: seq<string>, iso: DateTime -> string): (body: map<string, Value>)
    ensures body.Keys == {"timeMin", "timeMax", "items"}
    ensures body["timeMin"] == JStr(ZuluText(timeMin, iso)) && body["timeMax"] == JStr(ZuluText(timeMax, iso))
    ensures body["items"].JArr? && |body["items"].items| == |calendars|
  {
    map[
      "timeMin" := JStr(ZuluText(timeMin, iso)),
      "timeMax" := JStr(ZuluText(timeMax, iso)),
      "items" := JArr(seq(|calendars|, i requires 0 <= i < |calendars| => JObj(map["id" := JStr(calendars[i])])))]
  }

  /** The `id` of each free/busy item, "" where there is none. */
  function CalendarIdsOf(items: seq<Value>): (ids: seq<string>)
    ensures |ids| == |items|
  {
    seq(|items|, i requires 0 <= i < |items| =>
      if items[i].JObj? && "id" in items[i].fields && items[i].fields["id"].JStr? then items[i].fields["id"].s else "")
  }

  /** The free/busy query names every calendar once, in the given order. */
  lemma FreeBusyItemsRoundTrip(timeMin: DateTime, timeMax: DateTime, calendars: seq<string>, iso: DateTime -> string)
    ensures CalendarIdsOf(FreeBusyBody(timeMin, timeMax, calendars, iso)["items"].items) == calendars
  {
  }
}

=== FILE: common.dfy ===
/** Shared vocabulary of the model: optional values, results, time, and the
    sequence helpers every table query is built from. */
module Common {

  /** An optional value: a nullable column, an absent key, a query with no row. */
  datatype Option<+T> = None | Some(value: T) {

    /** The value, or the given default when absent. */
    function GetOr(default: T): T {
      match this
      case Some(v) => v
      case None => default
    }
  }

  /** The outcome of an operation that either produces a value or fails. */
  datatype Result<+T, +E> = Ok(value: T) | Err(error: E)

  /** f applied to every element in order, all or nothing: the first
      failure fails the whole. */
  function MapResults<A, B, E>(s: seq<A>, f: A -> Result<B, E>): (r: Result<seq<B>, E>)
    ensures r.Ok? <==> forall i :: 0 <= i < |s| ==> f(s[i]).Ok?
    ensures r.Ok? ==> |r.value| == |s| && forall i :: 0 <= i < |s| ==> f(s[i]) == Ok(r.value[i])
    decreases |s|
  {
    if s == [] then Ok([])
    else
      match f(s[0])
      case Err(e) => Err(e)
      case Ok(x) =>
        match MapResults(s[1..], f)
        case Err(e) =>
          assert forall i :: 0 <= i < |s[1..]| ==> s[1..][i] == s[i + 1];
          Err(e)
        case Ok(xs) =>
          var r := [x] + xs;
          assert forall i :: 1 <= i < |s| ==> s[i] == s[1..][i - 1] && r[i] == xs[i - 1];
          Ok(r)
  }

  /** Time in whole seconds since 1970-01-01T00:00:00Z (negative before it). */
  type Instant = int

  const MinuteSeconds: int := 60
  const HourSeconds: int := 3600
  const DaySeconds: int := 86400

  /** No element occurs twice. */
  predicate Distinct<T(==)>(s: seq<T>) {
    forall i, j :: 0 <= i < j < |s| ==> s[i] != s[j]
  }

  lemma DistinctCons<T>(x: T, s: seq<T>)
    requires x !in s && Distinct(s)
    ensures Distinct([x] + s)
  {
    forall i, j | 0 <= i < j < |[x] + s|
      ensures ([x] + s)[i] != ([x] + s)[j]
    {
      if i == 0 {
        assert ([x] + s)[j] == s[j - 1];
      }
    }
  }

  /** The head of a sequence without repetitions does not recur in its tail,
      and the tail has no repetitions either. */
  lemma DistinctTail<T>(s: seq<T>)
    requires s != [] && Distinct(s)
    ensures s[0] !in s[1..] && Distinct(s[1..])
  {
    assert forall i, j :: 0 <= i < j < |s[1..]| ==> s[1..][i] == s[i + 1] && s[1..][j] == s[j + 1];
  }

  /** A sequence that is a permutation of one without repetitions has none. */
  lemma {:induction false} DistinctPermutation<T>(a: seq<T>, b: seq<T>)
    requires multiset(a) == multiset(b) && Distinct(a)
    ensures Distinct(b)
  {
    forall i, j | 0 <= i < j < |b| ensures b[i] != b[j] {
      if b[i] == b[j] {
        var x := b[i];
        assert multiset(b) == multiset(b[..i]) + multiset{x} + multiset(b[i + 1..j]) + multiset{x} + multiset(b[j + 1..]) by {
          assert b == b[..i] + [x] + b[i + 1..j] + [x] + b[j + 1..];
        }
        assert multiset(a)[x] >= 2;
        DistinctCount(a, x);
        assert false;
      }
    }
  }

  /** In a sequence without repetitions every value occurs at most once. */
  lemma {:induction false} DistinctCount<T>(a: seq<T>, x: T)
    requires Distinct(a)
    ensures multiset(a)[x] <= 1
    decreases |a|
  {
    if a != [] {
      assert a == [a[0]] + a[1..];
      DistinctTail(a);
      DistinctCount(a[1..], x);
      if a[0] == x {
        assert x !in multiset(a[1..]);
      }
    }
  }

  /** The elements of s that satisfy p, in their original order (a WHERE clause). */
  function Filter<T(==)>(s: seq<T>, p: T -> bool): (r: seq<T>)
    ensures |r| <= |s|
    decreases |s|
  {
    if s == [] then []
    else if p(s[0]) then [s[0]] + Filter(s[1..], p)
    else Filter(s[1..], p)
  }

  /** Filtering keeps exactly the elements that satisfy p. */
  lemma {:induction false} FilterMembers<T>(s: seq<T>, p: T -> bool)
    ensures forall x :: x in Filter(s, p) <==> x in s && p(x)
    decreases |s|
  {
    if s != [] {
      FilterMembers(s[1..], p);
      assert s == [s[0]] + s[1..];
    }
  }

  /** Every element that filtering keeps satisfies p. */
  lemma FilterSatisfies<T>(s: seq<T>, p: T -> bool)
    ensures forall i :: 0 <= i < |Filter(s, p)| ==> p(Filter(s, p)[i]) && Filter(s, p)[i] in s
  {
    var r := Filter(s, p);
    FilterMembers(s, p);
    assert forall i :: 0 <= i < |r| ==> r[i] in r;
  }

  /** Filtering a sequence without repetitions leaves none. */
  lemma {:induction false} FilterDistinct<T>(s: seq<T>, p: T -> bool)
    requires Distinct(s)
    ensures Distinct(Filter(s, p))
    decreases |s|
  {
    if s != [] {
      DistinctTail(s);
      FilterDistinct(s[1..], p);
      if p(s[0]) {
        FilterMembers(s[1..], p);
        DistinctCons(s[0], Filter(s[1..], p));
      }
    }
  }

  lemma {:induction false} FilterAppend<T>(a: seq<T>, b: seq<T>, p: T -> bool)
    ensures Filter(a + b, p) == Filter(a, p) + Filter(b, p)
    decreases |a|
  {
    if a == [] {
      assert a + b == b;
    } else {
      assert (a + b)[1..] == a[1..] + b;
      FilterAppend(a[1..], b, p);
    }
  }

  /** Filtering by p keeps every element when all of them satisfy p. */
  lemma {:induction false} FilterAll<T>(s: seq<T>, p: T -> bool)
    requires forall i :: 0 <= i < |s| ==> p(s[i])
    ensures Filter(s, p) == s
    decreases |s|
  {
    if s != [] {
      FilterAll(s[1..], p);
    }
  }

  /** Filtering by p drops every element when none of them satisfies p. */
  lemma {:induction false} FilterNone<T>(s: seq<T>, p: T -> bool)
    requires forall i :: 0 <= i < |s| ==> !p(s[i])
    ensures Filter(s, p) == []
    decreases |s|
  {
    if s != [] {
      FilterNone(s[1..], p);
    }
  }

  /** The index of the first element satisfying p: what
      `db.session.scalar(select(...).where(...))` returns for a table kept in
      row order. */
  function FirstIndex<T>(s: seq<T>, p: T -> bool): (r: Option<nat>)
    ensures r.Some? ==> r.value < |s| && p(s[r.value])
    ensures r.Some? ==> forall j :: 0 <= j < r.value ==> !p(s[j])
    ensures r.None? <==> forall j :: 0 <= j < |s| ==> !p(s[j])
    decreases |s|
  {
    if s == [] then None
    else if p(s[0]) then Some(0)
    else
      match FirstIndex(s[1..], p)
      case None => None
      case Some(k) => Some(k + 1)
  }

  /** The first match is at k when s[k] matches and nothing before it does. */
  lemma FirstIndexIs<T>(s: seq<T>, p: T -> bool, k: nat)
    requires k < |s| && p(s[k])
    requires forall j :: 0 <= j < k ==> !p(s[j])
    ensures FirstIndex(s, p) == Some(k)
  {
    var r := FirstIndex(s, p);
    assert r.Some?;
    assert !(r.value < k) && !(k < r.value);
  }

  /** Replacing one element by another that p judges alike keeps the number
      of matches, and keeps the matches themselves when neither matches. */
  lemma {:induction false} FilterUpdate<T>(s: seq<T>, k: nat, v: T, p: T -> bool)
    requires k < |s| && p(s[k]) == p(v)
    ensures |Filter(s[k := v], p)| == |Filter(s, p)|
    ensures !p(v) ==> Filter(s[k := v], p) == Filter(s, p)
    decreases |s|
  {
    var t := s[k := v];
    if k == 0 {
      assert t[1..] == s[1..];
    } else {
      assert t[1..] == s[1..][k - 1 := v];
      FilterUpdate(s[1..], k - 1, v, p);
    }
  }

  /** Largest element of a sequence of naturals, 0 for the empty one. */
  function MaxOf(s: seq<nat>): (m: nat)
    ensures forall i :: 0 <= i < |s| ==> s[i] <= m
    ensures s != [] ==> m in s
    decreases |s|
  {
    if s == [] then 0
    else
      var rest := MaxOf(s[1..]);
      if s[0] >= rest then s[0] else rest
  }

  /** Unions regroup freely. */
  lemma UnionRegroup3<T>(a: set<T>, b: set<T>, c: set<T>, d: set<T>)
    ensures a + ((b + c) + d) == ((a + b) + c) + d
  {
  }

  lemma UnionRegroup<T>(a: set<T>, c: set<T>, s: set<T>, e: set<T>, t: set<T>)
    ensures a + (((c + s) + e) + t) == (((a + c) + s) + e) + t
  {
  }
}

=== FILE: config.dfy ===
/** The settings of `config.py` whose values the application derives from the
    environment: the two mail flags, the mail port and the page size. */
module Config {
  import opened Common
  import opened Text
  import opened PyInt

  /** Rows per page of every paginated listing. */
  const PostsPerPage: nat := 25

  /** The mail port when `MAIL_PORT` is unset. */
  const DefaultMailPort: int := 25

  /** The spellings that switch a flag on once lower-cased. */
  const FlagWords: seq<string> := ["true", "1", "t"]

  /** A boolean setting read from the environment (None when unset): the value,
      `'false'` by default, lower-cased and compared with the flag words.
      ASCII lower-casing decides the same as Python's `lower()` here, since no
      other character lower-cases to one of the letters of a flag word. */
  function EnvFlag(value: Option<string>): (on: bool)
    ensures value.None? ==> !on
  {
    LowerAscii(value.GetOr("false")) in FlagWords
  }

  /** s spells the lower-case ASCII word w with any mix of letter cases. */
  predicate SpellsIgnoringCase(s: string, w: string) {
    |s| == |w| && forall i :: 0 <= i < |s| ==> s[i] == w[i] || (s[i] as int) + 32 == w[i] as int
  }

  lemma LowerAsciiSpells(s: string, w: string)
    requires forall i :: 0 <= i < |w| ==> 'a' <= w[i] <= 'z'
    ensures LowerAscii(s) == w <==> SpellsIgnoringCase(s, w)
  {
    if SpellsIgnoringCase(s, w) {
      forall i | 0 <= i < |s| ensures LowerAscii(s)[i] == w[i] {
        if s[i] != w[i] {
          assert 'A' <= s[i] <= 'Z';
        }
      }
    }
  }

  /** MAIL_USE_TLS / MAIL_USE_SSL: on exactly for "true", "1" or "t" in any
      letter case, and off when unset. */
  lemma EnvFlagIff(value: Option<string>)
    ensures EnvFlag(value) <==>
      value.Some? && (SpellsIgnoringCase(value.value, "true") || value.value == "1" || SpellsIgnoringCase(value.value, "t"))
  {
    if value.Some? {
      var s := value.value;
      LowerAsciiSpells(s, "true");
      LowerAsciiSpells(s, "t");
      if LowerAscii(s) == "1" {
        assert LowerAsciiChar(s[0]) == '1';
      }
    } else {
      assert LowerAscii("false") == "false";
    }
  }

  // ---------------------------------------------------------------------------
  // `int()` reads back `str()`, and MAIL_PORT

  /** `int()` reads back every decimal spelling. */
  lemma PyParseIntShowNat(n: nat)
    ensures PyParseInt(ShowNat(n)) == Some(n)
  {
    PyParseIntDigits(ShowNat(n));
  }

  /** `int()` reads back every decimal spelling behind a minus sign. */
  lemma PyParseIntShowNegated(n: nat)
    ensures PyParseInt("-" + ShowNat(n)) == Some(-(n as int))
  {
    var s := ShowNat(n);
    assert Some(-(DecimalValue(s) as int)) == Some(-(n as int));
    PyParseIntNegatedDigits(s);
  }

  /** MAIL_PORT: 25 when unset, else `int()` of the value (None when that raises). */
  function MailPort(value: Option<string>): (port: Option<int>)
    ensures value.None? ==> port == Some(DefaultMailPort)
    ensures value.Some? ==> port == PyParseInt(value.value)
  {
    match value
    case None => Some(DefaultMailPort)
    case Some(s) => PyParseInt(s)
  }

  /** A port written out in decimal is the port configured. */
  lemma MailPortRoundTrip(n: nat)
    ensures MailPort(Some(ShowNat(n))) == Some(n)
  {
    PyParseIntShowNat(n);
  }
}

=== FILE: forms.dfy ===
/** The form rules of `app/forms.py`: the required/length checks of the post,
    message and profile forms and the username-availability check of the
    profile form, together with the profile edit that relies on them. */
module Forms {
  import opened Common
  import opened Text
  import opened Models
  import opened Identity

  /** The longest post, message or about-me text a form accepts. */
  const MaxTextLength: nat := 140

  /** WTForms `DataRequired`: the field is non-empty and not blank once Python
      `strip()` has removed the white space at both ends. */
  predicate DataRequired(data: string) {
    data != "" && Trim(data, IsPySpace) != ""
  }

  /** A required field is one that holds some non-space character. */
  lemma DataRequiredIff(data: string)
    ensures DataRequired(data) <==> exists i :: 0 <= i < |data| && !IsPySpace(data[i])
  {
    TrimEmptyIff(data, IsPySpace);
  }

  /** WTForms `Length(min, max)` on the number of characters. */
  predicate LengthWithin(data: string, min: nat, max: nat) {
    min <= |data| <= max
  }

  /** The body field of `PostForm` and of `MessageForm`: `DataRequired()` and
      then `Length(min=1, max=140)`. */
  function ValidateBody(body: string): (ok: bool)
    ensures ok <==> (exists i :: 0 <= i < |body| && !IsPySpace(body[i])) && |body| <= MaxTextLength
  {
    DataRequiredIff(body);
    DataRequired(body) && LengthWithin(body, 1, MaxTextLength)
  }

  /** `EditProfileForm.validate_username`: an unchanged name passes without a
      lookup; a changed one passes exactly when no stored user holds it. */
  function ValidateUsername(original: string, candidate: string, users: seq<User>): (ok: bool)
    ensures candidate == original ==> ok
    ensures candidate != original ==> (ok <==> forall i :: 0 <= i < |users| ==> users[i].username != candidate)
  {
    if candidate == original then true
    else
      assert forall i :: 0 <= i < |users| ==> (HasUsername(candidate)(users[i]) <==> users[i].username == candidate);
      FirstIndex(users, HasUsername(candidate)).None?
  }

  /** `EditProfileForm` as a whole: the username is required, and only then
      checked for availability; about-me holds at most 140 characters. */
  function ValidateProfile(original: string, username: string, aboutMe: string, users: seq<User>): (ok: bool)
    ensures ok <==> (DataRequired(username) && |aboutMe| <= MaxTextLength &&
      (username == original || forall i :: 0 <= i < |users| ==> users[i].username != username))
  {
    DataRequired(username) && ValidateUsername(original, username, users) && LengthWithin(aboutMe, 0, MaxTextLength)
  }

  /** `/edit_profile` submitted by the user in row k: a valid form stores the
      new username and about-me text; an invalid one changes nothing (None). */
  function EditProfile(users: seq<User>, k: nat, username: string, aboutMe: string): (r: Option<seq<User>>)
    requires k < |users|
    ensures r.Some? ==> |r.value| == |users| && r.value[k].username == username && r.value[k].aboutMe == Some(aboutMe)
    ensures r.Some? ==> forall i :: 0 <= i < |users| && i != k ==> r.value[i] == users[i]
    ensures r.Some? ==> r.value[k].id == users[k].id && r.value[k].sub == users[k].sub && r.value[k].email == users[k].email
    ensures r.Some? <==> ValidateProfile(users[k].username, username, aboutMe, users)
  {
    if ValidateProfile(users[k].username, username, aboutMe, users) then
      Some(users[k := users[k].(username := username, aboutMe := Some(aboutMe))])
    else None
  }

  /** What `/edit_profile` answers. */
  datatype ProfileOutcome =
    | ProfileToLogin                  // no user in the session
    | ProfileCrashed                  // the session's user is not stored, so `user.username` raises
    | ProfileShown                    // not a valid submission: the form is rendered, nothing changes
    | ProfileSaved(users: seq<User>)  // the edit is committed

  /** The `/edit_profile` route. `submitted` is the part of
      `validate_on_submit` that is not the form's own rules: the request is a
      POST and its CSRF token is valid. */
  function EditProfileRoute(session: Session, submitted: bool, username: string, aboutMe: string, users: seq<User>): (r: ProfileOutcome)
    ensures r == ProfileToLogin <==> session.user.None?
    ensures r == ProfileCrashed <==> session.user.Some? && CurrentUserIndex(session, users).None?
    ensures r == ProfileShown <==>
      session.user.Some? && CurrentUserIndex(session, users).Some? &&
      !(submitted && ValidateProfile(users[CurrentUserIndex(session, users).value].username, username, aboutMe, users))
    ensures r.ProfileSaved? <==>
      session.user.Some? && CurrentUserIndex(session, users).Some? && submitted &&
      ValidateProfile(users[CurrentUserIndex(session, users).value].username, username, aboutMe, users)
    ensures r.ProfileSaved? ==> r.users == EditProfile(users, CurrentUserIndex(session, users).value, username, aboutMe).value
  {
    if session.user.None? then ProfileToLogin
    else
      match CurrentUserIndex(session, users)
      case None => ProfileCrashed
      case Some(k) =>
        if !submitted then ProfileShown
        else
          match EditProfile(users, k, username, aboutMe)
          case None => ProfileShown
          case Some(users') => ProfileSaved(users')
  }

  /** After a saved edit the same session still resolves to the same row,
      now carrying the new username: the edit never touches the sub. */
  lemma EditProfileRouteKeepsSession(session: Session, submitted: bool, username: string, aboutMe: string, users: seq<User>)
    requires EditProfileRoute(session, submitted, username, aboutMe, users).ProfileSaved?
    ensures var users' := EditProfileRoute(session, submitted, username, aboutMe, users).users;
      CurrentUserIndex(session, users') == CurrentUserIndex(session, users) &&
      users'[CurrentUserIndex(session, users).value].username == username
  {
    var k := CurrentUserIndex(session, users).value;
    var users' := EditProfileRoute(session, submitted, username, aboutMe, users).users;
    var sub := SessionSub(session).value;
    assert forall i :: 0 <= i < |users| ==> users'[i].sub == users[i].sub;
    assert forall j :: 0 <= j < k ==> !HasSub(sub)(users'[j]);
    FirstIndexIs(users', HasSub(sub), k);
  }

  /** The username check is what keeps usernames unique across profile edits. */
  lemma EditProfileKeepsKeysUnique(users: seq<User>, k: nat, username: string, aboutMe: string)
    requires k < |users| && UniqueKeys(users)
    ensures EditProfile(users, k, username, aboutMe).Some? ==> UniqueKeys(EditProfile(users, k, username, aboutMe).value)
  {
    var r := EditProfile(users, k, username, aboutMe);
    if r.Some? {
      var users' := r.value;
      forall i, j | 0 <= i < j < |users'|
        ensures users'[i].id != users'[j].id && users'[i].sub != users'[j].sub
        ensures users'[i].email != users'[j].email && users'[i].username != users'[j].username
      {
        if i != k && j != k {
          assert users'[i] == users[i] && users'[j] == users[j];
        } else if username == users[k].username {
          assert users'[k] == users[k].(aboutMe := Some(aboutMe));
        }
      }
    }
  }
}

=== FILE: identity.dfy ===
/** Identity resolution in `app/routes.py`: which stored user a session stands
    for, the sign-in callback that finds or creates that user from the identity
    provider's claims, the manual user-creation endpoint, the guards of the
    follow/unfollow routes, and the bookkeeping of the messages page. */
module Identity {
  import opened Common
  import opened Text
  import opened Models
  import opened Json

  /** The claims of the provider's `userinfo` object; None is an absent key.
      For `nickname`, Some(None) is a key present with a JSON null. */
  datatype UserInfo = UserInfo(sub: Option<string>, email: Option<string>, nickname: Option<Option<string>>)

  /** The token returned by the code exchange, kept in the session as `user`. */
  datatype AuthToken = AuthToken(userinfo: Option<UserInfo>)

  /** The parts of the server-side session the routes read and write. */
  datatype Session = Session(user: Option<AuthToken>, authState: Option<string>)

  /** What `session.clear()` leaves. */
  const EmptySession: Session := Session(None, None)

  /** A Python-truthy optional string: present and non-empty. */
  predicate Present(s: Option<string>) {
    s.Some? && s.value != ""
  }

  function HasSub(sub: string): User -> bool {
    (u: User) => u.sub == sub
  }

  function HasEmail(email: string): User -> bool {
    (u: User) => u.email == email
  }

  function HasUsername(name: string): User -> bool {
    (u: User) => u.username == name
  }

  /** The primary key and the unique columns of the user table: id, sub, email
      and username each identify at most one row. */
  predicate UniqueKeys(users: seq<User>) {
    forall i, j :: 0 <= i < j < |users| ==>
      users[i].id != users[j].id && users[i].sub != users[j].sub &&
      users[i].email != users[j].email && users[i].username != users[j].username
  }

  /** The truthy `sub` claim of the session's user, if any. */
  function SessionSub(s: Session): Option<string> {
    if s.user.Some? && s.user.value.userinfo.Some? && Present(s.user.value.userinfo.value.sub)
    then s.user.value.userinfo.value.sub
    else None
  }

  /** The row `get_current_user` loads: the first user whose sub is the
      session's sub claim. */
  function CurrentUserIndex(s: Session, users: seq<User>): (r: Option<nat>)
    ensures SessionSub(s).None? ==> r.None?
    ensures r.Some? ==> r.value < |users| && Some(users[r.value].sub) == SessionSub(s)
    ensures SessionSub(s).Some? ==> (r.None? <==> forall i :: 0 <= i < |users| ==> users[i].sub != SessionSub(s).value)
  {
    match SessionSub(s)
    case None => None
    case Some(sub) => FirstIndex(users, HasSub(sub))
  }

  /** `get_current_user()`: nothing without a session user or a truthy sub
      claim, or when no stored user carries that sub; otherwise the user with
      that sub, which the unique sub column makes the only one. */
  function GetCurrentUser(s: Session, users: seq<User>): (r: Option<User>)
    ensures s.user.None? || SessionSub(s).None? ==> r.None?
    ensures r.Some? ==> r.value in users && SessionSub(s) == Some(r.value.sub) && r.value.sub != ""
    ensures SessionSub(s).Some? && (exists i :: 0 <= i < |users| && users[i].sub == SessionSub(s).value) ==> r.Some?
    ensures UniqueKeys(users) && r.Some? ==> forall i :: 0 <= i < |users| && users[i].sub == r.value.sub ==> users[i] == r.value
  {
    match CurrentUserIndex(s, users)
    case None => None
    case Some(k) => Some(users[k])
  }

  // ---------------------------------------------------------------------------
  // The sign-in callback

  const NoEmailDomain: string := "@noemail.example.com"

  /** The address given to an identity without an email: the sub with every
      `|` turned into `_`, at the no-email domain. */
  function SyntheticEmail(sub: string): (e: string)
    ensures |e| == |sub| + |NoEmailDomain| && e[|sub|..] == NoEmailDomain
    ensures forall i :: 0 <= i < |sub| ==> e[i] == (if sub[i] == '|' then '_' else sub[i])
    ensures '|' !in e
  {
    ReplaceChar(sub, '|', "_") + NoEmailDomain
  }

  /** The email the callback files the identity under. */
  function ResolvedEmail(info: UserInfo, sub: string): (e: string)
    ensures e != ""
    ensures Present(info.email) ==> e == info.email.value
  {
    if Present(info.email) then info.email.value else SyntheticEmail(sub)
  }

  /** `user_info.get('nickname', 'default_user')`; None is a JSON null, which
      the non-null username column rejects. */
  function NewUsername(info: UserInfo): Option<string> {
    match info.nickname
    case None => Some("default_user")
    case Some(n) => n
  }

  function UserIds(users: seq<User>): (ids: seq<nat>)
    ensures |ids| == |users| && forall i :: 0 <= i < |users| ==> ids[i] == users[i].id
  {
    seq(|users|, i requires 0 <= i < |users| => users[i].id)
  }

  /** The id the database gives the next inserted user: one past the largest
      id in use. */
  function NextUserId(users: seq<User>): (id: UserId)
    ensures forall i :: 0 <= i < |users| ==> users[i].id < id
  {
    var ids := UserIds(users);
    assert forall i :: 0 <= i < |users| ==> users[i].id == ids[i];
    MaxOf(ids) + 1
  }

  datatype CallbackOutcome =
    | StateMismatch       // back to the login page
    | ExchangeFailed      // the code exchange raised, or its token had no userinfo
    | MissingSub          // back to the login page
    | EmailInUse          // the email belongs to another identity
    | StoreRejected       // the insert violated a column constraint
    | SignedIn(userId: UserId, created: bool)

  datatype CallbackResult = CallbackResult(outcome: CallbackOutcome, session: Session, users: seq<User>)

  /** The userinfo of a successful exchange. */
  function Claims(exchange: Option<AuthToken>): Option<UserInfo> {
    if exchange.Some? then exchange.value.userinfo else None
  }

  /** The `/callback` handler.  `received` is the `state` query argument and
      `exchange` the provider's answer to the code exchange (None when it
      raised).  Every failure clears the session and leaves the users alone. */
  function Callback(received: Option<string>, session: Session, exchange: Option<AuthToken>, users: seq<User>): (r: CallbackResult)
    ensures r.outcome.StateMismatch? <==> received != session.authState
    ensures r.outcome.ExchangeFailed? <==> received == session.authState && Claims(exchange).None?
    ensures r.outcome.MissingSub? <==>
      received == session.authState && Claims(exchange).Some? && !Present(Claims(exchange).value.sub)
    ensures r.outcome.StoreRejected? <==>
      received == session.authState && Claims(exchange).Some? && Present(Claims(exchange).value.sub) &&
      var info := Claims(exchange).value;
      var sub := info.sub.value;
      && (forall i :: 0 <= i < |users| ==> users[i].sub != sub && users[i].email != ResolvedEmail(info, sub))
      && (NewUsername(info).None? || exists i :: 0 <= i < |users| && users[i].username == NewUsername(info).value)
    ensures !r.outcome.SignedIn? ==> r.users == users && r.session == EmptySession
    ensures r.outcome.SignedIn? ==>
      r.session == Session(exchange, None) && Claims(exchange).Some? && Present(Claims(exchange).value.sub)
    ensures r.outcome.SignedIn? ==>
      var sub := Claims(exchange).value.sub.value;
      exists i :: 0 <= i < |r.users| && r.users[i].id == r.outcome.userId &&
        r.users[i].sub == sub && r.users[i].email == ResolvedEmail(Claims(exchange).value, sub)
  {
    if received != session.authState then CallbackResult(StateMismatch, EmptySession, users)
    else if Claims(exchange).None? then CallbackResult(ExchangeFailed, EmptySession, users)
    else
      var info := Claims(exchange).value;
      if !Present(info.sub) then CallbackResult(MissingSub, EmptySession, users)
      else
        var sub := info.sub.value;
        var email := ResolvedEmail(info, sub);
        var signedIn := Session(exchange, None);
        match FirstIndex(users, HasSub(sub))
        case None =>
          if FirstIndex(users, HasEmail(email)).Some? then CallbackResult(EmailInUse, EmptySession, users)
          else (
            match NewUsername(info)
            case None => CallbackResult(StoreRejected, EmptySession, users)
            case Some(name) =>
              if FirstIndex(users, HasUsername(name)).Some? then CallbackResult(StoreRejected, EmptySession, users)
              else
                var id := NextUserId(users);
                var users' := users + [NewUser(id, name, email, sub)];
                assert users'[|users|].id == id;
                CallbackResult(SignedIn(id, true), signedIn, users'))
        case Some(k) =>
          if users[k].email == email then CallbackResult(SignedIn(users[k].id, false), signedIn, users)
          else
            match FirstIndex(users, HasEmail(email))
            case Some(j) =>
              if users[j].sub != sub then CallbackResult(EmailInUse, EmptySession, users)
              else
                var users' := users[k := users[k].(email := email)];
                assert users'[k].id == users[k].id;
                CallbackResult(SignedIn(users[k].id, false), signedIn, users')
            case None =>
              var users' := users[k := users[k].(email := email)];
              assert users'[k].id == users[k].id;
              CallbackResult(SignedIn(users[k].id, false), signedIn, users')
  }

  /** The first sign-in into an empty store files the identity as user 1. */
  lemma FirstSignIn(state: Option<string>, info: UserInfo)
    requires Present(info.sub) && NewUsername(info).Some?
    ensures Callback(state, Session(None, state), Some(AuthToken(Some(info))), []) ==
      CallbackResult(SignedIn(1, true), Session(Some(AuthToken(Some(info))), None),
        [NewUser(1, NewUsername(info).value, ResolvedEmail(info, info.sub.value), info.sub.value)])
  {
    var exchange := Some(AuthToken(Some(info)));
    var none: seq<User> := [];
    assert Claims(exchange) == Some(info);
    assert NextUserId(none) == 1 by {
      assert MaxOf(UserIds(none)) == 0;
    }
    assert FirstIndex(none, HasSub(info.sub.value)) == None;
    assert FirstIndex(none, HasEmail(ResolvedEmail(info, info.sub.value))) == None;
    assert FirstIndex(none, HasUsername(NewUsername(info).value)) == None;
  }

  /** A new identity whose email some stored user already owns is turned away
      and no user is created. */
  lemma CallbackRejectsTakenEmail(received: Option<string>, session: Session, exchange: Option<AuthToken>, users: seq<User>, j: nat)
    requires received == session.authState && Claims(exchange).Some? && Present(Claims(exchange).value.sub)
    requires forall i :: 0 <= i < |users| ==> users[i].sub != Claims(exchange).value.sub.value
    requires j < |users| && users[j].email == ResolvedEmail(Claims(exchange).value, Claims(exchange).value.sub.value)
    ensures Callback(received, session, exchange, users) == CallbackResult(EmailInUse, EmptySession, users)
  {
    assert HasEmail(users[j].email)(users[j]);
  }

  /** A new identity with a free email and a free username becomes exactly one
      new user row carrying its sub, its resolved email and its nickname (or
      `default_user`). */
  lemma CallbackCreatesUser(received: Option<string>, session: Session, exchange: Option<AuthToken>, users: seq<User>)
    requires received == session.authState && Claims(exchange).Some? && Present(Claims(exchange).value.sub)
    requires var info := Claims(exchange).value;
      var email := ResolvedEmail(info, info.sub.value);
      forall i :: 0 <= i < |users| ==> users[i].sub != info.sub.value && users[i].email != email
    requires NewUsername(Claims(exchange).value).Some?
    requires forall i :: 0 <= i < |users| ==> users[i].username != NewUsername(Claims(exchange).value).value
    ensures var info := Claims(exchange).value;
      var sub := info.sub.value;
      var id := NextUserId(users);
      Callback(received, session, exchange, users) ==
        CallbackResult(SignedIn(id, true), Session(exchange, None),
          users + [NewUser(id, NewUsername(info).value, ResolvedEmail(info, sub), sub)])
  {
  }

  /** A new identity whose email is free but whose nickname is already a
      username, or is a JSON null, breaks the username column on insert: the
      session is cleared and nothing is stored, so it can never sign in while
      that name is taken. */
  lemma CallbackRejectsTakenUsername(received: Option<string>, session: Session, exchange: Option<AuthToken>, users: seq<User>, j: nat)
    requires received == session.authState && Claims(exchange).Some? && Present(Claims(exchange).value.sub)
    requires var info := Claims(exchange).value;
      var email := ResolvedEmail(info, info.sub.value);
      forall i :: 0 <= i < |users| ==> users[i].sub != info.sub.value && users[i].email != email
    requires NewUsername(Claims(exchange).value).None? ||
      (j < |users| && users[j].username == NewUsername(Claims(exchange).value).value)
    ensures Callback(received, session, exchange, users) == CallbackResult(StoreRejected, EmptySession, users)
  {
    if NewUsername(Claims(exchange).value).Some? {
      assert HasUsername(users[j].username)(users[j]);
    }
  }

  /** A known identity that reports a changed email owned by a different
      identity is turned away and its stored email stays as it was. */
  lemma CallbackKeepsEmailOnConflict(received: Option<string>, session: Session, exchange: Option<AuthToken>, users: seq<User>, k: nat, j: nat)
    requires received == session.authState && Claims(exchange).Some? && Present(Claims(exchange).value.sub)
    requires UniqueKeys(users) && k < |users| && j < |users|
    requires var info := Claims(exchange).value;
      users[k].sub == info.sub.value && users[j].email == ResolvedEmail(info, info.sub.value) && j != k
    ensures Callback(received, session, exchange, users) == CallbackResult(EmailInUse, EmptySession, users)
  {
    var sub := Claims(exchange).value.sub.value;
    var email := users[j].email;
    assert forall i :: 0 <= i < k ==> !HasSub(sub)(users[i]);
    FirstIndexIs(users, HasSub(sub), k);
    assert forall i :: 0 <= i < j ==> !HasEmail(email)(users[i]);
    FirstIndexIs(users, HasEmail(email), j);
  }

  /** A known identity signs in as its own row; only that row's email can
      change, and only to the resolved email. */
  lemma CallbackKnownIdentity(received: Option<string>, session: Session, exchange: Option<AuthToken>, users: seq<User>, k: nat)
    requires received == session.authState && Claims(exchange).Some? && Present(Claims(exchange).value.sub)
    requires UniqueKeys(users) && k < |users| && users[k].sub == Claims(exchange).value.sub.value
    ensures var r := Callback(received, session, exchange, users);
      var email := ResolvedEmail(Claims(exchange).value, users[k].sub);
      (r.outcome == SignedIn(users[k].id, false) || r.outcome == EmailInUse) &&
      (r.outcome.SignedIn? ==> r.users == users[k := users[k].(email := email)]) &&
      (users[k].email == email ==> r.users == users)
  {
    assert HasSub(users[k].sub)(users[k]);
    var email := ResolvedEmail(Claims(exchange).value, users[k].sub);
    if users[k].email == email {
      assert users[k := users[k].(email := email)] == users;
    }
  }

  /** Appending a row that clashes with no stored row on any key keeps the
      keys unique. */
  lemma AppendKeepsKeysUnique(users: seq<User>, u: User)
    requires UniqueKeys(users)
    requires forall i :: 0 <= i < |users| ==>
      users[i].id != u.id && users[i].sub != u.sub && users[i].email != u.email && users[i].username != u.username
    ensures UniqueKeys(users + [u])
  {
    var r := users + [u];
    forall i, j | 0 <= i < j < |r|
      ensures r[i].id != r[j].id && r[i].sub != r[j].sub && r[i].email != r[j].email && r[i].username != r[j].username
    {
      assert r[i] == users[i];
      if j < |users| {
        assert r[j] == users[j];
      }
    }
  }

  /** Giving row k an email no other row holds keeps the keys unique. */
  lemma SetEmailKeepsKeysUnique(users: seq<User>, k: nat, email: string)
    requires UniqueKeys(users) && k < |users|
    requires forall i :: 0 <= i < |users| && i != k ==> users[i].email != email
    ensures UniqueKeys(users[k := users[k].(email := email)])
  {
    var r := users[k := users[k].(email := email)];
    forall i, j | 0 <= i < j < |r|
      ensures r[i].id != r[j].id && r[i].sub != r[j].sub && r[i].email != r[j].email && r[i].username != r[j].username
    {
      if i != k && j != k {
        assert r[i] == users[i] && r[j] == users[j];
      }
    }
  }

  /** The callback keeps the unique columns unique. */
  /** Inserting a fresh identity whose sub, email and username are all free
      keeps the keys unique. */
  lemma NewIdentityKeepsKeysUnique(users: seq<User>, u: User)
    requires UniqueKeys(users) && u.id == NextUserId(users)
    requires FirstIndex(users, HasSub(u.sub)).None? && FirstIndex(users, HasEmail(u.email)).None?
    requires FirstIndex(users, HasUsername(u.username)).None?
    ensures UniqueKeys(users + [u])
  {
    forall i | 0 <= i < |users|
      ensures users[i].id != u.id && users[i].sub != u.sub && users[i].email != u.email && users[i].username != u.username
    {
      assert !HasSub(u.sub)(users[i]) && !HasEmail(u.email)(users[i]) && !HasUsername(u.username)(users[i]);
    }
    AppendKeepsKeysUnique(users, u);
  }

  lemma CallbackKeepsKeysUnique(received: Option<string>, session: Session, exchange: Option<AuthToken>, users: seq<User>)
    requires UniqueKeys(users)
    ensures UniqueKeys(Callback(received, session, exchange, users).users)
  {
    var r := Callback(received, session, exchange, users);
    if r.outcome.SignedIn? && r.users != users {
      var info := Claims(exchange).value;
      var sub := info.sub.value;
      var email := ResolvedEmail(info, sub);
      match FirstIndex(users, HasSub(sub))
      case None =>
        var name := NewUsername(info).value;
        var u := NewUser(NextUserId(users), name, email, sub);
        assert r.users == users + [u];
        NewIdentityKeepsKeysUnique(users, u);
      case Some(k) =>
        assert r.users == users[k := users[k].(email := email)];
        assert FirstIndex(users, HasEmail(email)).None?;
        forall i | 0 <= i < |users| && i != k ensures users[i].email != email {
          assert !HasEmail(email)(users[i]);
        }
        SetEmailKeepsKeysUnique(users, k, email);
    }
  }

  /** The session resolves to row k when row k is the first with its sub. */
  lemma CurrentUserAt(s: Session, users: seq<User>, k: nat)
    requires k < |users| && SessionSub(s) == Some(users[k].sub)
    requires forall j :: 0 <= j < k ==> users[j].sub != users[k].sub
    ensures GetCurrentUser(s, users) == Some(users[k])
  {
    var sub := users[k].sub;
    assert HasSub(sub)(users[k]);
    assert forall j :: 0 <= j < k ==> !HasSub(sub)(users[j]);
    FirstIndexIs(users, HasSub(sub), k);
  }

  /** After a successful callback the new session resolves to the signed-in user. */
  lemma CallbackSignsIn(received: Option<string>, session: Session, exchange: Option<AuthToken>, users: seq<User>)
    requires Callback(received, session, exchange, users).outcome.SignedIn?
    ensures var r := Callback(received, session, exchange, users);
      GetCurrentUser(r.session, r.users).Some? && GetCurrentUser(r.session, r.users).value.id == r.outcome.userId
  {
    var r := Callback(received, session, exchange, users);
    var info := Claims(exchange).value;
    var sub := info.sub.value;
    var email := ResolvedEmail(info, sub);
    assert SessionSub(r.session) == Some(sub);
    match FirstIndex(users, HasSub(sub))
    case None =>
      var u := NewUser(NextUserId(users), NewUsername(info).value, email, sub);
      assert r.users == users + [u] && r.outcome.userId == u.id;
      forall j | 0 <= j < |users| ensures (users + [u])[j].sub != sub {
        assert !HasSub(sub)(users[j]);
      }
      CurrentUserAt(r.session, users + [u], |users|);
    case Some(k) =>
      assert r.outcome.userId == users[k].id;
      assert r.users == users || r.users == users[k := users[k].(email := email)];
      forall j | 0 <= j < k ensures r.users[j].sub != sub {
        assert !HasSub(sub)(users[j]);
      }
      CurrentUserAt(r.session, r.users, k);
  }

  // ---------------------------------------------------------------------------
  // Manual user creation

  datatype Response = Response(status: int, users: seq<User>)

  /** The part of an address before its first `@` (all of it without one). */
  function LocalPart(email: string): (r: string)
    ensures '@' !in r && r <= email
    ensures '@' in email ==> email[|r|] == '@'
  {
    var parts := Split(email, '@');
    JoinSplit(email, '@');
    assert email == parts[0] + (if |parts| == 1 then [] else ['@'] + Join(parts[1..], "@"));
    parts[0]
  }

  /** `data.get('username', data['email'].split('@')[0])` for a string
      email: the named username, else the local part.  None is a username
      that is not a string (a JSON null breaks the non-null column). */
  function RequestedUsername(body: map<string, Value>, email: string): (r: Option<string>)
    ensures "username" !in body ==> r == Some(LocalPart(email))
    ensures "username" in body ==> (r.Some? <==> body["username"].JStr?)
    ensures "username" in body && r.Some? ==> r.value == body["username"].s
  {
    if "username" !in body then Some(LocalPart(email))
    else match body["username"]
      case JStr(u) => Some(u)
      case _ => None
  }

  /** `POST /api/users` with JSON object body `body` (None when the body is
      missing or JSON null).  An unhandled exception, such as a failed
      unique or non-null column at commit or `split` on an email that is not
      a string, is status 500. */
  function CreateUser(body: Option<map<string, Value>>, users: seq<User>): (r: Response)
    ensures r.status == 400 || r.status == 201 || r.status == 500
    ensures r.status == 400 <==> body.None? || "email" !in body.value
    ensures r.status != 201 ==> r.users == users
    ensures r.status == 201 ==> body.value["email"].JStr?
    ensures r.status == 201 ==> exists i :: 0 <= i < |r.users| && r.users[i].email == body.value["email"].s
    ensures UniqueKeys(users) ==> UniqueKeys(r.users)
  {
    if body.None? || body.value == map[] || "email" !in body.value then Response(400, users)
    else
      match body.value["email"]
      case JStr(email) =>
        (match FirstIndex(users, HasEmail(email))
        case Some(k) =>
          assert users[k].email == email;
          Response(201, users)
        case None =>
          match RequestedUsername(body.value, email)
          case None => Response(500, users)
          case Some(username) =>
            var sub := "manual|" + email;
            if FirstIndex(users, HasUsername(username)).Some? || FirstIndex(users, HasSub(sub)).Some? then
              Response(500, users)
            else
              var users' := users + [NewUser(NextUserId(users), username, email, sub)];
              assert users'[|users|].email == email;
              Response(201, users'))
      case _ => Response(500, users)
  }

  /** The outcome of `POST /api/users` for each kind of object body with an
      email: a known address answers 201 and creates nothing; a new address
      whose username and `manual|<email>` sub are free appends exactly one
      row; a username or sub clash, a username that is not a string, or an
      email that is not a string answers 500 and leaves the users alone. */
  lemma CreateUserOutcome(body: map<string, Value>, users: seq<User>)
    requires "email" in body
    ensures var r := CreateUser(Some(body), users);
      !body["email"].JStr? ==> r == Response(500, users)
    ensures body["email"].JStr? ==>
      var email := body["email"].s;
      var username := RequestedUsername(body, email);
      var sub := "manual|" + email;
      var r := CreateUser(Some(body), users);
      var known := exists i :: 0 <= i < |users| && users[i].email == email;
      var clash := username.Some? &&
        exists i :: 0 <= i < |users| && (users[i].username == username.value || users[i].sub == sub);
      (known ==> r == Response(201, users)) &&
      (!known && username.None? ==> r == Response(500, users)) &&
      (!known && clash ==> r == Response(500, users)) &&
      (!known && username.Some? && !clash ==>
        r == Response(201, users + [NewUser(NextUserId(users), username.value, email, sub)]))
  {
    if body["email"].JStr? {
      var email := body["email"].s;
      var username := RequestedUsername(body, email);
      var sub := "manual|" + email;
      if exists i :: 0 <= i < |users| && users[i].email == email {
        var i :| 0 <= i < |users| && users[i].email == email;
        assert HasEmail(email)(users[i]);
      } else if username.Some? {
        if exists i :: 0 <= i < |users| && (users[i].username == username.value || users[i].sub == sub) {
          var i :| 0 <= i < |users| && (users[i].username == username.value || users[i].sub == sub);
          if users[i].username == username.value {
            assert HasUsername(username.value)(users[i]);
          } else {
            assert HasSub(sub)(users[i]);
          }
        }
      }
    }
  }

  // ---------------------------------------------------------------------------
  // Follow and unfollow routes

  datatype RouteOutcome =
    | ToLogin       // no user in the session
    | ToIndex       // the form did not validate
    | UnknownUser   // no user has the target username
    | SelfTarget    // the target is the current user
    | Crashed       // the session's user is not stored, so the handler raises
    | Done

  /** Row t is the first row named username: the target the route loads. */
  predicate FirstNamed(users: seq<User>, username: string, t: int) {
    0 <= t < |users| && users[t].username == username &&
    forall j :: 0 <= j < t ==> users[j].username != username
  }

  /** The checks shared by `/follow/<username>` and `/unfollow/<username>`:
      either the (current, target) pair of user ids or the outcome that
      stops the handler.  `formValid` is the CSRF check of the empty form. */
  function FollowGuard(session: Session, formValid: bool, username: string, users: seq<User>): (r: Result<(UserId, UserId), RouteOutcome>)
    ensures r.Err? ==> r.error != Done
    ensures r == Err(ToLogin) <==> session.user.None?
    ensures r == Err(ToIndex) <==> session.user.Some? && !formValid
    ensures r == Err(UnknownUser) <==>
      session.user.Some? && formValid && forall i :: 0 <= i < |users| ==> users[i].username != username
    ensures r.Ok? ==> exists i :: 0 <= i < |users| && users[i].username == username && users[i].id == r.value.1
    ensures r.Ok? ==> GetCurrentUser(session, users).Some? && GetCurrentUser(session, users).value.id == r.value.0
    ensures r.Ok? ==> r.value.0 != r.value.1
    ensures r == Err(Crashed) <==>
      session.user.Some? && formValid && (exists i :: 0 <= i < |users| && users[i].username == username) &&
      GetCurrentUser(session, users).None?
    ensures r == Err(SelfTarget) <==>
      session.user.Some? && formValid && GetCurrentUser(session, users).Some? &&
      exists t :: FirstNamed(users, username, t) && users[t].id == GetCurrentUser(session, users).value.id
    ensures r.Ok? <==>
      session.user.Some? && formValid && GetCurrentUser(session, users).Some? &&
      exists t :: FirstNamed(users, username, t) && users[t].id != GetCurrentUser(session, users).value.id
  {
    if session.user.None? then Err(ToLogin)
    else if !formValid then Err(ToIndex)
    else
      match FirstIndex(users, HasUsername(username))
      case None => Err(UnknownUser)
      case Some(t) =>
        var target := users[t];
        match GetCurrentUser(session, users)
        case None => Err(Crashed)
        case Some(current) =>
          if target.id == current.id then Err(SelfTarget) else Ok((current.id, target.id))
  }

  /** `/follow/<username>`: the relation changes only when the guard passes,
      and never gains a user following themselves. */
  function FollowRoute(session: Session, formValid: bool, username: string, users: seq<User>, rel: FollowRelation): (r: (RouteOutcome, FollowRelation))
    ensures r.0 != Done ==> r.1 == rel
    ensures forall u: UserId :: IsFollowing(r.1, u, u) ==> IsFollowing(rel, u, u)
    ensures r.0 == Done <==> FollowGuard(session, formValid, username, users).Ok?
    ensures r.0 == Done ==>
      var (a, b) := FollowGuard(session, formValid, username, users).value;
      IsFollowing(r.1, a, b) && forall x: UserId, y: UserId :: (x, y) != (a, b) ==> (IsFollowing(r.1, x, y) <==> IsFollowing(rel, x, y))
  {
    match FollowGuard(session, formValid, username, users)
    case Err(o) => (o, rel)
    case Ok((a, b)) => (Done, Follow(rel, a, b))
  }

  /** `/unfollow/<username>`: the relation changes only when the guard passes. */
  function UnfollowRoute(session: Session, formValid: bool, username: string, users: seq<User>, rel: FollowRelation): (r: (RouteOutcome, FollowRelation))
    ensures r.0 != Done ==> r.1 == rel
    ensures r.0 == Done <==> FollowGuard(session, formValid, username, users).Ok?
    ensures r.0 == Done ==>
      var (a, b) := FollowGuard(session, formValid, username, users).value;
      !IsFollowing(r.1, a, b) && forall x: UserId, y: UserId :: (x, y) != (a, b) ==> (IsFollowing(r.1, x, y) <==> IsFollowing(rel, x, y))
  {
    match FollowGuard(session, formValid, username, users)
    case Err(o) => (o, rel)
    case Ok((a, b)) => (Done, Unfollow(rel, a, b))
  }

  // ---------------------------------------------------------------------------
  // The messages page

  const UnreadCountName: string := "unread_message_count"

  /** Viewing `/messages` at time now: the current user's read watermark moves
      to now and its unread-count notification is reset to 0.  None stands
      for the redirect to the login page (no session user); a session user
      that is not stored makes the handler raise, which is Some(None). */
  function ReadMessages(session: Session, users: seq<User>, ns: seq<Notification>, now: Instant): (r: Option<Option<(seq<User>, seq<Notification>)>>)
    ensures r.None? <==> session.user.None?
    ensures r == Some(None) <==> session.user.Some? && CurrentUserIndex(session, users).None?
    ensures r.Some? && r.value.Some? ==>
      var k := CurrentUserIndex(session, users).value;
      var (users', ns') := r.value.value;
      users' == users[k := users[k].(lastMessageReadTime := Some(now))] &&
      Filter(ns', InSlot(users[k].id, UnreadCountName)) == [Notification(users[k].id, UnreadCountName, "0", now)] &&
      Filter(ns', OutsideSlot(users[k].id, UnreadCountName)) == Filter(ns, OutsideSlot(users[k].id, UnreadCountName))
  {
    if session.user.None? then None
    else
      match CurrentUserIndex(session, users)
      case None => Some(None)
      case Some(k) =>
        var u := users[k];
        Some(Some((users[k := u.(lastMessageReadTime := Some(now))], AddNotification(ns, u.id, UnreadCountName, "0", now))))
  }

  /** Once the messages page has been viewed at time now, no message sent at
      or before now counts as unread. */
  lemma {:induction false} ReadMessagesClearsUnread(session: Session, users: seq<User>, ns: seq<Notification>, now: Instant, msgs: seq<Message>)
    requires ReadMessages(session, users, ns, now).Some? && ReadMessages(session, users, ns, now).value.Some?
    requires forall i :: 0 <= i < |msgs| ==> msgs[i].timestamp <= now
    ensures var k := CurrentUserIndex(session, users).value;
      var users' := ReadMessages(session, users, ns, now).value.value.0;
      Filter(msgs, UnreadBy(users'[k].id, ReadWatermark(users'[k]))) == []
  {
    var k := CurrentUserIndex(session, users).value;
    var users' := ReadMessages(session, users, ns, now).value.value.0;
    assert ReadWatermark(users'[k]) == now;
    FilterNone(msgs, UnreadBy(users'[k].id, now));
  }
}

=== FILE: json.dfy ===
/** JSON-like values exchanged between the browser, the server and the
    calendar provider, with the truthiness rules of the two languages that
    inspect them. */
module Json {
  import opened Common

  /** A JSON value.  Numbers are integral; `JTime(t)` is a Python datetime
      carrying instant t where the server writes it with `isoformat()` alone,
      as in an event's `dateTime`.  The texts that append a `Z` are built
      explicitly by the calendar service. */
  datatype Value =
    | JNull
    | JBool(b: bool)
    | JNum(n: int)
    | JStr(s: string)
    | JArr(items: seq<Value>)
    | JObj(fields: map<string, Value>)
    | JTime(t: Instant)

  /** Python truthiness: None, False, 0 and empty str/list/dict are false;
      a datetime is always true. */
  predicate PyTruthy(v: Value) {
    match v
    case JNull => false
    case JBool(b) => b
    case JNum(n) => n != 0
    case JStr(s) => s != ""
    case JArr(a) => a != []
    case JObj(m) => m != map[]
    case JTime(_) => true
  }

  /** JavaScript truthiness of a parsed JSON value: null, false, 0 and ""
      are false; every array and object is true. */
  predicate JsTruthy(v: Value) {
    match v
    case JNull => false
    case JBool(b) => b
    case JNum(n) => n != 0
    case JStr(s) => s != ""
    case _ => true
  }

  /** What a Python `for x in v` loop visits: the items of a list or the
      one-character strings of a str.  None means the loop raises. */
  function PyIterate(v: Value): (r: Option<seq<Value>>)
    ensures v.JArr? ==> r == Some(v.items)
    ensures v.JStr? ==> r.Some? && |r.value| == |v.s|
    ensures !v.JArr? && !v.JStr? ==> r.None?
  {
    match v
    case JArr(a) => Some(a)
    case JStr(s) => Some(seq(|s|, i requires 0 <= i < |s| => JStr([s[i]])))
    case _ => None
  }

  /** `d.get(key, default)`: the value stored under key, else the default. */
  function Get(d: map<string, Value>, key: string, default: Value): Value {
    if key in d then d[key] else default
  }
}

=== FILE: models.dfy ===
/** The persistent records of the application and the operations defined on
    them in `app/models.py`: the follow graph, the home timeline, API tokens,
    notifications, the unread-message counter and family memberships.  Each
    table is a sequence of rows in insertion (id) order. */
module Models {
  import opened Common

  type UserId = nat
  type FamilyId = nat

  /** A row of the user table (profile-image and last-seen columns omitted). */
  datatype User = User(
    id: UserId,
    username: string,
    email: string,
    sub: string,
    aboutMe: Option<string>,
    lastMessageReadTime: Option<Instant>,
    token: Option<string>,
    tokenExpiration: Option<Instant>)

  /** A user row as first inserted: only id, username, email and sub are set. */
  function NewUser(id: UserId, username: string, email: string, sub: string): User {
    User(id, username, email, sub, None, None, None, None)
  }

  // ---------------------------------------------------------------------------
  // The follow graph

  /** The `followers` association table.  Its two columns form the primary
      key, so a (follower, followed) pair occurs at most once: a set. */
  type FollowRelation = set<(UserId, UserId)>

  predicate IsFollowing(rel: FollowRelation, follower: UserId, followed: UserId) {
    (follower, followed) in rel
  }

  /** `follower.follow(followed)`: adds the pair unless it is already there. */
  function Follow(rel: FollowRelation, follower: UserId, followed: UserId): (r: FollowRelation)
    ensures IsFollowing(r, follower, followed)
    ensures IsFollowing(rel, follower, followed) ==> r == rel
    ensures forall a: UserId, b: UserId :: (a, b) != (follower, followed) ==> (IsFollowing(r, a, b) <==> IsFollowing(rel, a, b))
    ensures |r| == |rel| + (if IsFollowing(rel, follower, followed) then 0 else 1)
  {
    if IsFollowing(rel, follower, followed) then rel else rel + {(follower, followed)}
  }

  /** `follower.unfollow(followed)`: removes the pair if it is there. */
  function Unfollow(rel: FollowRelation, follower: UserId, followed: UserId): (r: FollowRelation)
    ensures !IsFollowing(r, follower, followed)
    ensures !IsFollowing(rel, follower, followed) ==> r == rel
    ensures forall a: UserId, b: UserId :: (a, b) != (follower, followed) ==> (IsFollowing(r, a, b) <==> IsFollowing(rel, a, b))
    ensures |r| == |rel| - (if IsFollowing(rel, follower, followed) then 1 else 0)
  {
    if IsFollowing(rel, follower, followed) then rel - {(follower, followed)} else rel
  }

  /** Following twice is following once. */
  lemma FollowIdempotent(rel: FollowRelation, a: UserId, b: UserId)
    ensures Follow(Follow(rel, a, b), a, b) == Follow(rel, a, b)
  {
  }

  /** Unfollowing right after a follow restores the relation it started from. */
  lemma UnfollowUndoesFollow(rel: FollowRelation, a: UserId, b: UserId)
    requires !IsFollowing(rel, a, b)
    ensures Unfollow(Follow(rel, a, b), a, b) == rel
  {
  }

  /** Following right after an unfollow restores the relation it started from. */
  lemma FollowUndoesUnfollow(rel: FollowRelation, a: UserId, b: UserId)
    requires IsFollowing(rel, a, b)
    ensures Follow(Unfollow(rel, a, b), a, b) == rel
  {
  }

  // ---------------------------------------------------------------------------
  // The home timeline

  datatype Post = Post(id: nat, body: string, timestamp: Instant, authorId: UserId, familyId: Option<FamilyId>)

  /** A post belongs on `viewer`'s timeline when the viewer wrote it or follows
      its author. */
  predicate OnTimeline(rel: FollowRelation, viewer: UserId, p: Post) {
    p.authorId == viewer || IsFollowing(rel, viewer, p.authorId)
  }

  function TimelineOf(rel: FollowRelation, viewer: UserId): Post -> bool {
    (p: Post) => OnTimeline(rel, viewer, p)
  }

  predicate NewestFirst(ps: seq<Post>) {
    forall i, j :: 0 <= i < j < |ps| ==> ps[i].timestamp >= ps[j].timestamp
  }

  /** A post no older than the head of a newest-first list may go in front. */
  lemma PrependNewest(x: Post, rest: seq<Post>)
    requires NewestFirst(rest)
    requires rest != [] ==> x.timestamp >= rest[0].timestamp
    ensures NewestFirst([x] + rest)
  {
    var r := [x] + rest;
    forall i, j | 0 <= i < j < |r| ensures r[i].timestamp >= r[j].timestamp {
      assert r[j] == rest[j - 1];
      if i > 0 {
        assert r[i] == rest[i - 1];
      } else if j > 1 {
        assert rest[0].timestamp >= rest[j - 1].timestamp;
      }
    }
  }

  /** Inserts p into a newest-first list ahead of every post not newer than it. */
  function InsertByTime(p: Post, ps: seq<Post>): (r: seq<Post>)
    requires NewestFirst(ps)
    ensures |r| == |ps| + 1 && (r[0] == p || (ps != [] && r[0] == ps[0]))
    ensures NewestFirst(r)
    ensures multiset(r) == multiset(ps) + multiset{p}
    decreases |ps|
  {
    if ps == [] then [p]
    else if p.timestamp >= ps[0].timestamp then
      PrependNewest(p, ps);
      [p] + ps
    else
      var rest := InsertByTime(p, ps[1..]);
      assert ps == [ps[0]] + ps[1..];
      PrependNewest(ps[0], rest);
      [ps[0]] + rest
  }

  /** Orders posts newest first (`ORDER BY timestamp DESC`); posts with equal
      timestamps come out in an order the database does not fix. */
  function SortNewestFirst(ps: seq<Post>): (r: seq<Post>)
    ensures NewestFirst(r)
    ensures multiset(r) == multiset(ps)
    decreases |ps|
  {
    if ps == [] then []
    else
      assert ps == [ps[0]] + ps[1..];
      InsertByTime(ps[0], SortNewestFirst(ps[1..]))
  }

  /** `viewer.following_posts()`: the posts written by the viewer or by a user
      the viewer follows, each once, newest first. */
  function FollowingPosts(posts: seq<Post>, rel: FollowRelation, viewer: UserId): (r: seq<Post>)
    ensures forall p :: p in r <==> p in posts && OnTimeline(rel, viewer, p)
    ensures NewestFirst(r)
    ensures Distinct(posts) ==> Distinct(r)
  {
    var visible := Filter(posts, TimelineOf(rel, viewer));
    FilterMembers(posts, TimelineOf(rel, viewer));
    assert forall p :: p in visible <==> p in posts && OnTimeline(rel, viewer, p);
    var r := SortNewestFirst(visible);
    assert forall p :: p in r <==> p in visible by {
      forall p ensures p in r <==> p in visible {
        assert p in r <==> p in multiset(r);
        assert p in visible <==> p in multiset(visible);
      }
    }
    if Distinct(posts) then FilterDistinct(posts, TimelineOf(rel, viewer)); DistinctPermutation(visible, r); r else r
  }

  // ---------------------------------------------------------------------------
  // API tokens

  /** A token is reused only while it stays valid for more than this many seconds. */
  const TokenRenewalMargin: int := 60
  /** The default `expires_in` of `get_token`. */
  const DefaultTokenLifetime: int := 3600

  /** The token column is truthy: set and non-empty. */
  predicate HasToken(u: User) {
    u.token.Some? && u.token.value != ""
  }

  /** A user holding a token also has its expiration set; the token code reads
      the expiration of such a user without a check. */
  predicate TokenExpirySet(u: User) {
    u.token.Some? ==> u.tokenExpiration.Some?
  }

  /** The current token may be handed out again at `now`. */
  predicate TokenReusable(u: User, now: Instant)
    requires TokenExpirySet(u)
  {
    HasToken(u) && u.tokenExpiration.value > now + TokenRenewalMargin
  }

  /** `user.get_token(expires_in)` at time now; `newToken` stands for the random
      `secrets.token_hex(16)` value.  Returns the updated row and the token. */
  function GetToken(u: User, now: Instant, expiresIn: int, newToken: string): (r: (User, string))
    requires TokenExpirySet(u)
    ensures r.0.token == Some(r.1) && TokenExpirySet(r.0)
    ensures r.0 == u.(token := r.0.token, tokenExpiration := r.0.tokenExpiration)
    ensures TokenReusable(u, now) ==> r == (u, u.token.value)
    ensures !TokenReusable(u, now) ==> r.1 == newToken && r.0.tokenExpiration == Some(now + expiresIn)
    ensures r.0.tokenExpiration.value > now + TokenRenewalMargin || r.0.tokenExpiration.value == now + expiresIn
  {
    if TokenReusable(u, now) then (u, u.token.value)
    else (u.(token := Some(newToken), tokenExpiration := Some(now + expiresIn)), newToken)
  }

  /** `user.revoke_token()` at time now: the expiration moves one second into
      the past, so the token fails every check from now on. */
  function RevokeToken(u: User, now: Instant): (r: User)
    ensures r.tokenExpiration.Some? && r.tokenExpiration.value < now
    ensures r.token == u.token && TokenExpirySet(r)
    ensures r == u.(tokenExpiration := r.tokenExpiration)
  {
    u.(tokenExpiration := Some(now - 1))
  }

  predicate TokensWellFormed(users: seq<User>) {
    forall i :: 0 <= i < |users| ==> TokenExpirySet(users[i])
  }

  /** The unique constraint on the token column. */
  predicate TokensUnique(users: seq<User>) {
    forall i, j :: 0 <= i < j < |users| && users[i].token.Some? ==> users[i].token != users[j].token
  }

  function HoldsToken(token: string): User -> bool {
    (u: User) => u.token == Some(token)
  }

  /** `User.check_token(token)` at time now: the holder of the token, unless
      there is none or its expiration lies strictly before now. */
  function CheckToken(users: seq<User>, token: string, now: Instant): (r: Option<User>)
    requires TokensWellFormed(users)
    ensures r.Some? ==> r.value in users && r.value.token == Some(token) && r.value.tokenExpiration.value >= now
    ensures TokensUnique(users) ==>
      (r.Some? <==> exists i :: 0 <= i < |users| && users[i].token == Some(token) && users[i].tokenExpiration.value >= now)
  {
    match FirstIndex(users, HoldsToken(token))
    case None => None
    case Some(k) =>
      assert TokensUnique(users) ==> forall i :: 0 <= i < |users| && users[i].token == Some(token) ==> i == k by {
        if TokensUnique(users) {
          forall i | 0 <= i < |users| && users[i].token == Some(token)
            ensures i == k
          {
            assert HoldsToken(token)(users[i]);
          }
        }
      }
      if users[k].tokenExpiration.value < now then None else Some(users[k])
  }

  /** A token handed out by `get_token` passes `check_token` at the time it was
      handed out, provided the random value is not already some other user's. */
  lemma IssuedTokenChecks(users: seq<User>, i: nat, now: Instant, expiresIn: nat, newToken: string)
    requires TokensWellFormed(users) && TokensUnique(users) && i < |users|
    requires forall j :: 0 <= j < |users| && j != i ==> users[j].token != Some(newToken)
    ensures var (u, tok) := GetToken(users[i], now, expiresIn, newToken);
      var users' := users[i := u];
      TokensWellFormed(users') && TokensUnique(users') && CheckToken(users', tok, now) == Some(u)
  {
    var (u, tok) := GetToken(users[i], now, expiresIn, newToken);
    var users' := users[i := u];
    assert forall j :: 0 <= j < |users'| && j != i ==> users'[j].token != Some(tok);
    assert HoldsToken(tok)(users'[i]);
    var k := FirstIndex(users', HoldsToken(tok));
    assert k == Some(i);
  }

  /** After `revoke_token` at time t the token fails every check made at t or later. */
  lemma RevokedTokenFails(users: seq<User>, i: nat, t: Instant, now: Instant)
    requires TokensWellFormed(users) && TokensUnique(users) && i < |users|
    requires users[i].token.Some? && now >= t
    ensures var users' := users[i := RevokeToken(users[i], t)];
      TokensWellFormed(users') && CheckToken(users', users[i].token.value, now).None?
  {
    var users' := users[i := RevokeToken(users[i], t)];
    assert TokensUnique(users');
  }

  // ---------------------------------------------------------------------------
  // Notifications

  datatype Notification = Notification(userId: UserId, name: string, payload: string, timestamp: Instant)

  /** The notifications of one user carrying one name. */
  function InSlot(userId: UserId, name: string): Notification -> bool {
    (n: Notification) => n.userId == userId && n.name == name
  }

  function OutsideSlot(userId: UserId, name: string): Notification -> bool {
    (n: Notification) => !(n.userId == userId && n.name == name)
  }

  /** `user.add_notification(name, data)`: deletes the user's notifications of
      that name and appends a new one.  `payload` is the JSON text of `data`. */
  function AddNotification(ns: seq<Notification>, userId: UserId, name: string, payload: string, now: Instant): (r: seq<Notification>)
    ensures Filter(r, InSlot(userId, name)) == [Notification(userId, name, payload, now)]
    ensures Filter(r, OutsideSlot(userId, name)) == Filter(ns, OutsideSlot(userId, name))
  {
    var kept := Filter(ns, OutsideSlot(userId, name));
    var n := Notification(userId, name, payload, now);
    FilterAppend(kept, [n], InSlot(userId, name));
    FilterAppend(kept, [n], OutsideSlot(userId, name));
    FilterSatisfies(ns, OutsideSlot(userId, name));
    FilterNone(kept, InSlot(userId, name));
    FilterAll(kept, OutsideSlot(userId, name));
    kept + [n]
  }

  // ---------------------------------------------------------------------------
  // Unread messages

  datatype Message = Message(id: nat, senderId: UserId, recipientId: UserId, body: string, timestamp: Instant)

  /** 1900-01-01T00:00:00, the read watermark of a user who never read messages. */
  const Year1900: Instant := -2208988800

  function ReadWatermark(u: User): Instant {
    u.lastMessageReadTime.GetOr(Year1900)
  }

  /** Messages to uid sent strictly after `since`. */
  function UnreadBy(uid: UserId, since: Instant): Message -> bool {
    (m: Message) => m.recipientId == uid && m.timestamp > since
  }

  /** `user.unread_message_count()`: counts, one row at a time, the messages
      to the user newer than the read watermark. */
  method UnreadMessageCount(msgs: seq<Message>, u: User) returns (n: nat)
    ensures n == |Filter(msgs, UnreadBy(u.id, ReadWatermark(u)))|
  {
    var since := ReadWatermark(u);
    n := 0;
    var i := 0;
    while i < |msgs|
      invariant 0 <= i <= |msgs|
      invariant n == |Filter(msgs[..i], UnreadBy(u.id, since))|
    {
      assert msgs[..i + 1] == msgs[..i] + [msgs[i]];
      FilterAppend(msgs[..i], [msgs[i]], UnreadBy(u.id, since));
      if msgs[i].recipientId == u.id && msgs[i].timestamp > since {
        n := n + 1;
      }
      i := i + 1;
    }
    assert msgs[..|msgs|] == msgs;
  }

  // ---------------------------------------------------------------------------
  // Families and memberships

  datatype Membership = Membership(id: nat, userId: UserId, familyId: FamilyId)

  predicate IsMember(ms: seq<Membership>, u: UserId, f: FamilyId) {
    exists i :: 0 <= i < |ms| && ms[i].userId == u && ms[i].familyId == f
  }

  /** The unique constraint `uq_membership_user_family`. */
  predicate OneMembershipPerPair(ms: seq<Membership>) {
    forall i, j :: 0 <= i < j < |ms| ==> !(ms[i].userId == ms[j].userId && ms[i].familyId == ms[j].familyId)
  }

  lemma IsMemberCons(ms: seq<Membership>, u: UserId, f: FamilyId)
    requires ms != []
    ensures IsMember(ms, u, f) <==> (ms[0].userId == u && ms[0].familyId == f) || IsMember(ms[1..], u, f)
  {
    if IsMember(ms, u, f) && !(ms[0].userId == u && ms[0].familyId == f) {
      var i :| 0 <= i < |ms| && ms[i].userId == u && ms[i].familyId == f;
      assert ms[1..][i - 1] == ms[i];
    }
    if IsMember(ms[1..], u, f) {
      var i :| 0 <= i < |ms[1..]| && ms[1..][i].userId == u && ms[1..][i].familyId == f;
      assert ms[i + 1] == ms[1..][i];
    }
  }

  /** Inserting a membership row; the database rejects a second row for the
      same (user, family) pair. */
  function AddMembership(ms: seq<Membership>, id: nat, u: UserId, f: FamilyId): (r: Option<seq<Membership>>)
    ensures r.None? <==> IsMember(ms, u, f)
    ensures r.Some? ==> IsMember(r.value, u, f) && |r.value| == |ms| + 1 && r.value[..|ms|] == ms
    ensures r.Some? && OneMembershipPerPair(ms) ==> OneMembershipPerPair(r.value)
  {
    if IsMember(ms, u, f) then None
    else
      var r := ms + [Membership(id, u, f)];
      assert r[|ms|].userId == u && r[|ms|].familyId == f;
      Some(r)
  }

  /** `family.members`: the users of the family's membership rows, in row order. */
  function Members(ms: seq<Membership>, f: FamilyId): (r: seq<UserId>)
    ensures forall u :: u in r <==> IsMember(ms, u, f)
    ensures OneMembershipPerPair(ms) ==> Distinct(r)
    decreases |ms|
  {
    if ms == [] then []
    else
      var rest := Members(ms[1..], f);
      assert forall u :: IsMember(ms, u, f) <==> (ms[0].userId == u && ms[0].familyId == f) || IsMember(ms[1..], u, f) by {
        forall u ensures IsMember(ms, u, f) <==> (ms[0].userId == u && ms[0].familyId == f) || IsMember(ms[1..], u, f) {
          IsMemberCons(ms, u, f);
        }
      }
      if ms[0].familyId == f then
        if OneMembershipPerPair(ms) then
          assert OneMembershipPerPair(ms[1..]) by {
            forall i, j | 0 <= i < j < |ms[1..]|
              ensures !(ms[1..][i].userId == ms[1..][j].userId && ms[1..][i].familyId == ms[1..][j].familyId)
            {
              assert ms[1..][i] == ms[i + 1] && ms[1..][j] == ms[j + 1];
            }
          }
          assert ms[0].userId !in rest;
          DistinctCons(ms[0].userId, rest);
          [ms[0].userId] + rest
        else [ms[0].userId] + rest
      else
        if OneMembershipPerPair(ms) then
          assert OneMembershipPerPair(ms[1..]) by {
            forall i, j | 0 <= i < j < |ms[1..]|
              ensures !(ms[1..][i].userId == ms[1..][j].userId && ms[1..][i].familyId == ms[1..][j].familyId)
            {
              assert ms[1..][i] == ms[i + 1] && ms[1..][j] == ms[j + 1];
            }
          }
          rest
        else rest
  }

  /** `user.families`: the families of the user's membership rows, in row order. */
  function Families(ms: seq<Membership>, u: UserId): (r: seq<FamilyId>)
    ensures forall f :: f in r <==> IsMember(ms, u, f)
    decreases |ms|
  {
    if ms == [] then []
    else
      var rest := Families(ms[1..], u);
      assert forall f :: IsMember(ms, u, f) <==> (ms[0].userId == u && ms[0].familyId == f) || IsMember(ms[1..], u, f) by {
        forall f ensures IsMember(ms, u, f) <==> (ms[0].userId == u && ms[0].familyId == f) || IsMember(ms[1..], u, f) {
          IsMemberCons(ms, u, f);
        }
      }
      if ms[0].userId == u then [ms[0].familyId] + rest else rest
  }

  /** The two derived views agree with each other and with the membership rows. */
  lemma MembershipViewsAgree(ms: seq<Membership>, u: UserId, f: FamilyId)
    ensures u in Members(ms, f) <==> IsMember(ms, u, f)
    ensures f in Families(ms, u) <==> IsMember(ms, u, f)
  {
  }

  // ---------------------------------------------------------------------------
  // Family invites: only the declared columns exist; no shown operation issues
  // or redeems them.

  datatype FamilyInvite = FamilyInvite(
    id: nat,
    familyId: FamilyId,
    token: string,
    invitedEmail: Option<string>,
    createdAt: Instant,
    expiresAt: Option<Instant>,
    accepted: bool)

  /** The unique constraint on the invite token column. */
  predicate InviteTokensUnique(invites: seq<FamilyInvite>) {
    forall i, j :: 0 <= i < j < |invites| ==> invites[i].token != invites[j].token
  }
}

=== FILE: pyint.dfy ===
/** Python's `int()` on a text and `str()` on a natural number, as far as
    the settings read from the environment need them. */
module PyInt {
  import opened Common
  import opened Text

  /** Digits with single underscores between them, as `int()` accepts. */
  predicate DigitGroups(ds: string) {
    && ds != []
    && IsDigit(ds[0]) && IsDigit(ds[|ds| - 1])
    && (forall i :: 0 <= i < |ds| ==> IsDigit(ds[i]) || ds[i] == '_')
    && (forall i :: 0 <= i < |ds| - 1 ==> ds[i] == '_' ==> ds[i + 1] != '_')
  }

  /** The value of a string of decimal digits, most significant first. */
  function DecimalValue(ds: string): nat
    requires forall i :: 0 <= i < |ds| ==> IsDigit(ds[i])
    decreases |ds|
  {
    if ds == [] then 0
    else DecimalValue(ds[..|ds| - 1]) * 10 + DigitValue(ds[|ds| - 1])
  }

  function NotUnderscore(): char -> bool {
    c => c != '_'
  }

  /** The value of unsigned digit groups, None when malformed. */
  function ParseUnsigned(t: string): (r: Option<nat>)
    ensures r.Some? <==> DigitGroups(t)
  {
    if DigitGroups(t) then
      FilterSatisfies(t, NotUnderscore());
      Some(DecimalValue(Filter(t, NotUnderscore())))
    else None
  }

  /** An optional sign followed by digit groups. */
  function ParseSigned(t: string): Option<int> {
    if t != [] && (t[0] == '-' || t[0] == '+') then
      match ParseUnsigned(t[1..])
      case None => None
      case Some(n) => Some(if t[0] == '-' then -(n as int) else n as int)
    else
      match ParseUnsigned(t)
      case None => None
      case Some(n) => Some(n as int)
  }

  /** `int(s)` for a str: white space around an optional sign and digit
      groups; None is the ValueError raised for anything else. */
  function PyParseInt(s: string): (r: Option<int>)
    ensures r.Some? ==> Trim(s, IsPySpace) != ""
  {
    ParseSigned(Trim(s, IsPySpace))
  }

  /** The decimal spelling of n, without leading zeros. */
  function ShowNat(n: nat): (s: string)
    ensures s != [] && forall i :: 0 <= i < |s| ==> IsDigit(s[i])
    ensures DecimalValue(s) == n
  {
    if n < 10 then
      var s := [DigitChar(n)];
      assert s[..0] == [];
      s
    else
      var s := ShowNat(n / 10) + [DigitChar(n % 10)];
      assert s[..|s| - 1] == ShowNat(n / 10);
      s
  }

  /** A plain run of decimal digits is well-formed digit groups of its value. */
  lemma ParseDigitsUnsigned(s: string)
    requires s != [] && forall i :: 0 <= i < |s| ==> IsDigit(s[i])
    ensures ParseUnsigned(s) == Some(DecimalValue(s))
  {
    FilterAll(s, NotUnderscore());
  }

  /** Trimming leaves a text of digits, signed or not, alone. */
  lemma TrimDigits(s: string, sign: string)
    requires s != [] && forall i :: 0 <= i < |s| ==> IsDigit(s[i])
    requires sign == "" || sign == "-"
    ensures Trim(sign + s, IsPySpace) == sign + s
  {
    var m := sign + s;
    assert m[0] == '-' || m[0] == s[0];
    assert m[|m| - 1] == s[|s| - 1];
    TrimClean(m, IsPySpace);
  }

  /** Digits without a sign keep their value. */
  lemma ParsePlainDigits(s: string)
    requires s != [] && forall i :: 0 <= i < |s| ==> IsDigit(s[i])
    ensures ParseSigned(s) == Some(DecimalValue(s) as int)
  {
    ParseDigitsUnsigned(s);
  }

  /** A minus sign in front of digit groups negates their value. */
  lemma ParseSignedMinus(s: string, n: nat)
    requires ParseUnsigned(s) == Some(n)
    ensures ParseSigned("-" + s) == Some(-(n as int))
  {
    var t := "-" + s;
    assert t[1..] == s;
  }

  /** A text that trimming leaves alone parses as `ParseSigned` reads it. */
  lemma PyParseIntTrimmed(t: string)
    requires Trim(t, IsPySpace) == t
    ensures PyParseInt(t) == ParseSigned(t)
  {
  }

  /** A minus sign in front of digits negates their value. */
  lemma ParseNegatedDigits(s: string)
    requires s != [] && forall i :: 0 <= i < |s| ==> IsDigit(s[i])
    ensures ParseSigned("-" + s) == Some(-(DecimalValue(s) as int))
  {
    ParseDigitsUnsigned(s);
    ParseSignedMinus(s, DecimalValue(s));
  }

  /** A plain run of decimal digits parses to its value. */
  lemma PyParseIntDigits(s: string)
    requires s != [] && forall i :: 0 <= i < |s| ==> IsDigit(s[i])
    ensures PyParseInt(s) == Some(DecimalValue(s) as int)
  {
    assert ParseSigned(s) == Some(DecimalValue(s) as int) by { ParsePlainDigits(s); }
    assert Trim(s, IsPySpace) == s by {
      TrimDigits(s, "");
      assert "" + s == s;
    }
    PyParseIntTrimmed(s);
  }

  /** A minus sign in front of digits negates their value. */
  lemma PyParseIntNegatedDigits(s: string)
    requires s != [] && forall i :: 0 <= i < |s| ==> IsDigit(s[i])
    ensures PyParseInt("-" + s) == Some(-(DecimalValue(s) as int))
  {
    assert PyParseInt("-" + s) == ParseSigned("-" + s) by {
      TrimDigits(s, "-");
      PyParseIntTrimmed("-" + s);
    }
    ParseNegatedDigits(s);
  }
}

=== FILE: text.dfy ===
/** String helpers with the exact semantics of the Python and JavaScript
    built-ins the application calls: `str.replace` with a one-character
    pattern, `split`, `join`, `strip`/`trim` with each language's whitespace
    set, ASCII lower-casing and decimal digits. */
module Text {
  import opened Common

  predicate IsDigit(c: char) {
    '0' <= c <= '9'
  }

  function DigitValue(c: char): (d: nat)
    requires IsDigit(c)
    ensures d < 10
  {
    (c as int) - ('0' as int)
  }

  function DigitChar(d: nat): (c: char)
    requires d < 10
    ensures IsDigit(c) && DigitValue(c) == d
  {
    ((('0' as int) + d) as char)
  }

  /** Index of the first occurrence of c in s. */
  function IndexOf(s: string, c: char): (k: nat)
    requires c in s
    ensures k < |s| && s[k] == c
    ensures c !in s[..k]
    decreases |s|
  {
    if s[0] == c then 0
    else
      var k := IndexOf(s[1..], c);
      assert s[..k + 1] == [s[0]] + s[1..][..k];
      k + 1
  }

  /** The index of c is k when s[k] is the first c. */
  lemma IndexOfIs(s: string, c: char, k: nat)
    requires k < |s| && s[k] == c && c !in s[..k]
    ensures IndexOf(s, c) == k
  {
    var m := IndexOf(s, c);
    assert forall j :: 0 <= j < k ==> s[..k][j] == s[j];
    assert forall j :: 0 <= j < m ==> s[..m][j] == s[j];
    assert m >= k;
    assert m <= k;
  }

  /** `s.replace(c, rep)` for a one-character pattern c: every occurrence of c
      is replaced, left to right. */
  function ReplaceChar(s: string, c: char, rep: string): (r: string)
    ensures c !in rep ==> c !in r
    ensures c !in s ==> r == s
    ensures |rep| == 1 ==> |r| == |s|
    ensures |rep| == 1 ==> forall i :: 0 <= i < |s| ==> r[i] == (if s[i] == c then rep[0] else s[i])
    decreases |s|
  {
    if s == [] then []
    else (if s[0] == c then rep else [s[0]]) + ReplaceChar(s[1..], c, rep)
  }

  lemma {:induction false} ReplaceCharAppend(a: string, b: string, c: char, rep: string)
    ensures ReplaceChar(a + b, c, rep) == ReplaceChar(a, c, rep) + ReplaceChar(b, c, rep)
    decreases |a|
  {
    if a == [] {
      assert a + b == b;
    } else {
      var h := if a[0] == c then rep else [a[0]];
      var rest := ReplaceChar(a[1..], c, rep);
      var tail := ReplaceChar(b, c, rep);
      assert ReplaceChar(a + b, c, rep) == h + ReplaceChar(a[1..] + b, c, rep) by {
        assert (a + b)[0] == a[0] && (a + b)[1..] == a[1..] + b;
      }
      ReplaceCharAppend(a[1..], b, c, rep);
      assert h + (rest + tail) == (h + rest) + tail;
    }
  }

  /** `s.split(sep)` in both Python and JavaScript for a one-character
      separator: the pieces between separators, so "" gives [""] and a
      trailing separator gives a trailing "". */
  function Split(s: string, sep: char): (parts: seq<string>)
    ensures |parts| >= 1
    ensures forall i :: 0 <= i < |parts| ==> sep !in parts[i]
    decreases |s|
  {
    if sep !in s then [s]
    else
      var k := IndexOf(s, sep);
      [s[..k]] + Split(s[k + 1..], sep)
  }

  /** `sep.join(parts)` (Python) or `parts.join(sep)` (JavaScript). */
  function Join(parts: seq<string>, sep: string): string
    decreases |parts|
  {
    if parts == [] then ""
    else if |parts| == 1 then parts[0]
    else parts[0] + sep + Join(parts[1..], sep)
  }

  /** Joining the pieces of a split restores the text. */
  lemma {:induction false} JoinSplit(s: string, sep: char)
    ensures Join(Split(s, sep), [sep]) == s
    decreases |s|
  {
    if sep in s {
      var k := IndexOf(s, sep);
      var tail := Split(s[k + 1..], sep);
      assert Join(Split(s, sep), [sep]) == s[..k] + [sep] + Join(tail, [sep]) by {
        assert Split(s, sep) == [s[..k]] + tail;
        assert ([s[..k]] + tail)[1..] == tail;
      }
      JoinSplit(s[k + 1..], sep);
      assert s == s[..k] + [sep] + s[k + 1..];
    }
  }

  /** Splitting a join restores the pieces when no piece holds the separator. */
  lemma {:induction false} SplitJoin(parts: seq<string>, sep: char)
    requires |parts| >= 1
    requires forall i :: 0 <= i < |parts| ==> sep !in parts[i]
    ensures Split(Join(parts, [sep]), sep) == parts
    decreases |parts|
  {
    if |parts| > 1 {
      var rest := Join(parts[1..], [sep]);
      var s := parts[0] + [sep] + rest;
      assert sep in s by { assert s[|parts[0]|] == sep; }
      var k := IndexOf(s, sep);
      assert s[..|parts[0]|] == parts[0];
      assert k == |parts[0]|;
      assert s[..k] == parts[0];
      assert s[k + 1..] == rest;
      SplitJoin(parts[1..], sep);
    }
  }

  /** Line terminators: the characters `.` in a JavaScript regular expression
      does not match. */
  predicate IsLineTerminator(c: char) {
    c == '\n' || c == '\r' || c == '\U{2028}' || c == '\U{2029}'
  }

  /** JavaScript white space and line terminators: what `\s` matches and what
      `String.prototype.trim` removes. */
  predicate IsJsSpace(c: char) {
    || c == '\t' || c == '\U{000B}' || c == '\U{000C}' || c == ' ' || c == '\U{00A0}'
    || c == '\U{FEFF}' || c == '\U{1680}' || ('\U{2000}' <= c <= '\U{200A}')
    || c == '\U{202F}' || c == '\U{205F}' || c == '\U{3000}'
    || IsLineTerminator(c)
  }

  /** Python white space: the characters `str.isspace` accepts and `str.strip`
      removes. */
  predicate IsPySpace(c: char) {
    || ('\t' <= c <= '\r') || ('\U{001C}' <= c <= ' ') || c == '\U{0085}' || c == '\U{00A0}'
    || c == '\U{1680}' || ('\U{2000}' <= c <= '\U{200A}') || c == '\U{2028}' || c == '\U{2029}'
    || c == '\U{202F}' || c == '\U{205F}' || c == '\U{3000}'
  }

  /** s without its leading characters that satisfy space. */
  function TrimStart(s: string, space: char -> bool): (r: string)
    ensures |r| <= |s| && r == s[|s| - |r|..]
    ensures r == [] || !space(r[0])
    ensures forall i :: 0 <= i < |s| - |r| ==> space(s[i])
    decreases |s|
  {
    if s != [] && space(s[0]) then TrimStart(s[1..], space) else s
  }

  /** Trimming the part of s after position k leaves a suffix of s. */
  lemma TrimStartAfter(s: string, k: nat, space: char -> bool)
    requires k < |s|
    ensures var r := TrimStart(s[k + 1..], space);
      r == s[|s| - |r|..]
  {
  }

  /** What trimming the part after position k removes lies between k and the
      suffix that is left. */
  lemma TrimStartAfterSpaces(s: string, k: nat, space: char -> bool)
    requires k < |s|
    ensures var r := TrimStart(s[k + 1..], space);
      forall j :: k < j < |s| - |r| ==> space(s[j])
  {
    var u := s[k + 1..];
    var r := TrimStart(u, space);
    forall j | k < j < |s| - |r|
      ensures space(s[j])
    {
      assert s[j] == u[j - k - 1];
    }
  }

  /** s without its trailing characters that satisfy space. */
  function TrimEnd(s: string, space: char -> bool): (r: string)
    ensures |r| <= |s| && r == s[..|r|]
    ensures r == [] || !space(r[|r| - 1])
    ensures forall i :: |r| <= i < |s| ==> space(s[i])
    decreases |s|
  {
    if s != [] && space(s[|s| - 1]) then TrimEnd(s[..|s| - 1], space) else s
  }

  /** `strip()` / `trim()`: both ends trimmed. */
  function Trim(s: string, space: char -> bool): (r: string)
    ensures r == [] || (!space(r[0]) && !space(r[|r| - 1]))
    ensures |r| <= |s|
  {
    TrimEnd(TrimStart(s, space), space)
  }

  /** Trimming removes characters and adds none. */
  lemma TrimInside(s: string, space: char -> bool, c: char)
    ensures c in Trim(s, space) ==> c in s
  {
    var a := TrimStart(s, space);
    var t := Trim(s, space);
    if c in t {
      var i :| 0 <= i < |t| && t[i] == c;
      assert t[i] == a[i];
      assert a[i] == s[|s| - |a| + i];
    }
  }

  /** Trimming leaves a text alone that neither starts nor ends with a space. */
  lemma TrimClean(s: string, space: char -> bool)
    requires s == [] || (!space(s[0]) && !space(s[|s| - 1]))
    ensures Trim(s, space) == s
  {
  }

  /** A trimmed text is empty exactly when every character is a space. */
  lemma {:induction false} TrimEmptyIff(s: string, space: char -> bool)
    ensures Trim(s, space) == [] <==> forall i :: 0 <= i < |s| ==> space(s[i])
  {
    var t := TrimStart(s, space);
    if t != [] {
      assert !space(t[0]);
      assert !space(s[|s| - |t|]);
    }
  }

  /** Upper-case ASCII letter to lower case; every other character unchanged. */
  function LowerAsciiChar(c: char): char {
    if 'A' <= c <= 'Z' then ((c as int) + 32) as char else c
  }

  /** ASCII lower-casing, character by character. */
  function LowerAscii(s: string): (r: string)
    ensures |r| == |s| && forall i :: 0 <= i < |s| ==> r[i] == LowerAsciiChar(s[i])
  {
    seq(|s|, i requires 0 <= i < |s| => LowerAsciiChar(s[i]))
  }
}
